=== FILE: README.md ===
# analisador_matriculas: updater and feedback core in Dafny

This project models the self-updating and feedback machinery of the
"RelatorioTJMS" desktop application (analisador_matriculas).

- **Two `AutoUpdater` classes.**
  - `src/updater.py` has a fallback `SimpleVersion` comparison, six VERSION-file locations, a VERSION-file sync and a batch helper that retries the copy three times.
  - The older `updater.py` uses `packaging.version`, reads only `app_dir\VERSION` and makes a single copy attempt.
  - Both ask GitHub for the latest release, pick the executable asset, stream the download into the temp directory, and hand over to a batch script. The script backs up the executable, copies the download over it, either restores the backup or writes the VERSION marker, then restarts the application.
- **Two `FeedbackSystem` classes** (`feedback_system.py`, `src/feedback_system.py`).
  - Both are a small state machine over the current process number. It sends an implicit success (`SUCESSO_AUTO`) when a report goes unchallenged, and an error (`ERRO`) when the user reports one.
  - Records are posted to a Google Form.
  - The first variant also keeps a local JSON copy capped at 100 records and reports statistics over it.
- **`LocalFeedbackManager`** (`scripts/implement_local_feedback.py`). It appends each feedback to a numbered JSON document and to a CSV sheet, summarises the five latest records, and aggregates uses and errors per LLM model.
- **`GoogleFormsIDExtractor`** (`scripts/extract_form_ids.py`). It derives the form's view URL, collects the `entry.<digits>` ids, and describes each field by type, label and preview. It also suggests which entry carries each feedback field and writes the `.env` lines for that mapping.

How the outside world is represented:

- The file system is a map from paths to contents (`UpdateCore.Disk`), or the file's parsed state (`StoreFile`, `JsonFile`).
- Network results are parameters (`Release`, `Stream`, `HttpResult`).
- The clock is a `now` string.
- A dialog is its answer, `Option<string>`.
- A regular-expression search is what it found.
- The batch script's commands are outcomes it cannot see: each `copy` is a Boolean, and the files whose unchecked `echo ... >` or `del` fails are sets (`Installer.Outcomes`).

Modules, one per file:

- `Common`: Option, Result, Python truthiness, `os.getenv`.
- `Strings`: `strip`, `lstrip`, `lower`, `split`/`join`, `replace`, code-point order.
- `OrderedMaps`: an insertion-ordered dict.
- `SimpleVersion`: the fallback version class.
- `UpdateCore`: the release check, VERSION files, the download and executable detection.
- `Installer`: the batch helper script.
- `SrcUpdater`, `RootUpdater`: the two updater classes.
- `FeedbackCore`, `FeedbackRoot`, `FeedbackSrc`: the shared feedback core and the two `FeedbackSystem` variants.
- `LocalFeedback`: `LocalFeedbackManager`.
- `FormIds`: `GoogleFormsIDExtractor`.

## Model

| member | source | states |
|---|---|---|
| Strings.Strip | feedback_system.py:145 | The result has no surrounding whitespace, and it is empty exactly when the input is all whitespace |
| Strings.LStripChar | src/updater.py:253 | `lstrip('v')` removes the whole leading run of the character and nothing else |
| Strings.SplitJoin | scripts/extract_form_ids.py:180 | Joining lines that hold no separator and splitting again gives back the same lines |
| Strings.ReplaceTrailing | scripts/extract_form_ids.py:28 | Replacing a pattern that occurs only once, at the end, swaps just that suffix |
| Strings.StrLtTotal | scripts/extract_form_ids.py:84 | Python's string order is total on distinct strings |
| SimpleVersion.NewVersion | src/updater.py:21-32 | The parts are the dot-separated pieces after one leading 'v' is dropped, with a piece of ASCII digits read as its number and any other piece as 0; there is always at least one part and none is negative |
| SimpleVersion.LexGtFirstDifference | src/updater.py:42-47 | The comparison loop answers True exactly when the first differing position favours the left version |
| SimpleVersion.GtAtLength | src/updater.py:38-40 | Padding both versions with zeros to any common length does not change `>` or equality |
| SimpleVersion.GtIrreflexive | src/updater.py:34-47 | No version is newer than itself |
| SimpleVersion.GtAsymmetric | src/updater.py:34-47 | If a is newer than b, b is not newer than a |
| SimpleVersion.GtTransitive | src/updater.py:34-47 | "Newer" is transitive |
| SimpleVersion.GtTrichotomy | src/updater.py:34-47 | Exactly one holds: a is newer, b is newer, or they are equal after zero padding |
| SimpleVersion.RenderParts | src/updater.py:27-32 | Parsing a dotted rendering of numbers gives the same numbers back |
| SimpleVersion.PartsOfRender | src/updater.py:27-32 | The parts of a rendered version equal its numbers |
| SimpleVersion.TrailingZeroEquivalent | src/updater.py:38-47 | "1.0" and "1.0.0" are the same version: neither is newer |
| SimpleVersion.NumericComparison | src/updater.py:24-47 | Pieces compare as numbers and one 'v' is ignored: v1.10 is newer than 1.9 |
| SimpleVersion.PatchComparison | src/updater.py:42-47 | A later patch number is newer |
| UpdateCore.ScanAssets | src/updater.py:263-267 | The asset scan stops at the first asset named `*.exe` or named like the executable, fails where an earlier asset has no name, and finds nothing only when every name is present and non-qualifying |
| UpdateCore.CheckRelease | src/updater.py:235-287 | An update is reported exactly when the release was fetched, its tag stripped of leading 'v's is newer than the current version, and the first qualifying asset has a download URL; the result carries that version, that asset's name and URL, and the body and publication date |
| UpdateCore.FirstQualifyingUnique | src/updater.py:264-267 | The scan's stopping asset is unique |
| UpdateCore.NotNewerNoUpdate | src/updater.py:259-280 | A tag that is not newer gives no update, whatever the assets |
| UpdateCore.SameVersionNoUpdate | src/updater.py:253-259 | With the fallback comparison the running version is never offered as an update |
| UpdateCore.ReadFirstVersion | src/updater.py:135-163 | The version is the stripped contents of the first readable, non-blank location, else "1.0.0"; it is never empty |
| UpdateCore.ReadRootVersion | updater.py:97-107 | The stripped contents of `app_dir\VERSION` when it is readable (possibly ""), else "1.0.0" |
| UpdateCore.BlankVersionFile | updater.py:101-103 | A blank VERSION file yields "" in updater.py, while src/updater.py falls back to "1.0.0" |
| UpdateCore.WrittenMembers | src/updater.py:177-184 | A location is in the returned list exactly when it is a candidate, exists or lies in the app directory, and its write does not raise |
| UpdateCore.WrittenAll | src/updater.py:177-184 | When every candidate is written, the returned list is the candidate list in its own order, repeats included |
| UpdateCore.UpdateVersionFiles | src/updater.py:165-191 | Each location that exists or lies in the app directory is written unless its write fails; the returned list is `Written`, the in-order filter of the candidates; exactly the listed files hold the new version; nothing else changes |
| UpdateCore.RewrittenVersionReadsBack | src/updater.py:168-183 | After a rewrite that reached `app_dir\VERSION`, the next read returns the new version |
| UpdateCore.DownloadUpdate | src/updater.py:289-332 | The temp file `update_<asset>` holds the chunks received before the stream raised; the path is returned exactly when the stream ended normally; a failed request or open changes nothing |
| UpdateCore.FirstExisting | src/updater.py:99-115 | The executable path is the first candidate that exists, else the default in the app directory |
| Installer.FirstSuccess | src/updater.py:646-660 | The first successful copy attempt below the limit, with every earlier attempt failed; None when all fail |
| Installer.WriteOptional | src/updater.py:680-696 | The `if exist` echoes rewrite exactly the listed files that exist and whose echo does not fail; they create none, and a failed echo leaves its file as it was |
| Installer.CopyWithRetries | src/updater.py:646-660 | The retry loop stops at the first success, after that many attempts, with the executable replaced by the download; otherwise three attempts and no change |
| Installer.EchoSrcVersionFiles | src/updater.py:670-696 | `app_dir\VERSION` is always echoed; the other three only if they exist; an echo that fails leaves its file as it was |
| Installer.RunSrcHelper | src/updater.py:585-710 | The step-by-step run of the batch text equals the script's specification `HelperScript` with three attempts |
| Installer.RunRootHelper | updater.py:278-326 | The step-by-step run of the older batch text equals `HelperScript` with one attempt and only `app_dir\VERSION` |
| Installer.MissingFileAborts | src/updater.py:597-627 | A missing download or executable stops the script with exit code 1 before anything changes |
| Installer.AttemptsAndRelaunch | src/updater.py:646-668 | The script restarts the application exactly when some attempt succeeds, and then after the first success; otherwise it uses all attempts and exits with 1 |
| Installer.SuccessEffects | src/updater.py:670-706 | On success the executable holds the download. The download and the backup are gone exactly when their `del` does not fail, and otherwise keep their contents. Each VERSION file whose echo works holds the echoed version, each one whose echo fails is as it was, and every other file is untouched |
| Installer.InstalledEffects | src/updater.py:670-700 | The steps after a successful copy, relative to the disk they start from: the new executable, the echoes that work, the `del`s that work, nothing else |
| Installer.EchoStage | src/updater.py:670-696 | `app_dir\VERSION` is created or overwritten unless its echo fails; the other files are rewritten only when they exist and their echo works |
| Installer.DeleteStage | src/updater.py:698-700 | Each `del` removes its file unless it fails, and changes nothing else |
| Installer.FailureEffects | src/updater.py:662-668 | On failure only the executable and its backup can change, and the executable ends as it was or as the `.backup` file was |
| Installer.OldOrNew | src/updater.py:640-668 | When this run made the backup, or no leftover backup exists, the executable ends as its old or its new contents |
| Installer.StaleBackupReplacesExecutable | src/updater.py:640-668 | Counterexample: a failed backup copy, a leftover `.backup` and three failed attempts leave the executable with the stale backup's contents, which are neither old nor new |
| Installer.CorrectedOldOrNew | src/updater.py:640-668 | When the restore uses only this run's own backup, the executable always ends as its old or its new contents |
| Installer.ThirdAttemptSucceeds | src/updater.py:646-706 | Two failures then a success: the application restarts after three attempts with the new binary. The download and the backup are gone when their `del` works; a backup whose `del` fails still holds the old binary |
| Installer.MarkerReadsBack | src/updater.py:670-678 | A `VERSION` file holding `v` plus the trailing space and CR LF reads back as v through either reader |
| Installer.EchoedVersionReadsBack | src/updater.py:670-678 | When the `echo v > VERSION` works, its marker (with the trailing space and CR LF) reads back as v through either updater's reader; when it fails, the root reader sees the version it saw before the run |
| SrcUpdater.AutoUpdater.constructor | src/updater.py:53-122 | The app directory, executable name and path follow the frozen/non-frozen rules, and an app directory that does not exist becomes the working directory after the executable search; the version is the truthy argument or what the VERSION files give; the comparison is `packaging` or the fallback |
| SrcUpdater.AutoUpdater.SyncVersionWithGithub | src/updater.py:193-228 | VERSION files are rewritten only when GitHub's tag is newer; the result is True exactly when some file was written, and only then does the in-memory version change |
| SrcUpdater.AutoUpdater.ApplyUpdate | src/updater.py:334-551 | A missing download or executable returns False; a failed PowerShell write returns False; a failed launch is ignored (True); otherwise the process leaves and the helper script runs; it leaves exactly in that case |
| SrcUpdater.AutoUpdater.UpdateIfAvailable | src/updater.py:731-784 | No update or auto-update off: False and nothing changes. A failed download: False. Otherwise True, unless the process left. Only the temp download file can change |
| RootUpdater.AutoUpdater.constructor | updater.py:15-84 | The same executable detection and the same fallback of a missing app directory to the working directory; the version is the truthy argument or the root VERSION file of the final app directory |
| RootUpdater.AutoUpdater.ApplyUpdate | updater.py:213-344 | A missing file returns False, as does a failed launch; otherwise the process leaves and the single-attempt script runs; it leaves exactly in that case |
| RootUpdater.AutoUpdater.UpdateIfAvailable | updater.py:346-399 | The same outcomes as the newer updater, with `packaging` ordering and the older apply step |
| FeedbackCore.ProcessoOrNA | feedback_system.py:227 | `processo or "N/A"`: a truthy process number is kept, anything else becomes "N/A"; never empty |
| FeedbackCore.SameProcessNeverEmits | feedback_system.py:90-93 | Reporting the current process again never sends an implicit success |
| FeedbackCore.NewReportImpliesClose | feedback_system.py:179-181 | Every implicit success sent at a new report is one the closing rule would also send |
| FeedbackCore.Enable | feedback_system.py:60-64 | Enabling keeps an absent button absent and otherwise leaves it enabled |
| FeedbackCore.Disable | feedback_system.py:66-70 | Disabling keeps an absent button absent and otherwise leaves it disabled |
| FeedbackCore.PayloadFields | feedback_system.py:296-302 | With distinct entry ids the form payload has exactly the five ids, each mapped to its record value; the process number is not sent |
| FeedbackCore.KeepLast | feedback_system.py:273 | `feedbacks[-100:]` keeps the last min(n, 100) records in order |
| FeedbackCore.SavedStore | feedback_system.py:249-282 | A failed write leaves the file as it was; a successful one leaves between 1 and 100 records, the new one last |
| FeedbackCore.SavedStoreShape | feedback_system.py:270-273 | Below 100 stored records the new one is appended; at 100 or more the file keeps the latest 99 and then the new one |
| FeedbackCore.Count | feedback_system.py:348-349 | A type count never exceeds the number of records |
| FeedbackCore.Rate | feedback_system.py:355 | The success rate lies in [0, 100] and equals successes/total*100 for a non-empty list |
| FeedbackCore.Statistics | feedback_system.py:333-360 | A missing file gives zeros without a rate; an unreadable one gives zeros with the error flag; otherwise the record count, the ERRO and SUCESSO_AUTO counts and their rate, with errors plus successes never above the total |
| FeedbackCore.CountsDisjoint | feedback_system.py:347-349 | No record is counted both as an error and as a success |
| FeedbackCore.StatisticsAfterSave | feedback_system.py:270-273 | Saving below the cap adds one to the total and one to the matching counter |
| FeedbackRoot.FieldsFromEnv | feedback_system.py:38-44 | Without `GOOGLE_FORM_FIELD_*` variables the default entry ids are used |
| FeedbackRoot.DefaultPayload | feedback_system.py:38-44 | The default ids are distinct, so the default payload has five fields |
| FeedbackRoot.FeedbackSystem.constructor | feedback_system.py:20-50 | No process, no report, no feedback, no button; the form URL and ids come from the environment |
| FeedbackRoot.FeedbackSystem.SetFeedbackButton | feedback_system.py:54-58 | The attached button starts disabled; nothing else changes |
| FeedbackRoot.FeedbackSystem.ResetFeedbackState | feedback_system.py:72-77 | The flags return to their initial values and the button is disabled; afterwards no manual report and no closing success can be sent |
| FeedbackRoot.FeedbackSystem.SalvarFeedbackLocal | feedback_system.py:249-282 | The local file becomes the last 100 of the previous records plus this one; an unreadable file counts as empty; a failed write changes nothing; the save is logged as an event |
| FeedbackRoot.FeedbackSystem.EnviarParaGoogleForms | feedback_system.py:284-331 | One payload is posted and logged; success exactly on status 200 or 302 |
| FeedbackRoot.FeedbackSystem.EnviarFeedback | feedback_system.py:208-247 | The event log gains the local save of the record and then, only when a form URL is configured, the POST of its payload; without a form the send succeeds |
| FeedbackRoot.FeedbackSystem.OnRelatorioSucesso | feedback_system.py:80-107 | An implicit success for the previous process is sent exactly when it differs, had a report and got no feedback; then the new process is current, reported, without feedback, and the button is enabled |
| FeedbackRoot.FeedbackSystem.OnReportarErroManual | feedback_system.py:111-172 | Nothing is sent without a report, after a feedback, or for a cancelled or blank answer. Otherwise the stripped answer is sent as ERRO. Only a successful send marks the feedback as given and disables the button |
| FeedbackRoot.FeedbackSystem.SendManualError | feedback_system.py:148-172 | The error is saved and then posted, in that order; only a successful send marks the feedback as given and disables the button |
| FeedbackRoot.FeedbackSystem.OnFechamentoAplicacao | feedback_system.py:174-187 | At closing, the pending implicit success is sent exactly when a process was reported and got no feedback; no flag changes |
| FeedbackRoot.FeedbackSystem.GetEstatisticasLocais | feedback_system.py:333-360 | The statistics count the stored records' errors and successes; a missing or unreadable file gives zero |
| FeedbackSrc.SentinelPayloadFields | src/feedback_system.py:264-271 | The payload has six fields: an empty `<tipo id>_sentinel` and the five record values under the fixed ids |
| FeedbackSrc.RedirectRejected | src/feedback_system.py:289 | Status 302 counts as failure here but as success in feedback_system.py |
| FeedbackSrc.FeedbackSystem.constructor | src/feedback_system.py:17-46 | No process, no report, no feedback, no button, nothing posted |
| FeedbackSrc.FeedbackSystem.SetFeedbackButton | src/feedback_system.py:50-54 | The attached button starts disabled |
| FeedbackSrc.FeedbackSystem.ResetFeedbackState | src/feedback_system.py:68-73 | The flags are reset and the button disabled; nothing can be sent until the next report |
| FeedbackSrc.FeedbackSystem.EnviarFeedback | src/feedback_system.py:208-239 | One sentinel payload is posted; success exactly on status 200 |
| FeedbackSrc.FeedbackSystem.OnRelatorioSucesso | src/feedback_system.py:76-103 | The same emission rule and state update as feedback_system.py |
| FeedbackSrc.FeedbackSystem.OnReportarErroManual | src/feedback_system.py:107-168 | The same guards as feedback_system.py; only a send answered with 200 marks the feedback as given |
| FeedbackSrc.FeedbackSystem.OnFechamentoAplicacao | src/feedback_system.py:170-187 | The closing success is sent synchronously under the same rule; no flag changes |
| FeedbackSrc.FeedbackSystem.EnviarFeedbackTeste | src/feedback_system.py:307-319 | A direct send whose process defaults to "TESTE" |
| LocalFeedback.SavedJsonShape | scripts/implement_local_feedback.py:51-73 | The record goes last with id = previous count + 1; earlier records stay; the total is the new length; sequential numbering is preserved |
| LocalFeedback.CsvRow | scripts/implement_local_feedback.py:92 | A row has exactly the six columns |
| LocalFeedback.CsvRowProjection | scripts/implement_local_feedback.py:79-93 | Keys outside the columns are dropped; a full record's row is its six values in column order; missing keys give "" |
| LocalFeedback.AppendedCsvHeader | scripts/implement_local_feedback.py:82-93 | The header is written once, as the first row; each append adds the record's row last and keeps the earlier rows |
| LocalFeedback.CountTipo | scripts/implement_local_feedback.py:111-112 | A type count never exceeds the number of records |
| LocalFeedback.CountTipoDisjoint | scripts/implement_local_feedback.py:110-112 | Errors plus successes never exceed the total |
| LocalFeedback.InsertDesc | scripts/implement_local_feedback.py:115 | Insertion adds exactly the one record (multiset) |
| LocalFeedback.SortDesc | scripts/implement_local_feedback.py:115 | The sort is a permutation of the records |
| LocalFeedback.SortDescSorted | scripts/implement_local_feedback.py:115 | The sort puts later timestamps first |
| LocalFeedback.SortedPrefix | scripts/implement_local_feedback.py:115 | The first n records of a latest-first list are latest-first, together with the rest they are the same records, and no record after them is later |
| LocalFeedback.SummaryShape | scripts/implement_local_feedback.py:107-115 | The summary holds the counts and at most five records, all from the file and latest first; no record left out is later than one kept |
| LocalFeedback.Bump | scripts/implement_local_feedback.py:175-180 | One aggregation step keeps the per-model map well formed |
| LocalFeedback.BumpTotal | scripts/implement_local_feedback.py:176-180 | One aggregation step adds exactly one to the sum of the per-model totals |
| LocalFeedback.ByModelCounts | scripts/implement_local_feedback.py:173-180 | A model is listed exactly when it occurs; its counters are its number of records and of errors; a missing model counts as "Desconhecido" |
| LocalFeedback.ByModelTotal | scripts/implement_local_feedback.py:173-180 | The per-model totals add up to the number of records |
| LocalFeedback.StepIsBump | scripts/implement_local_feedback.py:176-180 | The loop's insert-then-increment is one aggregation step |
| LocalFeedback.LocalFeedbackManager.constructor | scripts/implement_local_feedback.py:19-30 | The manager starts from the files as found |
| LocalFeedback.LocalFeedbackManager.SalvarJson | scripts/implement_local_feedback.py:51-73 | The JSON document becomes the saved document; an unreadable file, or one that cannot be written, is left alone; nothing else changes |
| LocalFeedback.LocalFeedbackManager.SalvarCsv | scripts/implement_local_feedback.py:75-96 | The CSV gets the row, preceded by the header for a new file; a failed open changes nothing |
| LocalFeedback.LocalFeedbackManager.AtualizarResumo | scripts/implement_local_feedback.py:98-156 | The summary is rewritten from a readable non-empty document when its file can be written; a missing, unreadable or empty document, or a failed write, leaves it unchanged |
| LocalFeedback.LocalFeedbackManager.SalvarFeedback | scripts/implement_local_feedback.py:32-49 | JSON, then CSV, then summary, each with its own failure swallowed, so a failed JSON write still adds the CSV row; after a successful JSON and summary write the summary covers the new record; the result is always True |
| LocalFeedback.AddModel | scripts/implement_local_feedback.py:176-177 | A model not yet seen is added with zero counters and becomes the last key; a known model is left as it is |
| LocalFeedback.CountUse | scripts/implement_local_feedback.py:178-180 | The model's total goes up by one, and its error count by one exactly for an ERRO record; the key order is kept |
| LocalFeedback.CountEntry | scripts/implement_local_feedback.py:175-180 | One pass of the loop (insert the model if new, then count the record) is one aggregation step |
| LocalFeedback.LocalFeedbackManager.AggregateByModel | scripts/implement_local_feedback.py:173-180 | The loop computes the per-model fold |
| LocalFeedback.LocalFeedbackManager.GerarRelatorioCompleto | scripts/implement_local_feedback.py:158-221 | No file or no records: "Nenhum feedback encontrado". An unreadable file: the error text. Otherwise the record count, the per-model fold and the most recent record |
| FormIds.NewExtractor | scripts/extract_form_ids.py:21-29 | A missing or empty GOOGLE_FORM_URL is an error; otherwise the form URL is kept as given |
| FormIds.ViewUrl | scripts/extract_form_ids.py:28 | A `.../formResponse` URL becomes `.../viewform`; a URL without it is kept |
| FormIds.InsertSorted | scripts/extract_form_ids.py:84 | Insertion adds exactly the one id |
| FormIds.InsertSortedSorted | scripts/extract_form_ids.py:84 | Insertion keeps the list strictly increasing |
| FormIds.ExtractEntryIds | scripts/extract_form_ids.py:56-84 | The ids are exactly those some pattern found, strictly increasing, so each appears once |
| FormIds.FieldTypePriority | scripts/extract_form_ids.py:107-115 | The type is the first of radio, checkbox, select, textarea that the lowercased context contains, else "text" |
| FormIds.FirstWithText | scripts/extract_form_ids.py:125-129 | The first label capture with non-blank text, with none before it |
| FormIds.LabelSpec | scripts/extract_form_ids.py:117-129 | The label is the first non-blank capture, stripped, and is never empty |
| FormIds.NoLabelSpec | scripts/extract_form_ids.py:124 | Without a non-blank capture the label is "Sem label" |
| FormIds.Preview | scripts/extract_form_ids.py:134 | A context of at most 200 characters is kept; a longer one becomes its first 200 characters plus "..." |
| FormIds.PreviewIdempotent | scripts/extract_form_ids.py:134 | Truncating a preview again changes nothing |
| FormIds.AnalyzeFormStructure | scripts/extract_form_ids.py:86-137 | Exactly the found inputs whose context search succeeded are described, each by its type, label and preview |
| FormIds.FirstMatchSpec | scripts/extract_form_ids.py:154-164 | The first entry matching a field is a matching entry with none before it, and it is absent when no entry matches |
| FormIds.SuggestFromMapped | scripts/extract_form_ids.py:154-164 | Running the outer loop from any point keeps every field mapped to its first match |
| FormIds.SuggestField | scripts/extract_form_ids.py:139-166 | A field is mapped exactly when some entry's label or preview contains one of its keywords, and then to the first such entry |
| FormIds.SuggestKeys | scripts/extract_form_ids.py:139-166 | Only the five field names are keys, and each value is an analysed entry id |
| FormIds.MatchesSpec | scripts/extract_form_ids.py:160-162 | A field matches an entry exactly when one of its keywords occurs in the lowercased label or preview |
| FormIds.AnyKeyword | scripts/extract_form_ids.py:160-164 | The keyword loop stops with a match exactly when some keyword occurs in the label or the preview |
| FormIds.AssignEntry | scripts/extract_form_ids.py:159-164 | The field loop for one entry equals the per-entry specification |
| FormIds.ProgressStep | scripts/extract_form_ids.py:159-164 | Settling one more field for the current entry keeps every field mapped to its first match so far |
| FormIds.SuggestEntry | scripts/extract_form_ids.py:154-164 | One pass of the outer loop advances the specified mapping by one entry and keeps it well formed |
| FormIds.SuggestFirst | scripts/extract_form_ids.py:139-166 | The finished suggestion maps every field to its first matching entry |
| FormIds.MappedFirstField | scripts/extract_form_ids.py:154-164 | A map holding each field's first match has the field exactly when some entry matches, and then maps it to the first one |
| FormIds.SuggestFieldMapping | scripts/extract_form_ids.py:139-166 | The nested loops compute the specified mapping |
| FormIds.EnvLines | scripts/extract_form_ids.py:172-178 | Two header lines plus one line per mapped field |
| FormIds.GenerateNewEnvConfig | scripts/extract_form_ids.py:168-180 | The configuration is the header, the URL line and the field lines, joined by newlines |
| FormIds.EnvConfigLines | scripts/extract_form_ids.py:168-180 | Splitting the configuration at newlines gives back the header, the URL line and one line per field in mapping order |

## Left out

- Network requests, file access, the clock, dialogs, printing and logging are not modelled. Their outcomes are parameters of the model.
- Progress callbacks and the `content-length` arithmetic are not modelled.
- Regular expressions are not modelled. What each pattern found, or the context it matched, is an input.
- `packaging.version` is not modelled. updater.py's ordering is a comparator parameter; src/updater.py can use it or the fallback class.
- Short path names are not modelled (`GetShortPathNameW`, and the batch script's short-path fallback branch). The model uses the long paths.
- The batch script's waits, `tasklist`/`taskkill`, the self-deletion of the script and the relaunch itself are not modelled. The relaunch is a flag.
- The PowerShell script text that src/updater.py writes and never runs is not modelled. Only a failure to write it is.
- `check_and_update_async` and `create_updater` are threading and factory wrappers and are not modelled. The same goes for the module-level `get_feedback_system` and `initialize_feedback_system`.
- `fetch_form_html`, `run_analysis`, `save_analysis_report`, `main` and `implementar_sistema_local` only drive I/O and are not modelled.
- FeedbackRoot.FeedbackSystem.OnRelatorioSucesso: the automatic send runs in a thread that reads `_processo_atual` when it runs. The model sends at once with the previous process number. The race in which the thread sees the new number is not captured.
- FeedbackRoot.FeedbackSystem.OnFechamentoAplicacao: modelled as an immediate send, like the previous line.
- FeedbackSrc.FeedbackSystem.OnRelatorioSucesso: src/feedback_system.py also sends the implicit success from a daemon thread. It is modelled as an immediate send with the previous process number, and the same race is not captured.
- LocalFeedback.LocalFeedbackManager.GerarRelatorioCompleto: the 7-day count and the per-model error rates are not modelled. Neither is the report text. A timestamp that `datetime.fromisoformat` rejects is not modelled either.
- LocalFeedback.LocalFeedbackManager.AtualizarResumo: the summary's text and its `Gerado em` time are not modelled, only its data.
- LocalFeedback.LocalFeedbackManager.SalvarJson: the `salvo_em` and `metadados` timestamps are not modelled.
- A JSON document that parses but lacks the expected keys is not modelled; only unparseable files are.
- LocalFeedback.SortDesc: proved sorted and a permutation, but not stable (that equal timestamps keep their order), although the implementation keeps that order.
- FormIds.AnalyzeFormStructure: states which entries are described and how, but not that the keys come in first-occurrence order.
- Strings.Lower: covers ASCII and Latin-1 letters only, which includes every keyword used here. Python's full Unicode case mapping is not modelled.
- Installer.CopyWithRetries: a failed `copy` is taken to leave its target as it was. A copy that fails part-way and leaves a truncated executable is not modelled.
- Installer.FailureEffects: rests on the same whole-or-nothing `copy`; a truncated target is not modelled.
- Installer.OldOrNew: the old-or-new guarantee holds only under the whole-or-nothing `copy`; a truncated executable is not modelled.
- Installer.CorrectedOldOrNew: also rests on the whole-or-nothing `copy`; a truncated executable is not modelled.
- LocalFeedback.LocalFeedbackManager.SalvarJson: a failure is modelled as a file that cannot be opened, which leaves it as it was. A `json.dump` that fails after the file was truncated is not modelled. The same holds for the summary in AtualizarResumo.
- SimpleVersion.NewVersion: a piece counts as a number only when it is a non-empty string of ASCII digits. Pieces that `int()` also accepts, such as "-1", "+2", " 3" or "1_0", become 0 here. So the model never yields a negative part, while `SimpleVersion("1.-1")` in the code gives `[1, -1]`.
- UpdateCore.UpdateVersionFiles: paths are compared as exact, case-sensitive strings, here and in Installer.WriteOptional and UpdateCore.Written. Windows file names are case-insensitive, so when only `cwd\VERSION` exists the program also finds `cwd\version` and lists both, and the batch's `if exist app_dir\version` holds once `app_dir\VERSION` is written. The model matches the program only on a disk that lists both spellings of each existing VERSION file. Given one spelling, the returned list and the set of files written can be shorter than the program's, although every file the model writes gets the same contents.
- Installer.WriteOptional: the batch's `if exist` tests are modelled as exact-name lookups in the disk map. A differently-cased name of an existing file counts as absent, as the UpdateCore.UpdateVersionFiles line above describes.
- FeedbackCore.Statistics: the success rate is an exact real. Floating-point rounding is not modelled.

## Where the documentation and the code differ

The code is followed in each case:

- A version piece that is not an integer counts as 0 rather than being an error.
- A download that ends without an exception is accepted whatever its length.
- The local feedback file has no "delivered" mark and is never flushed to the form.

## Findings

| source | as written | input that shows it | evidently intended | confidence | as-written member | corrected member |
|---|---|---|---|---|---|---|
| src/updater.py:640-668 | The failure path copies whatever `<exe>.backup` exists back over the executable, even when this run's own backup copy failed (its errors are discarded). The same holds at updater.py:298-309 | The executable holds OLD, the download NEW, and a `.backup` left by an earlier failed run holds STALE. STALE differs from OLD only if the executable changed after that leftover was written: an earlier failed run restores its own backup, so the leftover first equals the executable, and a later manual reinstall, or a run interrupted between a successful copy and its `del` of the backup, makes them differ. This run's backup copy then fails and all three copy attempts fail, so the executable ends as STALE: neither the old nor the new version | Restore only a backup made by this run, so the executable ends as either its old or its new contents | not executed; plausible | Installer.StaleBackupReplacesExecutable | Installer.CorrectedOldOrNew |

=== FILE: common.dfy ===
/** Option and Result, used wherever the Python code returns None or raises. */
module Common {

  datatype Option<+T> = None | Some(value: T)

  datatype Result<+T, +E> = Success(value: T) | Failure(error: E)

  /** Python truthiness of an optional string: None and "" are both false. */
  predicate Truthy(s: Option<string>) {
    s.Some? && s.value != ""
  }

  /** `os.getenv(name, default)`: a variable that is set wins, even when empty. */
  function GetEnv(env: map<string, string>, name: string, default: string): string {
    if name in env then env[name] else default
  }
}

=== FILE: feedback_core.dfy ===
/**
 * What both FeedbackSystem variants (feedback_system.py and
 * src/feedback_system.py) share: the feedback record, the two automatic
 * descriptions, the rules that decide when an implicit success is emitted, the
 * button, the Google Forms payload, and (for feedback_system.py) the local
 * JSON store capped at 100 records with its statistics.
 */
module FeedbackCore {
  import opened Common
  import opened Strings

  const ERRO: string := "ERRO"
  const SUCESSO_AUTO: string := "SUCESSO_AUTO"

  /** The `feedback_data` dict built by `_enviar_feedback`. */
  datatype FeedbackRecord = FeedbackRecord(
    tipo: string,
    descricao: string,
    processo: string,
    modelo: string,
    timestamp: string,
    versao: string)

  /** `processo or "N/A"`: a missing or empty process number becomes "N/A". */
  function ProcessoOrNA(p: Option<string>): (r: string)
    ensures r != ""
    ensures Truthy(p) ==> r == p.value
  {
    if Truthy(p) then p.value else "N/A"
  }

  function MakeRecord(tipo: string, descricao: string, processo: Option<string>, modelo: string, now: string, versao: string): FeedbackRecord {
    FeedbackRecord(tipo, descricao, ProcessoOrNA(processo), modelo, now, versao)
  }

  /** The description of the implicit success sent when a new report starts. */
  function NewReportDescription(p: string): string {
    "Relatório do processo " + p + " gerado sem problemas reportados - novo relatório iniciado"
  }

  /** The description of the implicit success sent when the application closes. */
  function ClosingDescription(p: string): string {
    "Relatório do processo " + p + " gerado sem problemas reportados - sistema fechado"
  }

  /** `on_relatorio_sucesso` emits for the previous process when it exists, differs, succeeded and got no feedback. */
  predicate EmitsOnNewReport(processo: Option<string>, relatorio: bool, enviado: bool, numero: string) {
    Truthy(processo) && processo.value != numero && relatorio && !enviado
  }

  /** `on_fechamento_aplicacao` emits when a process exists, its report succeeded and nothing was sent. */
  predicate EmitsOnClose(processo: Option<string>, relatorio: bool, enviado: bool) {
    Truthy(processo) && relatorio && !enviado
  }

  /** A manual error report goes out only after a report, before any feedback, with a non-blank description. */
  predicate ReportAccepted(relatorio: bool, enviado: bool, answer: Option<string>) {
    relatorio && !enviado && answer.Some? && Strip(answer.value) != ""
  }

  /** Reporting the same process twice never emits, whatever the flags. */
  lemma SameProcessNeverEmits(processo: Option<string>, relatorio: bool, enviado: bool, numero: string)
    requires processo == Some(numero)
    ensures !EmitsOnNewReport(processo, relatorio, enviado, numero)
  {
  }

  /** Every implicit emission on a new report is also one the closing rule would make. */
  lemma NewReportImpliesClose(processo: Option<string>, relatorio: bool, enviado: bool, numero: string)
    requires EmitsOnNewReport(processo, relatorio, enviado, numero)
    ensures EmitsOnClose(processo, relatorio, enviado)
  {
  }

  /** The tkinter button: absent until `set_feedback_button`, then enabled or disabled. */
  datatype Button = NoButton | Enabled | Disabled

  /** `_enable_feedback_button`: a no-op without a button. */
  function Enable(b: Button): (r: Button)
    ensures b.NoButton? <==> r.NoButton?
    ensures !r.NoButton? ==> r.Enabled?
  {
    if b.NoButton? then b else Enabled
  }

  /** `_disable_feedback_button`: a no-op without a button. */
  function Disable(b: Button): (r: Button)
    ensures b.NoButton? <==> r.NoButton?
    ensures !r.NoButton? ==> r.Disabled?
  {
    if b.NoButton? then b else Disabled
  }

  /** What the POST returned: a status code, or an exception (timeout, network error, anything else). */
  datatype HttpResult = Responded(status: int) | Raised

  /** The form entry ids of the five fields that are sent. */
  datatype FormFields = FormFields(tipo: string, descricao: string, modelo: string, timestamp: string, versao: string)

  predicate DistinctIds(f: FormFields) {
    |{f.tipo, f.descricao, f.modelo, f.timestamp, f.versao}| == 5
  }

  /** The `form_data` dict of feedback_system.py: five entries, later keys winning as in a dict literal. */
  function Payload(f: FormFields, rec: FeedbackRecord): map<string, string> {
    map[][f.tipo := rec.tipo][f.descricao := rec.descricao][f.modelo := rec.modelo]
      [f.timestamp := rec.timestamp][f.versao := rec.versao]
  }

  /** With distinct ids the payload carries exactly the five fields; the process number is not among them. */
  lemma PayloadFields(f: FormFields, rec: FeedbackRecord)
    requires DistinctIds(f)
    ensures Payload(f, rec).Keys == {f.tipo, f.descricao, f.modelo, f.timestamp, f.versao}
    ensures |Payload(f, rec)| == 5
    ensures var p := Payload(f, rec);
      p[f.tipo] == rec.tipo && p[f.descricao] == rec.descricao && p[f.modelo] == rec.modelo
      && p[f.timestamp] == rec.timestamp && p[f.versao] == rec.versao
  {
    var p := Payload(f, rec);
    assert p.Keys == {f.tipo, f.descricao, f.modelo, f.timestamp, f.versao};
    assert |p.Keys| == |p|;
  }

  /** The local JSON file of feedback_system.py: absent, unparseable, or a list of records. */
  datatype StoreFile = Missing | Corrupt | Records(items: seq<FeedbackRecord>)

  /** What `_salvar_feedback_local` starts from: an absent or unreadable file counts as an empty list. */
  function Loaded(s: StoreFile): seq<FeedbackRecord> {
    if s.Records? then s.items else []
  }

  /** `feedbacks[-100:]` */
  function KeepLast(xs: seq<FeedbackRecord>, n: nat): (r: seq<FeedbackRecord>)
    ensures |r| == if |xs| <= n then |xs| else n
    ensures r == xs[|xs| - |r|..]
  {
    if |xs| <= n then xs else xs[|xs| - n..]
  }

  const StoreCap: nat := 100

  /** The file after `_salvar_feedback_local(rec)`; `writeOk` false when the directory or the file cannot be written. */
  function SavedStore(s: StoreFile, rec: FeedbackRecord, writeOk: bool): (r: StoreFile)
    ensures !writeOk ==> r == s
    ensures writeOk ==> r.Records? && 1 <= |r.items| <= StoreCap && r.items[|r.items| - 1] == rec
  {
    if writeOk then Records(KeepLast(Loaded(s) + [rec], StoreCap)) else s
  }

  /** Below the cap the record is appended; at the cap the oldest record makes room for it. */
  lemma SavedStoreShape(s: StoreFile, rec: FeedbackRecord)
    ensures |Loaded(s)| < StoreCap ==> SavedStore(s, rec, true).items == Loaded(s) + [rec]
    ensures |Loaded(s)| >= StoreCap ==>
      SavedStore(s, rec, true).items == Loaded(s)[|Loaded(s)| - StoreCap + 1..] + [rec]
  {
    var items := Loaded(s);
    var all := items + [rec];
    if |all| > StoreCap {
      assert all[|all| - StoreCap..] == items[|items| - StoreCap + 1..] + [rec];
    }
  }

  function Count(items: seq<FeedbackRecord>, tipo: string): (r: nat)
    ensures r <= |items|
  {
    if items == [] then 0
    else Count(items[..|items| - 1], tipo) + (if items[|items| - 1].tipo == tipo then 1 else 0)
  }

  /**
   * The dict of `get_estatisticas_locais`: `taxa` is the `taxa_sucesso` key
   * (absent for a missing file), `failed` the `"erro"` key of the exception path.
   */
  datatype Stats = Stats(total: nat, erros: nat, sucessos: nat, taxa: Option<real>, failed: bool)

  lemma QuotientAtMostOne(x: real, y: real)
    requires 0.0 <= x <= y && y > 0.0
    ensures 0.0 <= x / y <= 1.0 && (x / y) * y == x
  {
    var q := x / y;
    assert q * y == x;
    assert (1.0 - q) * y == y - x;
  }

  /** `sucessos / total * 100`, and 0 for an empty list. */
  function Rate(sucessos: nat, total: nat): (r: real)
    requires sucessos <= total
    ensures 0.0 <= r <= 100.0
    ensures total > 0 ==> r * (total as real) == (sucessos as real) * 100.0
  {
    if total == 0 then 0.0
    else
      var q := sucessos as real / total as real;
      QuotientAtMostOne(sucessos as real, total as real);
      q * 100.0
  }

  function Statistics(s: StoreFile): (r: Stats)
    ensures r.erros + r.sucessos <= r.total
    ensures s.Missing? ==> r == Stats(0, 0, 0, None, false)
    ensures s.Corrupt? ==> r == Stats(0, 0, 0, None, true)
    ensures s.Records? ==> r.total == |s.items| && !r.failed && r.taxa == Some(Rate(r.sucessos, r.total))
    ensures s.Records? ==> r.erros == Count(s.items, ERRO) && r.sucessos == Count(s.items, SUCESSO_AUTO)
  {
    match s
    case Missing => Stats(0, 0, 0, None, false)
    case Corrupt => Stats(0, 0, 0, None, true)
    case Records(items) =>
      CountsDisjoint(items);
      var total := |items|;
      var sucessos := Count(items, SUCESSO_AUTO);
      Stats(total, Count(items, ERRO), sucessos, Some(Rate(sucessos, total)), false)
  }

  /** A record is either an error or a success, never both. */
  lemma {:induction false} CountsDisjoint(items: seq<FeedbackRecord>)
    ensures Count(items, ERRO) + Count(items, SUCESSO_AUTO) <= |items|
  {
    if items != [] {
      CountsDisjoint(items[..|items| - 1]);
    }
  }

  lemma {:induction false} CountAppend(items: seq<FeedbackRecord>, rec: FeedbackRecord, tipo: string)
    ensures Count(items + [rec], tipo) == Count(items, tipo) + (if rec.tipo == tipo then 1 else 0)
  {
    assert (items + [rec])[..|items|] == items;
  }

  /** Saving below the cap raises the total by one and the matching counter by one. */
  lemma StatisticsAfterSave(s: StoreFile, rec: FeedbackRecord)
    requires |Loaded(s)| < StoreCap
    ensures var before := Statistics(Records(Loaded(s)));
      var after := Statistics(SavedStore(s, rec, true));
      && after.total == before.total + 1
      && after.erros == before.erros + (if rec.tipo == ERRO then 1 else 0)
      && after.sucessos == before.sucessos + (if rec.tipo == SUCESSO_AUTO then 1 else 0)
  {
    var items := Loaded(s);
    assert KeepLast(items + [rec], StoreCap) == items + [rec];
    CountAppend(items, rec, ERRO);
    CountAppend(items, rec, SUCESSO_AUTO);
  }
}

=== FILE: feedback_root.dfy ===
/**
 * The FeedbackSystem of feedback_system.py: a state machine over the current
 * process that sends an implicit success when a report goes unchallenged and
 * an error when the user reports one. Every record is first appended to a local
 * JSON file (the last 100 kept), then posted to a Google Form configured from
 * the environment; without a form URL the send counts as a success.
 */
module FeedbackRoot {
  import opened Common
  import opened Strings
  import opened FeedbackCore

  /** The entry ids used when the environment does not name them. */
  const DefaultFields: FormFields :=
    FormFields("entry.1234567890", "entry.0987654321", "entry.5566778899", "entry.9988776655", "entry.1357924680")

  function FieldsFromEnv(env: map<string, string>): (r: FormFields)
    ensures (forall k :: k in env ==> !IsPrefix("GOOGLE_FORM_FIELD_", k)) ==> r == DefaultFields
  {
    FormFields(
      GetEnv(env, "GOOGLE_FORM_FIELD_TIPO", DefaultFields.tipo),
      GetEnv(env, "GOOGLE_FORM_FIELD_DESCRICAO", DefaultFields.descricao),
      GetEnv(env, "GOOGLE_FORM_FIELD_MODELO", DefaultFields.modelo),
      GetEnv(env, "GOOGLE_FORM_FIELD_TIMESTAMP", DefaultFields.timestamp),
      GetEnv(env, "GOOGLE_FORM_FIELD_VERSAO", DefaultFields.versao))
  }

  /** The default ids are distinct, so a default payload has all five fields. */
  lemma DefaultPayload(rec: FeedbackRecord)
    ensures |Payload(DefaultFields, rec)| == 5
  {
    assert DistinctIds(DefaultFields);
    PayloadFields(DefaultFields, rec);
  }

  /** This variant treats 200 and 302 as a successful submission. */
  predicate Accepted(h: HttpResult) {
    h.Responded? && (h.status == 200 || h.status == 302)
  }

  /** Whether a form is configured: `google_form_url and google_form_url.strip()`. */
  predicate FormConfigured(url: string) {
    Strip(url) != ""
  }

  /** What a send does outside the object, in order: a call of `_salvar_feedback_local` (whatever its write does), or a form POST. */
  datatype Event = Saved(rec: FeedbackRecord) | Posted(payload: map<string, string>)

  class FeedbackSystem {
    const appVersion: string
    const modeloLlm: string
    const formUrl: string
    const fields: FormFields
    var feedbackEnviado: bool
    var processoAtual: Option<string>
    var relatorioGerado: bool
    var button: Button
    /** The contents of `dist/feedback_pendente.json`. */
    var store: StoreFile
    /** The local saves and form posts so far, in the order they happened. */
    ghost var events: seq<Event>

    /** `__init__`: no process, no report, no button; the form comes from the environment. */
    constructor(env: map<string, string>, store: StoreFile, appVersion: string := "1.0.0", modeloLlm: string := "google/gemini-2.5-pro")
      ensures this.appVersion == appVersion && this.modeloLlm == modeloLlm
      ensures formUrl == GetEnv(env, "GOOGLE_FORM_URL", "")
      ensures fields == FieldsFromEnv(env)
      ensures !feedbackEnviado && processoAtual == None && !relatorioGerado && button == NoButton
      ensures this.store == store && events == []
    {
      this.appVersion := appVersion;
      this.modeloLlm := modeloLlm;
      formUrl := GetEnv(env, "GOOGLE_FORM_URL", "");
      fields := FieldsFromEnv(env);
      feedbackEnviado := false;
      processoAtual := None;
      relatorioGerado := false;
      button := NoButton;
      this.store := store;
      events := [];
    }

    /** `set_feedback_button`: the button is attached disabled. */
    method SetFeedbackButton()
      modifies this
      ensures button == Disabled
      ensures feedbackEnviado == old(feedbackEnviado) && processoAtual == old(processoAtual)
      ensures relatorioGerado == old(relatorioGerado) && store == old(store) && events == old(events)
    {
      button := Disabled;
    }

    /** `_reset_feedback_state`: back to the initial flags, button disabled. */
    method ResetFeedbackState()
      modifies this
      ensures !feedbackEnviado && processoAtual == None && !relatorioGerado
      ensures button == Disable(old(button))
      ensures store == old(store) && events == old(events)
      ensures forall a :: !ReportAccepted(relatorioGerado, feedbackEnviado, a)
      ensures !EmitsOnClose(processoAtual, relatorioGerado, feedbackEnviado)
    {
      feedbackEnviado := false;
      relatorioGerado := false;
      processoAtual := None;
      button := Disable(button);
    }

    /** `_salvar_feedback_local`: read (an unreadable file counts as empty), append, keep the last 100, write. */
    method SalvarFeedbackLocal(rec: FeedbackRecord, writeOk: bool)
      modifies this
      ensures store == SavedStore(old(store), rec, writeOk)
      ensures writeOk ==> |store.items| <= StoreCap && store.items[|store.items| - 1] == rec
      ensures feedbackEnviado == old(feedbackEnviado) && processoAtual == old(processoAtual)
      ensures relatorioGerado == old(relatorioGerado) && button == old(button)
      ensures events == old(events) + [Saved(rec)]
    {
      var feedbacks := Loaded(store);
      if writeOk {
        feedbacks := feedbacks + [rec];
        feedbacks := KeepLast(feedbacks, StoreCap);
        store := Records(feedbacks);
      }
      events := events + [Saved(rec)];
    }

    /** `_enviar_para_google_forms`: one POST; success on 200 or 302, failure on any other status or exception. */
    method EnviarParaGoogleForms(rec: FeedbackRecord, h: HttpResult) returns (ok: bool)
      modifies this
      ensures events == old(events) + [Posted(Payload(fields, rec))]
      ensures ok <==> Accepted(h)
      ensures feedbackEnviado == old(feedbackEnviado) && processoAtual == old(processoAtual)
      ensures relatorioGerado == old(relatorioGerado) && button == old(button) && store == old(store)
    {
      events := events + [Posted(Payload(fields, rec))];
      ok := h.Responded? && (h.status == 200 || h.status == 302);
    }

    /**
     * `_enviar_feedback`: the record is saved locally first; it is posted only
     * when a form URL is configured, and without one the call succeeds.
     */
    method EnviarFeedback(tipo: string, descricao: string, processo: Option<string>, now: string,
                          h: HttpResult, writeOk: bool) returns (ok: bool)
      modifies this
      ensures var rec := MakeRecord(tipo, descricao, processo, modeloLlm, now, appVersion);
        && store == SavedStore(old(store), rec, writeOk)
        && events == old(events) + [Saved(rec)] + (if FormConfigured(formUrl) then [Posted(Payload(fields, rec))] else [])
        && (ok <==> !FormConfigured(formUrl) || Accepted(h))
      ensures feedbackEnviado == old(feedbackEnviado) && processoAtual == old(processoAtual)
      ensures relatorioGerado == old(relatorioGerado) && button == old(button)
    {
      var rec := MakeRecord(tipo, descricao, processo, modeloLlm, now, appVersion);
      SalvarFeedbackLocal(rec, writeOk);
      if Strip(formUrl) != "" {
        ok := EnviarParaGoogleForms(rec, h);
      } else {
        ok := true;
      }
    }

    /**
     * `on_relatorio_sucesso`: the implicit success for the previous process
     * (sent as if at once), then the new process becomes current with its
     * report done and the button enabled.
     */
    method OnRelatorioSucesso(numero: string, now: string, h: HttpResult, writeOk: bool)
      modifies this
      ensures !EmitsOnNewReport(old(processoAtual), old(relatorioGerado), old(feedbackEnviado), numero) ==>
        store == old(store) && events == old(events)
      ensures EmitsOnNewReport(old(processoAtual), old(relatorioGerado), old(feedbackEnviado), numero) ==>
        var rec := MakeRecord(SUCESSO_AUTO, NewReportDescription(old(processoAtual).value),
                              old(processoAtual), modeloLlm, now, appVersion);
        && store == SavedStore(old(store), rec, writeOk)
        && events == old(events) + [Saved(rec)] + (if FormConfigured(formUrl) then [Posted(Payload(fields, rec))] else [])
      ensures processoAtual == Some(numero) && relatorioGerado && !feedbackEnviado
      ensures button == Enable(old(button))
    {
      if EmitsOnNewReport(processoAtual, relatorioGerado, feedbackEnviado, numero) {
        var _ := EnviarFeedback(SUCESSO_AUTO, NewReportDescription(processoAtual.value), processoAtual, now, h, writeOk);
      }
      processoAtual := Some(numero);
      relatorioGerado := true;
      feedbackEnviado := false;
      button := Enable(button);
    }

    /** The accepted path of `on_reportar_erro_manual`: send the error; only a successful send marks the process as answered. */
    method SendManualError(text: string, now: string, h: HttpResult, writeOk: bool) returns (ok: bool)
      modifies this
      ensures var rec := MakeRecord(ERRO, text, old(processoAtual), modeloLlm, now, appVersion);
        && store == SavedStore(old(store), rec, writeOk)
        && events == old(events) + [Saved(rec)] + (if FormConfigured(formUrl) then [Posted(Payload(fields, rec))] else [])
      ensures ok <==> !FormConfigured(formUrl) || Accepted(h)
      ensures ok ==> feedbackEnviado && button == Disable(old(button))
      ensures !ok ==> feedbackEnviado == old(feedbackEnviado) && button == old(button)
      ensures processoAtual == old(processoAtual) && relatorioGerado == old(relatorioGerado)
    {
      ok := EnviarFeedback(ERRO, text, processoAtual, now, h, writeOk);
      if ok {
        feedbackEnviado := true;
        button := Disable(button);
      }
    }

    /**
     * `on_reportar_erro_manual`. `answer` is what the dialog returned (None on
     * cancel). Only a successful send marks the process as answered and
     * disables the button.
     */
    method OnReportarErroManual(answer: Option<string>, now: string, h: HttpResult, writeOk: bool) returns (ok: bool)
      modifies this
      ensures !ReportAccepted(old(relatorioGerado), old(feedbackEnviado), answer) ==>
        !ok && store == old(store) && events == old(events) && feedbackEnviado == old(feedbackEnviado) && button == old(button)
      ensures ReportAccepted(old(relatorioGerado), old(feedbackEnviado), answer) ==>
        var rec := MakeRecord(ERRO, Strip(answer.value), old(processoAtual), modeloLlm, now, appVersion);
        && store == SavedStore(old(store), rec, writeOk)
        && events == old(events) + [Saved(rec)] + (if FormConfigured(formUrl) then [Posted(Payload(fields, rec))] else [])
        && (ok <==> !FormConfigured(formUrl) || Accepted(h))
      ensures ok ==> feedbackEnviado && button == Disable(old(button))
      ensures !ok ==> feedbackEnviado == old(feedbackEnviado) && button == old(button)
      ensures processoAtual == old(processoAtual) && relatorioGerado == old(relatorioGerado)
    {
      if !relatorioGerado {
        return false;
      }
      if feedbackEnviado {
        return false;
      }
      if answer.None? || Strip(answer.value) == "" {
        return false;
      }
      ok := SendManualError(Strip(answer.value), now, h, writeOk);
    }

    /** `on_fechamento_aplicacao`: the pending implicit success (sent as if at once); no flag changes. */
    method OnFechamentoAplicacao(now: string, h: HttpResult, writeOk: bool)
      modifies this
      ensures !EmitsOnClose(old(processoAtual), old(relatorioGerado), old(feedbackEnviado)) ==>
        store == old(store) && events == old(events)
      ensures EmitsOnClose(old(processoAtual), old(relatorioGerado), old(feedbackEnviado)) ==>
        var rec := MakeRecord(SUCESSO_AUTO, ClosingDescription(old(processoAtual).value), old(processoAtual),
                              modeloLlm, now, appVersion);
        && store == SavedStore(old(store), rec, writeOk)
        && events == old(events) + [Saved(rec)] + (if FormConfigured(formUrl) then [Posted(Payload(fields, rec))] else [])
      ensures feedbackEnviado == old(feedbackEnviado) && processoAtual == old(processoAtual)
      ensures relatorioGerado == old(relatorioGerado) && button == old(button)
    {
      if EmitsOnClose(processoAtual, relatorioGerado, feedbackEnviado) {
        var _ := EnviarFeedback(SUCESSO_AUTO, ClosingDescription(processoAtual.value), processoAtual, now, h, writeOk);
      }
    }

    /** `get_estatisticas_locais` */
    function GetEstatisticasLocais(): (r: Stats)
      reads this
      ensures r.erros + r.sucessos <= r.total
      ensures store.Records? ==> r.total == |store.items| && r.erros == Count(store.items, ERRO)
                                 && r.sucessos == Count(store.items, SUCESSO_AUTO)
      ensures !store.Records? ==> r.total == 0
    {
      Statistics(store)
    }
  }
}

=== FILE: feedback_src.dfy ===
/**
 * The FeedbackSystem of src/feedback_system.py: the same state machine as
 * feedback_system.py, but the form and its entry ids are fixed, the payload
 * carries an empty `_sentinel` field, there is no local copy, only status 200
 * counts as success, and the closing success is sent synchronously.
 */
module FeedbackSrc {
  import opened Common
  import opened Strings
  import opened FeedbackCore
  import FeedbackRoot

  /** The entry ids read from the form's `FB_PUBLIC_LOAD_DATA_` block. */
  const Fields: FormFields :=
    FormFields("entry.1649732056", "entry.579089408", "entry.597505189", "entry.207190791", "entry.943393649")

  /** The sentinel key that accompanies the `tipo` entry. */
  function SentinelKey(f: FormFields): string {
    f.tipo + "_sentinel"
  }

  /** The `form_data` dict: the empty sentinel first, then the five fields. */
  function SentinelPayload(f: FormFields, rec: FeedbackRecord): map<string, string> {
    Payload(f, rec)[SentinelKey(f) := ""]
  }

  /** With the fixed ids the payload has six entries: an empty sentinel and the five fields. */
  lemma {:induction false} SentinelPayloadFields(rec: FeedbackRecord)
    ensures var p := SentinelPayload(Fields, rec);
      && p.Keys == {"entry.1649732056_sentinel", "entry.1649732056", "entry.579089408", "entry.597505189",
                    "entry.207190791", "entry.943393649"}
      && |p| == 6
      && p["entry.1649732056_sentinel"] == ""
      && p["entry.1649732056"] == rec.tipo && p["entry.579089408"] == rec.descricao
      && p["entry.597505189"] == rec.modelo && p["entry.207190791"] == rec.timestamp
      && p["entry.943393649"] == rec.versao
  {
    assert DistinctIds(Fields);
    PayloadFields(Fields, rec);
    var p := SentinelPayload(Fields, rec);
    assert SentinelKey(Fields) == "entry.1649732056_sentinel";
    assert SentinelKey(Fields) !in Payload(Fields, rec);
    assert |p| == |Payload(Fields, rec)| + 1;
  }

  /** Only 200 counts as a successful submission here. */
  predicate Accepted(h: HttpResult) {
    h.Responded? && h.status == 200
  }

  /** A redirect that feedback_system.py accepts is a failure here. */
  lemma RedirectRejected()
    ensures !Accepted(Responded(302)) && FeedbackRoot.Accepted(Responded(302))
  {
  }

  class FeedbackSystem {
    const appVersion: string
    const modeloLlm: string
    var feedbackEnviado: bool
    var processoAtual: Option<string>
    var relatorioGerado: bool
    var button: Button
    /** The form payloads posted so far. */
    ghost var posted: seq<map<string, string>>

    /** `__init__`: no process, no report, no button. */
    constructor(appVersion: string := "1.0.0", modeloLlm: string := "google/gemini-2.5-pro")
      ensures this.appVersion == appVersion && this.modeloLlm == modeloLlm
      ensures !feedbackEnviado && processoAtual == None && !relatorioGerado && button == NoButton
      ensures posted == []
    {
      this.appVersion := appVersion;
      this.modeloLlm := modeloLlm;
      feedbackEnviado := false;
      processoAtual := None;
      relatorioGerado := false;
      button := NoButton;
      posted := [];
    }

    /** `set_feedback_button`: the button is attached disabled. */
    method SetFeedbackButton()
      modifies this
      ensures button == Disabled
      ensures feedbackEnviado == old(feedbackEnviado) && processoAtual == old(processoAtual)
      ensures relatorioGerado == old(relatorioGerado) && posted == old(posted)
    {
      button := Disabled;
    }

    /** `_reset_feedback_state`: back to the initial flags, button disabled. */
    method ResetFeedbackState()
      modifies this
      ensures !feedbackEnviado && processoAtual == None && !relatorioGerado
      ensures button == Disable(old(button)) && posted == old(posted)
      ensures forall a :: !ReportAccepted(relatorioGerado, feedbackEnviado, a)
      ensures !EmitsOnClose(processoAtual, relatorioGerado, feedbackEnviado)
    {
      feedbackEnviado := false;
      relatorioGerado := false;
      processoAtual := None;
      button := Disable(button);
    }

    /** `_enviar_feedback` with `_enviar_para_google_forms`: one POST, success on 200 only. */
    method EnviarFeedback(tipo: string, descricao: string, processo: Option<string>, now: string, h: HttpResult)
      returns (ok: bool)
      modifies this
      ensures posted == old(posted) + [SentinelPayload(Fields, MakeRecord(tipo, descricao, processo, modeloLlm, now, appVersion))]
      ensures ok <==> Accepted(h)
      ensures feedbackEnviado == old(feedbackEnviado) && processoAtual == old(processoAtual)
      ensures relatorioGerado == old(relatorioGerado) && button == old(button)
    {
      var rec := MakeRecord(tipo, descricao, processo, modeloLlm, now, appVersion);
      posted := posted + [SentinelPayload(Fields, rec)];
      ok := h.Responded? && h.status == 200;
    }

    /** `on_relatorio_sucesso`: as in feedback_system.py, with this variant's send. */
    method OnRelatorioSucesso(numero: string, now: string, h: HttpResult)
      modifies this
      ensures !EmitsOnNewReport(old(processoAtual), old(relatorioGerado), old(feedbackEnviado), numero) ==>
        posted == old(posted)
      ensures EmitsOnNewReport(old(processoAtual), old(relatorioGerado), old(feedbackEnviado), numero) ==>
        posted == old(posted) + [SentinelPayload(Fields,
          MakeRecord(SUCESSO_AUTO, NewReportDescription(old(processoAtual).value),
                     old(processoAtual), modeloLlm, now, appVersion))]
      ensures processoAtual == Some(numero) && relatorioGerado && !feedbackEnviado
      ensures button == Enable(old(button))
    {
      if EmitsOnNewReport(processoAtual, relatorioGerado, feedbackEnviado, numero) {
        var _ := EnviarFeedback(SUCESSO_AUTO, NewReportDescription(processoAtual.value), processoAtual, now, h);
      }
      processoAtual := Some(numero);
      relatorioGerado := true;
      feedbackEnviado := false;
      button := Enable(button);
    }

    /** `on_reportar_erro_manual`: as in feedback_system.py, with this variant's send. */
    method OnReportarErroManual(answer: Option<string>, now: string, h: HttpResult) returns (ok: bool)
      modifies this
      ensures !ReportAccepted(old(relatorioGerado), old(feedbackEnviado), answer) ==>
        !ok && posted == old(posted) && feedbackEnviado == old(feedbackEnviado) && button == old(button)
      ensures ReportAccepted(old(relatorioGerado), old(feedbackEnviado), answer) ==>
        && posted == old(posted) + [SentinelPayload(Fields,
             MakeRecord(ERRO, Strip(answer.value), old(processoAtual), modeloLlm, now, appVersion))]
        && (ok <==> Accepted(h))
      ensures ok ==> feedbackEnviado && button == Disable(old(button))
      ensures !ok ==> feedbackEnviado == old(feedbackEnviado) && button == old(button)
      ensures processoAtual == old(processoAtual) && relatorioGerado == old(relatorioGerado)
    {
      if !relatorioGerado {
        return false;
      }
      if feedbackEnviado {
        return false;
      }
      if answer.None? || Strip(answer.value) == "" {
        return false;
      }
      var sucesso := EnviarFeedback(ERRO, Strip(answer.value), processoAtual, now, h);
      if sucesso {
        feedbackEnviado := true;
        button := Disable(button);
        return true;
      }
      return false;
    }

    /** `on_fechamento_aplicacao`: the pending implicit success, sent synchronously; no flag changes. */
    method OnFechamentoAplicacao(now: string, h: HttpResult)
      modifies this
      ensures !EmitsOnClose(old(processoAtual), old(relatorioGerado), old(feedbackEnviado)) ==> posted == old(posted)
      ensures EmitsOnClose(old(processoAtual), old(relatorioGerado), old(feedbackEnviado)) ==>
        posted == old(posted) + [SentinelPayload(Fields,
          MakeRecord(SUCESSO_AUTO, ClosingDescription(old(processoAtual).value), old(processoAtual),
                     modeloLlm, now, appVersion))]
      ensures feedbackEnviado == old(feedbackEnviado) && processoAtual == old(processoAtual)
      ensures relatorioGerado == old(relatorioGerado) && button == old(button)
    {
      if EmitsOnClose(processoAtual, relatorioGerado, feedbackEnviado) {
        var _ := EnviarFeedback(SUCESSO_AUTO, ClosingDescription(processoAtual.value), processoAtual, now, h);
      }
    }

    /** `enviar_feedback_teste`: a direct send whose process defaults to "TESTE". */
    method EnviarFeedbackTeste(tipo: string, descricao: string, now: string, h: HttpResult, processo: string := "TESTE")
      returns (ok: bool)
      modifies this
      ensures posted == old(posted) + [SentinelPayload(Fields, MakeRecord(tipo, descricao, Some(processo), modeloLlm, now, appVersion))]
      ensures ok <==> Accepted(h)
      ensures feedbackEnviado == old(feedbackEnviado) && processoAtual == old(processoAtual)
      ensures relatorioGerado == old(relatorioGerado) && button == old(button)
    {
      ok := EnviarFeedback(tipo, descricao, Some(processo), now, h);
    }
  }
}

=== FILE: form_ids.dfy ===
/**
 * The GoogleFormsIDExtractor of scripts/extract_form_ids.py: the form's view
 * URL, the sorted set of `entry.<digits>` ids found in its HTML, a per-field
 * description (type, label, preview), the mapping of the five feedback fields
 * to entry ids by keyword, and the `.env` lines that record that mapping. The
 * regular-expression matches are inputs: what each pattern found is given.
 */
module FormIds {
  import opened Common
  import opened Strings
  import opened OrderedMaps

  /** The extractor's state after `__init__`. */
  datatype Extractor = Extractor(formUrl: string, viewUrl: string)

  const ResponsePath: string := "/formResponse"
  const ViewPath: string := "/viewform"

  /** `__init__`: a missing or empty GOOGLE_FORM_URL raises ValueError; otherwise the view URL replaces every "/formResponse". */
  function NewExtractor(env: map<string, string>): (r: Result<Extractor, string>)
    ensures r.Failure? <==> GetEnv(env, "GOOGLE_FORM_URL", "") == ""
    ensures r.Success? ==> r.value.formUrl == env["GOOGLE_FORM_URL"]
  {
    var formUrl := GetEnv(env, "GOOGLE_FORM_URL", "");
    if formUrl == "" then Failure("GOOGLE_FORM_URL não encontrada no .env")
    else Success(Extractor(formUrl, ReplaceAll(formUrl, ResponsePath, ViewPath)))
  }

  /** A response URL maps to its view URL; a URL without "/formResponse" is viewed as is. */
  lemma ViewUrl(base: string)
    requires !Contains(base, ResponsePath)
    ensures NewExtractor(map["GOOGLE_FORM_URL" := base + ResponsePath]).value.viewUrl == base + ViewPath
    ensures base != "" ==> NewExtractor(map["GOOGLE_FORM_URL" := base]).value.viewUrl == base
  {
    assert FirstCharUnique(ResponsePath);
    ReplaceTrailing(base, ResponsePath, ViewPath);
    ReplaceAbsent(base, ResponsePath, ViewPath);
  }

  /** Strictly increasing in Python's string order: sorted and without duplicates. */
  ghost predicate StrictlySorted(xs: seq<string>) {
    forall i, j :: 0 <= i < j < |xs| ==> StrLt(xs[i], xs[j])
  }

  /** Adds `x` to a strictly sorted list at its place, unless it is there. */
  function InsertSorted(x: string, xs: seq<string>): (r: seq<string>)
    ensures forall y :: y in r <==> y == x || y in xs
  {
    if xs == [] then [x]
    else if x == xs[0] then xs
    else if StrLt(x, xs[0]) then [x] + xs
    else
      assert xs == [xs[0]] + xs[1..];
      [xs[0]] + InsertSorted(x, xs[1..])
  }

  lemma {:induction false} InsertSortedSorted(x: string, xs: seq<string>)
    requires StrictlySorted(xs)
    ensures StrictlySorted(InsertSorted(x, xs))
  {
    if xs == [] || x == xs[0] {
    } else if StrLt(x, xs[0]) {
      var r := [x] + xs;
      forall i, j | 0 <= i < j < |r|
        ensures StrLt(r[i], r[j])
      {
        if i == 0 && j > 1 {
          StrLtTransitive(x, xs[0], xs[j - 1]);
        }
      }
    } else {
      var tail := xs[1..];
      assert StrictlySorted(tail) by {
        forall i, j | 0 <= i < j < |tail|
          ensures StrLt(tail[i], tail[j])
        {
          assert tail[i] == xs[i + 1] && tail[j] == xs[j + 1];
        }
      }
      InsertSortedSorted(x, tail);
      StrLtTotal(x, xs[0]);
      var rest := InsertSorted(x, tail);
      var r := [xs[0]] + rest;
      forall j | 0 <= j < |rest|
        ensures StrLt(xs[0], rest[j])
      {
        assert rest[j] in rest;
        if rest[j] != x {
          var k :| 0 <= k < |tail| && tail[k] == rest[j];
          assert xs[k + 1] == rest[j];
        }
      }
      forall i, j | 0 <= i < j < |r|
        ensures StrLt(r[i], r[j])
      {
        assert r[j] == rest[j - 1];
        if i > 0 {
          assert r[i] == rest[i - 1];
        }
      }
    }
  }

  /**
   * `extract_entry_ids`: `found[p]` is what `re.findall` returned for the
   * p-th pattern. The result is every id any pattern found, sorted, each once.
   */
  method ExtractEntryIds(found: seq<seq<string>>) returns (ids: seq<string>)
    ensures StrictlySorted(ids)
    ensures forall x :: x in ids <==> exists p :: 0 <= p < |found| && x in found[p]
  {
    var allEntries: set<string> := {};
    for p := 0 to |found|
      invariant forall x :: x in allEntries <==> exists q :: 0 <= q < p && x in found[q]
    {
      allEntries := allEntries + set x | x in found[p];
    }
    ids := [];
    var rest := allEntries;
    while rest != {}
      invariant StrictlySorted(ids)
      invariant forall x :: x in ids || x in rest <==> x in allEntries
      decreases |rest|
    {
      var x :| x in rest;
      InsertSortedSorted(x, ids);
      ids := InsertSorted(x, ids);
      rest := rest - {x};
    }
  }

  /** The field kinds looked for in the context, in priority order. */
  const TypeKeywords: seq<string> := ["radio", "checkbox", "select", "textarea"]

  /** The kind of an input: "radio", "checkbox", "select", "textarea" or "text". */
  function FieldType(context: string): string {
    var lower := Lower(context);
    if Contains(lower, "radio") then "radio"
    else if Contains(lower, "checkbox") then "checkbox"
    else if Contains(lower, "select") then "select"
    else if Contains(lower, "textarea") then "textarea"
    else "text"
  }

  /** The type is the first kind, in priority order, that the lowercased context names; "text" when it names none. */
  lemma FieldTypePriority(context: string)
    ensures FieldType(context) == "text" <==> forall t :: 0 <= t < |TypeKeywords| ==> !Contains(Lower(context), TypeKeywords[t])
    ensures FieldType(context) != "text" ==>
      exists t :: 0 <= t < |TypeKeywords| && FieldType(context) == TypeKeywords[t] && Contains(Lower(context), TypeKeywords[t])
                  && forall u :: 0 <= u < t ==> !Contains(Lower(context), TypeKeywords[u])
  {
    var lower := Lower(context);
    assert TypeKeywords[0] == "radio" && TypeKeywords[1] == "checkbox";
    assert TypeKeywords[2] == "select" && TypeKeywords[3] == "textarea";
    if Contains(lower, "radio") {
      assert FieldType(context) == TypeKeywords[0];
    } else if Contains(lower, "checkbox") {
      assert FieldType(context) == TypeKeywords[1];
    } else if Contains(lower, "select") {
      assert FieldType(context) == TypeKeywords[2];
    } else if Contains(lower, "textarea") {
      assert FieldType(context) == TypeKeywords[3];
    }
  }

  const NoLabel: string := "Sem label"

  /** A label pattern matched and its capture is not blank (`match.group(1).strip()` is truthy). */
  predicate HasText(capture: Option<string>) {
    capture.Some? && NotBlank(capture.value)
  }

  function FirstWithText(captures: seq<Option<string>>, i: nat): (r: Option<nat>)
    requires i <= |captures|
    ensures r.Some? ==> i <= r.value < |captures|
    ensures r.Some? ==> HasText(captures[r.value])
    ensures r.Some? ==> forall u :: i <= u < r.value ==> !HasText(captures[u])
    ensures r.None? ==> forall u :: i <= u < |captures| ==> !HasText(captures[u])
    decreases |captures| - i
  {
    if i == |captures| then None
    else if HasText(captures[i]) then Some(i)
    else FirstWithText(captures, i + 1)
  }

  /**
   * The label: `captures[k]` is group 1 of the k-th label pattern searched in
   * the context (None when it did not match); the first one with text,
   * stripped, else "Sem label".
   */
  function Label(captures: seq<Option<string>>): string {
    match FirstWithText(captures, 0)
    case None => NoLabel
    case Some(k) => Strip(captures[k].value)
  }

  /** Without a capture that has text the label is "Sem label"; otherwise it is the first such capture, stripped and non-empty. */
  lemma LabelSpec(captures: seq<Option<string>>, k: nat)
    requires k < |captures| && HasText(captures[k]) && forall u :: 0 <= u < k ==> !HasText(captures[u])
    ensures Label(captures) == Strip(captures[k].value)
    ensures Label(captures) != "" && Unpadded(Label(captures))
  {
    var r := FirstWithText(captures, 0);
    assert r.Some?;
    assert r.value == k;
    NotBlankStrip(captures[k].value);
  }

  lemma NoLabelSpec(captures: seq<Option<string>>)
    requires forall u :: 0 <= u < |captures| ==> !HasText(captures[u])
    ensures Label(captures) == NoLabel
  {
  }

  /** `context[:200] + "..." if len(context) > 200 else context` */
  function Preview(context: string): (r: string)
    ensures |r| <= 203
    ensures |context| <= 200 ==> r == context
    ensures |context| > 200 ==> |r| == 203 && r[..200] == context[..200] && r[200..] == "..."
  {
    if |context| > 200 then context[..200] + "..." else context
  }

  /** Truncating a preview again changes nothing. */
  lemma PreviewIdempotent(context: string)
    ensures Preview(Preview(context)) == Preview(context)
  {
    if |context| > 200 {
      var p := Preview(context);
      assert p[..200] == context[..200];
    }
  }

  datatype FieldAnalysis = FieldAnalysis(fieldType: string, labelText: string, preview: string)

  function Describe(context: string, captures: seq<Option<string>>): FieldAnalysis {
    FieldAnalysis(FieldType(context), Label(captures), Preview(context))
  }

  /**
   * `analyze_form_structure`. `inputs` are the ids the input pattern found in
   * order; `contextOf(id)` is the context search's match (None when it failed);
   * `capturesOf(context)` are the label patterns' captures in that context.
   */
  method AnalyzeFormStructure(inputs: seq<string>, contextOf: string -> Option<string>,
                              capturesOf: string -> seq<Option<string>>) returns (fieldAnalysis: OMap<FieldAnalysis>)
    ensures fieldAnalysis.Valid()
    ensures forall k :: k in fieldAnalysis.vals <==> k in inputs && contextOf(k).Some?
    ensures forall k :: k in fieldAnalysis.vals ==>
      fieldAnalysis.vals[k] == Describe(contextOf(k).value, capturesOf(contextOf(k).value))
  {
    fieldAnalysis := Empty();
    for i := 0 to |inputs|
      invariant fieldAnalysis.Valid()
      invariant forall k :: k in fieldAnalysis.vals <==> k in inputs[..i] && contextOf(k).Some?
      invariant forall k :: k in fieldAnalysis.vals ==>
        fieldAnalysis.vals[k] == Describe(contextOf(k).value, capturesOf(contextOf(k).value))
    {
      assert inputs[..i + 1] == inputs[..i] + [inputs[i]];
      var entryId := inputs[i];
      var contextMatch := contextOf(entryId);
      if contextMatch.Some? {
        var context := contextMatch.value;
        fieldAnalysis := fieldAnalysis.Put(entryId, Describe(context, capturesOf(context)));
      }
    }
    assert inputs[..|inputs|] == inputs;
  }

  /** The feedback fields, and for each the keywords that identify it. */
  const FieldNames: seq<string> := ["TIPO", "DESCRICAO", "MODELO", "TIMESTAMP", "VERSAO"]
  const FieldKeywords: seq<seq<string>> := [
    ["tipo", "category", "categoria", "status", "classificação"],
    ["descrição", "description", "problema", "detalhe", "texto", "comentário"],
    ["modelo", "model", "llm", "engine", "ai"],
    ["timestamp", "data", "date", "tempo", "hora"],
    ["versão", "version", "ver", "release"]]

  predicate KeywordAt(a: FieldAnalysis, kws: seq<string>, t: int)
    requires 0 <= t < |kws|
  {
    Contains(Lower(a.labelText), kws[t]) || Contains(Lower(a.preview), kws[t])
  }

  /** Some keyword from index t on occurs in the lowercased label or preview. */
  predicate AnyKeywordFrom(a: FieldAnalysis, kws: seq<string>, t: int)
    requires 0 <= t <= |kws|
    decreases |kws| - t
  {
    t < |kws| && (KeywordAt(a, kws, t) || AnyKeywordFrom(a, kws, t + 1))
  }

  lemma {:induction false} AnyKeywordFromSpec(a: FieldAnalysis, kws: seq<string>, t: int)
    requires 0 <= t <= |kws|
    ensures AnyKeywordFrom(a, kws, t) <==> exists u :: t <= u < |kws| && KeywordAt(a, kws, u)
    decreases |kws| - t
  {
    if t < |kws| {
      AnyKeywordFromSpec(a, kws, t + 1);
    }
  }

  /** One of field j's keywords occurs in the lowercased label or preview. */
  predicate Matches(a: FieldAnalysis, j: nat)
    requires j < |FieldNames|
  {
    AnyKeywordFrom(a, FieldKeywords[j], 0)
  }

  /** Field j matches exactly when one of its keywords occurs in the lowercased label or preview. */
  lemma MatchesSpec(a: FieldAnalysis, j: nat)
    requires j < |FieldNames|
    ensures Matches(a, j) <==> exists t :: 0 <= t < |FieldKeywords[j]| && KeywordAt(a, FieldKeywords[j], t)
  {
    AnyKeywordFromSpec(a, FieldKeywords[j], 0);
  }

  /** The keyword loops for one entry, from field j on: each matching field not yet mapped gets this entry. */
  function AssignFrom(m: OMap<string>, entryId: string, a: FieldAnalysis, j: nat): (r: OMap<string>)
    requires m.Valid() && j <= |FieldNames|
    ensures r.Valid()
    decreases |FieldNames| - j
  {
    if j == |FieldNames| then m
    else
      var m' := if Matches(a, j) && FieldNames[j] !in m.vals then m.Put(FieldNames[j], entryId) else m;
      AssignFrom(m', entryId, a, j + 1)
  }

  /** The outer loop from entry i on. */
  function SuggestFrom(m: OMap<string>, analysis: OMap<FieldAnalysis>, i: nat): (r: OMap<string>)
    requires m.Valid() && analysis.Valid() && i <= |analysis.keys|
    ensures r.Valid()
    decreases |analysis.keys| - i
  {
    if i == |analysis.keys| then m
    else SuggestFrom(AssignFrom(m, analysis.keys[i], analysis.vals[analysis.keys[i]], 0), analysis, i + 1)
  }

  function Suggest(analysis: OMap<FieldAnalysis>): (r: OMap<string>)
    requires analysis.Valid()
    ensures r.Valid()
  {
    SuggestFrom(Empty(), analysis, 0)
  }

  predicate MatchAt(analysis: OMap<FieldAnalysis>, n: int, j: int)
    requires analysis.Valid() && 0 <= n < |analysis.keys| && 0 <= j < |FieldNames|
  {
    Matches(analysis.vals[analysis.keys[n]], j)
  }

  /** The first of the first `upto` entries whose keywords match field j. */
  function FirstMatch(analysis: OMap<FieldAnalysis>, j: int, upto: int): (r: Option<nat>)
    requires analysis.Valid() && 0 <= j < |FieldNames| && 0 <= upto <= |analysis.keys|
    ensures r.Some? ==> r.value < upto
    decreases upto
  {
    if upto == 0 then None
    else
      var p := FirstMatch(analysis, j, upto - 1);
      if p.Some? then p else if MatchAt(analysis, upto - 1, j) then Some(upto - 1) else None
  }

  /** FirstMatch is None when no entry matches, and otherwise a matching entry with none before it. */
  lemma {:induction false} FirstMatchSpec(analysis: OMap<FieldAnalysis>, j: int, upto: int)
    requires analysis.Valid() && 0 <= j < |FieldNames| && 0 <= upto <= |analysis.keys|
    ensures FirstMatch(analysis, j, upto).None? <==> forall n :: 0 <= n < upto ==> !MatchAt(analysis, n, j)
    ensures FirstMatch(analysis, j, upto).Some? ==>
      var n := FirstMatch(analysis, j, upto).value;
      MatchAt(analysis, n, j) && forall n' :: 0 <= n' < n ==> !MatchAt(analysis, n', j)
    decreases upto
  {
    if upto > 0 {
      FirstMatchSpec(analysis, j, upto - 1);
      if FirstMatch(analysis, j, upto - 1).None? && !MatchAt(analysis, upto - 1, j) {
        assert forall n :: 0 <= n < upto ==> !MatchAt(analysis, n, j);
      }
    }
  }

  /** Field j is mapped exactly when one of the first `upto` entries matches it, and then to the first of them. */
  predicate MappedFirst(m: OMap<string>, analysis: OMap<FieldAnalysis>, j: int, upto: int)
    requires analysis.Valid() && 0 <= j < |FieldNames| && 0 <= upto <= |analysis.keys|
  {
    var f := FirstMatch(analysis, j, upto);
    && (FieldNames[j] in m.vals <==> f.Some?)
    && (f.Some? ==> m.vals[FieldNames[j]] == analysis.keys[f.value])
  }

  /** Every field is mapped as the first `upto` entries dictate, and nothing else is a key. */
  ghost predicate AllMapped(m: OMap<string>, analysis: OMap<FieldAnalysis>, upto: int)
    requires analysis.Valid() && 0 <= upto <= |analysis.keys|
  {
    && (forall k :: k in m.vals ==> k in FieldNames)
    && (forall j :: 0 <= j < |FieldNames| ==> MappedFirst(m, analysis, j, upto))
  }

  /** Field j has seen entry i when it comes before j0, and only the entries before i otherwise. */
  predicate MappedUpTo(m: OMap<string>, analysis: OMap<FieldAnalysis>, j: int, i: int, j0: int)
    requires analysis.Valid() && 0 <= j < |FieldNames| && 0 <= i < |analysis.keys|
  {
    MappedFirst(m, analysis, j, if j < j0 then i + 1 else i)
  }

  /** After entries before i, and entry i for the fields before j0. */
  ghost predicate Progress(m: OMap<string>, analysis: OMap<FieldAnalysis>, i: int, j0: int)
    requires analysis.Valid() && 0 <= i < |analysis.keys|
  {
    && (forall k :: k in m.vals ==> k in FieldNames)
    && (forall j :: 0 <= j < |FieldNames| ==> MappedUpTo(m, analysis, j, i, j0))
  }

  /** Entry i settles field j0: it is mapped to its first match among entries 0..i. */
  lemma AssignStepSame(m: OMap<string>, analysis: OMap<FieldAnalysis>, i: nat, j0: nat)
    requires m.Valid() && analysis.Valid() && i < |analysis.keys| && j0 < |FieldNames|
    requires MappedFirst(m, analysis, j0, i)
    ensures var a := analysis.vals[analysis.keys[i]];
      var m' := if Matches(a, j0) && FieldNames[j0] !in m.vals then m.Put(FieldNames[j0], analysis.keys[i]) else m;
      MappedFirst(m', analysis, j0, i + 1)
  {
  }

  /** Assigning field j0 leaves every other field as it was. */
  lemma AssignStepOther(m: OMap<string>, analysis: OMap<FieldAnalysis>, i: nat, j0: nat, j: nat, upto: nat)
    requires m.Valid() && analysis.Valid() && i < |analysis.keys| && j0 < |FieldNames|
    requires j < |FieldNames| && j != j0 && upto <= |analysis.keys|
    requires MappedFirst(m, analysis, j, upto)
    ensures var a := analysis.vals[analysis.keys[i]];
      var m' := if Matches(a, j0) && FieldNames[j0] !in m.vals then m.Put(FieldNames[j0], analysis.keys[i]) else m;
      MappedFirst(m', analysis, j, upto)
  {
    assert FieldNames[j] != FieldNames[j0];
  }

  /** One pass of the inner loop keeps the invariant, with field j0 now settled for entry i. */
  lemma ProgressStep(m: OMap<string>, analysis: OMap<FieldAnalysis>, i: nat, j0: nat)
    requires m.Valid() && analysis.Valid() && i < |analysis.keys| && j0 < |FieldNames|
    requires Progress(m, analysis, i, j0)
    ensures var a := analysis.vals[analysis.keys[i]];
      var m' := if Matches(a, j0) && FieldNames[j0] !in m.vals then m.Put(FieldNames[j0], analysis.keys[i]) else m;
      Progress(m', analysis, i, j0 + 1)
  {
    var a := analysis.vals[analysis.keys[i]];
    var m' := if Matches(a, j0) && FieldNames[j0] !in m.vals then m.Put(FieldNames[j0], analysis.keys[i]) else m;
    var next := j0 + 1;
    forall j | 0 <= j < |FieldNames|
      ensures MappedUpTo(m', analysis, j, i, next)
    {
      assert MappedUpTo(m, analysis, j, i, j0);
      if j == j0 {
        AssignStepSame(m, analysis, i, j0);
      } else {
        AssignStepOther(m, analysis, i, j0, j, if j < j0 then i + 1 else i);
      }
    }
  }

  lemma {:induction false} AssignFromProgress(m: OMap<string>, analysis: OMap<FieldAnalysis>, i: nat, j0: nat)
    requires m.Valid() && analysis.Valid() && i < |analysis.keys| && j0 <= |FieldNames|
    requires Progress(m, analysis, i, j0)
    ensures Progress(AssignFrom(m, analysis.keys[i], analysis.vals[analysis.keys[i]], j0), analysis, i, |FieldNames|)
    decreases |FieldNames| - j0
  {
    if j0 < |FieldNames| {
      var a := analysis.vals[analysis.keys[i]];
      var m' := if Matches(a, j0) && FieldNames[j0] !in m.vals then m.Put(FieldNames[j0], analysis.keys[i]) else m;
      ProgressStep(m, analysis, i, j0);
      AssignFromProgress(m', analysis, i, j0 + 1);
    }
  }


  /** One pass of the field loop extends the mapping property by one entry. */
  lemma EntryStep(m: OMap<string>, analysis: OMap<FieldAnalysis>, i: nat)
    requires m.Valid() && analysis.Valid() && i < |analysis.keys|
    requires AllMapped(m, analysis, i)
    ensures AllMapped(AssignFrom(m, analysis.keys[i], analysis.vals[analysis.keys[i]], 0), analysis, i + 1)
  {
    var m' := AssignFrom(m, analysis.keys[i], analysis.vals[analysis.keys[i]], 0);
    forall j | 0 <= j < |FieldNames|
      ensures MappedUpTo(m, analysis, j, i, 0)
    {
      assert MappedFirst(m, analysis, j, i);
    }
    assert Progress(m, analysis, i, 0);
    AssignFromProgress(m, analysis, i, 0);
    var next := i + 1;
    forall j | 0 <= j < |FieldNames|
      ensures MappedFirst(m', analysis, j, next)
    {
      assert MappedUpTo(m', analysis, j, i, |FieldNames|);
    }
  }

  lemma {:induction false} SuggestFromMapped(m: OMap<string>, analysis: OMap<FieldAnalysis>, i: nat)
    requires m.Valid() && analysis.Valid() && i <= |analysis.keys|
    requires AllMapped(m, analysis, i)
    ensures AllMapped(SuggestFrom(m, analysis, i), analysis, |analysis.keys|)
    decreases |analysis.keys| - i
  {
    if i < |analysis.keys| {
      EntryStep(m, analysis, i);
      var m' := AssignFrom(m, analysis.keys[i], analysis.vals[analysis.keys[i]], 0);
      SuggestFromMapped(m', analysis, i + 1);
    }
  }

  /** The whole suggestion maps each field to its first matching entry. */
  lemma SuggestFirst(analysis: OMap<FieldAnalysis>, j: int)
    requires analysis.Valid() && 0 <= j < |FieldNames|
    ensures MappedFirst(Suggest(analysis), analysis, j, |analysis.keys|)
  {
    assert AllMapped(Empty(), analysis, 0);
    SuggestFromMapped(Empty(), analysis, 0);
  }

  /** A map that sends field j to its first match holds it exactly when some entry matches, and then at the first one. */
  lemma MappedFirstField(m: OMap<string>, analysis: OMap<FieldAnalysis>, j: int)
    requires analysis.Valid() && 0 <= j < |FieldNames| && MappedFirst(m, analysis, j, |analysis.keys|)
    ensures FieldNames[j] in m.vals <==> exists n :: 0 <= n < |analysis.keys| && MatchAt(analysis, n, j)
    ensures forall n :: 0 <= n < |analysis.keys| && MatchAt(analysis, n, j) && (forall n' :: 0 <= n' < n ==> !MatchAt(analysis, n', j))
                        ==> FieldNames[j] in m.vals && m.vals[FieldNames[j]] == analysis.keys[n]
  {
    FirstMatchSpec(analysis, j, |analysis.keys|);
    var f := FirstMatch(analysis, j, |analysis.keys|);
    forall n | 0 <= n < |analysis.keys| && MatchAt(analysis, n, j) && (forall n' :: 0 <= n' < n ==> !MatchAt(analysis, n', j))
      ensures FieldNames[j] in m.vals && m.vals[FieldNames[j]] == analysis.keys[n]
    {
      assert !f.None?;
      assert !(f.value < n) && !(n < f.value);
    }
    if exists n :: 0 <= n < |analysis.keys| && MatchAt(analysis, n, j) {
      assert f.Some?;
    }
  }

  /**
   * Field j of the suggested mapping: it is a key exactly when some entry
   * matches one of its keywords, and then its value is the first such entry in
   * the analysis order.
   */
  lemma SuggestField(analysis: OMap<FieldAnalysis>, j: int)
    requires analysis.Valid() && 0 <= j < |FieldNames|
    ensures var r := Suggest(analysis);
      && (FieldNames[j] in r.vals <==> exists n :: 0 <= n < |analysis.keys| && MatchAt(analysis, n, j))
      && forall n :: 0 <= n < |analysis.keys| && MatchAt(analysis, n, j) && (forall n' :: 0 <= n' < n ==> !MatchAt(analysis, n', j))
                     ==> FieldNames[j] in r.vals && r.vals[FieldNames[j]] == analysis.keys[n]
  {
    SuggestFirst(analysis, j);
    MappedFirstField(Suggest(analysis), analysis, j);
  }


  /** Only the five field names are keys, and every value is an analysed entry id. */
  lemma SuggestKeys(analysis: OMap<FieldAnalysis>)
    requires analysis.Valid()
    ensures var r := Suggest(analysis);
      && (forall k :: k in r.vals ==> k in FieldNames)
      && (forall k :: k in r.vals ==> r.vals[k] in analysis.vals)
  {
    assert AllMapped(Empty(), analysis, 0);
    SuggestFromMapped(Empty(), analysis, 0);
    var r := Suggest(analysis);
    forall k | k in r.vals
      ensures r.vals[k] in analysis.vals
    {
      var j :| 0 <= j < |FieldNames| && FieldNames[j] == k;
      assert MappedFirst(r, analysis, j, |analysis.keys|);
    }
  }

  /** The keyword loop of one field: stops at the first keyword in the lowercased label or preview. */
  method AnyKeyword(a: FieldAnalysis, j: nat, labelLower: string, contextLower: string) returns (matched: bool)
    requires j < |FieldNames| && labelLower == Lower(a.labelText) && contextLower == Lower(a.preview)
    ensures matched <==> Matches(a, j)
  {
    var fieldKeywords := FieldKeywords[j];
    matched := false;
    var k := 0;
    while k < |fieldKeywords|
      invariant 0 <= k <= |fieldKeywords|
      invariant forall t :: 0 <= t < k ==> !KeywordAt(a, fieldKeywords, t)
    {
      var keyword := fieldKeywords[k];
      if Contains(labelLower, keyword) || Contains(contextLower, keyword) {
        assert KeywordAt(a, fieldKeywords, k);
        matched := true;
        break;
      }
      k := k + 1;
    }
    MatchesSpec(a, j);
  }

  /** The field loop for one entry: each field whose keywords match and that is not yet mapped gets this entry. */
  method AssignEntry(m: OMap<string>, entryId: string, analysis: FieldAnalysis) returns (r: OMap<string>)
    requires m.Valid()
    ensures r == AssignFrom(m, entryId, analysis, 0)
  {
    r := m;
    var labelLower := Lower(analysis.labelText);
    var contextLower := Lower(analysis.preview);
    var j := 0;
    while j < |FieldNames|
      invariant 0 <= j <= |FieldNames|
      invariant r.Valid()
      invariant AssignFrom(r, entryId, analysis, j) == AssignFrom(m, entryId, analysis, 0)
    {
      r := AssignField(r, entryId, analysis, j, labelLower, contextLower);
      j := j + 1;
    }
  }

  /** One pass of the field loop: field j takes this entry when a keyword matches and it is not yet mapped. */
  method AssignField(m: OMap<string>, entryId: string, analysis: FieldAnalysis, j: nat, labelLower: string, contextLower: string)
    returns (r: OMap<string>)
    requires m.Valid() && j < |FieldNames|
    requires labelLower == Lower(analysis.labelText) && contextLower == Lower(analysis.preview)
    ensures r.Valid()
    ensures r == if Matches(analysis, j) && FieldNames[j] !in m.vals then m.Put(FieldNames[j], entryId) else m
  {
    r := m;
    var fieldName := FieldNames[j];
    var matched := AnyKeyword(analysis, j, labelLower, contextLower);
    if matched && fieldName !in r.vals {
      r := r.Put(fieldName, entryId);
    }
  }

  /** `suggest_field_mapping`: for each entry, for each field, the keywords until the first that occurs. */
  method SuggestFieldMapping(fieldAnalysis: OMap<FieldAnalysis>) returns (mappingSuggestions: OMap<string>)
    requires fieldAnalysis.Valid()
    ensures mappingSuggestions == Suggest(fieldAnalysis)
  {
    mappingSuggestions := Empty();
    var i := 0;
    while i < |fieldAnalysis.keys|
      invariant 0 <= i <= |fieldAnalysis.keys|
      invariant mappingSuggestions.Valid()
      invariant SuggestFrom(mappingSuggestions, fieldAnalysis, i) == Suggest(fieldAnalysis)
    {
      mappingSuggestions := SuggestEntry(mappingSuggestions, fieldAnalysis, i);
      i := i + 1;
    }
  }

  /** One pass of the outer loop of `suggest_field_mapping`: entry i is offered to every field. */
  method SuggestEntry(m: OMap<string>, fieldAnalysis: OMap<FieldAnalysis>, i: nat) returns (r: OMap<string>)
    requires m.Valid() && fieldAnalysis.Valid() && i < |fieldAnalysis.keys|
    ensures r.Valid()
    ensures SuggestFrom(r, fieldAnalysis, i + 1) == SuggestFrom(m, fieldAnalysis, i)
  {
    var entryId := fieldAnalysis.keys[i];
    r := AssignEntry(m, entryId, fieldAnalysis.vals[entryId]);
  }

  const EnvHeader: string := "# Configurações Google Forms - IDs CORRIGIDOS"

  function FieldLine(name: string, entryId: string): string {
    "GOOGLE_FORM_FIELD_" + name + "=" + entryId
  }

  /** The lines of the new `.env` block: the header, the form URL, then one line per mapped field in mapping order. */
  function EnvLines(formUrl: string, mapping: OMap<string>): (r: seq<string>)
    requires mapping.Valid()
    ensures |r| == 2 + |mapping.keys|
  {
    [EnvHeader, "GOOGLE_FORM_URL=" + formUrl]
      + seq(|mapping.keys|, i requires 0 <= i < |mapping.keys| => FieldLine(mapping.keys[i], mapping.vals[mapping.keys[i]]))
  }

  /** `generate_new_env_config` */
  method GenerateNewEnvConfig(ex: Extractor, mapping: OMap<string>) returns (config: string)
    requires mapping.Valid()
    ensures config == Join(EnvLines(ex.formUrl, mapping), '\n')
  {
    var configLines := [EnvHeader, "GOOGLE_FORM_URL=" + ex.formUrl];
    for i := 0 to |mapping.keys|
      invariant configLines == EnvLines(ex.formUrl, mapping)[..2 + i]
    {
      var fieldName := mapping.keys[i];
      configLines := configLines + [FieldLine(fieldName, mapping.vals[fieldName])];
    }
    assert configLines == EnvLines(ex.formUrl, mapping);
    config := Join(configLines, '\n');
  }

  /** A field line is one line when its name and entry id are. */
  lemma NoNewlineInField(k: string, v: string)
    requires '\n' !in k && '\n' !in v
    ensures '\n' !in FieldLine(k, v)
  {
    assert '\n' !in "GOOGLE_FORM_FIELD_" && '\n' !in "=";
    assert '\n' !in "GOOGLE_FORM_FIELD_" + k;
    assert '\n' !in "GOOGLE_FORM_FIELD_" + k + "=";
  }

  /** The header is one line; the proof checks its text in two halves, which the solver handles better than the whole literal. */
  lemma NoNewlineInHeader()
    ensures '\n' !in EnvHeader
  {
    var title, note := "# Configurações Google Forms - ", "IDs CORRIGIDOS";
    assert '\n' !in title;
    assert '\n' !in note;
    forall i | 0 <= i < |title + note|
      ensures (title + note)[i] != '\n'
    {
      if i < |title| {
        assert (title + note)[i] == title[i];
      } else {
        assert (title + note)[i] == note[i - |title|];
      }
    }
  }

  /** Reading the block back line by line gives the header, the URL line and one line per field, in order. */
  lemma EnvConfigLines(formUrl: string, mapping: OMap<string>)
    requires mapping.Valid()
    requires '\n' !in formUrl
    requires forall k :: k in mapping.vals ==> '\n' !in k && '\n' !in mapping.vals[k]
    ensures var lines := Split(Join(EnvLines(formUrl, mapping), '\n'), '\n');
      && lines == EnvLines(formUrl, mapping)
      && lines[0] == EnvHeader
      && lines[1] == "GOOGLE_FORM_URL=" + formUrl
      && forall i :: 0 <= i < |mapping.keys| ==> lines[2 + i] == FieldLine(mapping.keys[i], mapping.vals[mapping.keys[i]])
  {
    var lines := EnvLines(formUrl, mapping);
    NoNewlineInHeader();
    assert '\n' !in "GOOGLE_FORM_URL=";
    forall i | 0 <= i < |lines|
      ensures '\n' !in lines[i]
    {
      if i >= 2 {
        var k := mapping.keys[i - 2];
        assert k in mapping.vals;
        NoNewlineInField(k, mapping.vals[k]);
      }
    }
    SplitJoin(lines, '\n');
  }
}

=== FILE: installer.dfy ===
/**
 * The helper batch script the updater writes to the temp directory and
 * launches just before the application exits. It checks that the download and
 * the executable exist, copies the executable to `<exe>.backup`, copies the
 * download over the executable (up to three attempts in src/updater.py, one in
 * updater.py), and then either restores the backup and stops with `exit /b 1`,
 * or writes the VERSION marker, deletes the download and the backup, and starts
 * the executable again.
 *
 * The outcome of each command that can fail is an oracle (`Outcomes`). A copy
 * also fails when its source cannot be read, and a failed copy, echo or del
 * leaves its target as it was.
 */
module Installer {
  import opened Common
  import opened Strings
  import opened UpdateCore

  function BackupOf(exe: Path): Path {
    Path(exe.dir, exe.name + ".backup")
  }

  /**
   * The outcomes the script does not decide itself: `backupOk` for the backup
   * copy, `ok[i]` for copy attempt `i`, `restoreOk` for the restore, and the
   * files whose `echo ... >` (`echoFails`) or `del` (`delFails`) fails. The
   * script checks neither of the last two; it goes on and restarts anyway.
   */
  datatype Outcomes = Outcomes(backupOk: bool, ok: seq<bool>, restoreOk: bool, echoFails: set<Path>, delFails: set<Path>)

  /** What `echo <v> > file` leaves in the file: the text, the space before `>`, and CR LF. */
  function Echoed(v: string): string {
    v + " \r\n"
  }

  /**
   * The files the script touches. `versionFile` is written on success whether
   * or not it exists; each of `optionalVersionFiles` only when it exists at
   * that point.
   */
  datatype Layout = Layout(download: Path, exe: Path, versionFile: Path, optionalVersionFiles: seq<Path>)

  /** src/updater.py: `app_dir\VERSION` always, then `app_dir\version`, `cwd\VERSION`, `cwd\version` if present. */
  function SrcLayout(download: Path, exe: Path, appDir: string, cwd: string): Layout {
    Layout(download, exe, Path(appDir, "VERSION"), [Path(appDir, "version"), Path(cwd, "VERSION"), Path(cwd, "version")])
  }

  /** updater.py: only `app_dir\VERSION`. */
  function RootLayout(download: Path, exe: Path, appDir: string): Layout {
    Layout(download, exe, Path(appDir, "VERSION"), [])
  }

  /** `exitCode` 1 is an `exit /b 1`; 0 means the script ran to its end. */
  datatype ScriptResult = ScriptResult(disk: Disk, exitCode: int, relaunched: bool, attempts: nat)

  /** Copy attempt `i` (from 0) succeeds when its oracle says so and the download can be read. */
  predicate AttemptOk(ok: seq<bool>, readable: bool, i: nat) {
    readable && i < |ok| && ok[i]
  }

  /** The first successful attempt at or after `i` and below `maxAttempts`, if any. */
  function FirstSuccess(ok: seq<bool>, readable: bool, i: nat, maxAttempts: nat): (r: Option<nat>)
    ensures r.Some? ==> i <= r.value < maxAttempts && AttemptOk(ok, readable, r.value)
    ensures r.Some? ==> forall j :: i <= j < r.value ==> !AttemptOk(ok, readable, j)
    ensures r.None? ==> forall j :: i <= j < maxAttempts ==> !AttemptOk(ok, readable, j)
    decreases maxAttempts - i
  {
    if i >= maxAttempts then None
    else if AttemptOk(ok, readable, i) then Some(i)
    else FirstSuccess(ok, readable, i + 1, maxAttempts)
  }

  /** `copy "%CURRENT_EXE%" "%CURRENT_EXE%.backup"`, whose failure the script ignores. */
  function Backup(d: Disk, exe: Path, backupOk: bool): Disk {
    if backupOk && Readable(d, exe) then d[BackupOf(exe) := d[exe]] else d
  }

  /** `copy "%CURRENT_EXE%.backup" "%CURRENT_EXE%"`: whatever `.backup` file is there is copied back. */
  function Restore(d: Disk, exe: Path, restoreOk: bool): Disk {
    if restoreOk && Readable(d, BackupOf(exe)) then d[exe := d[BackupOf(exe)]] else d
  }

  /** `echo <text> > f`: creates or overwrites f, unless the write fails, which leaves f as it was. */
  function Echo(d: Disk, f: Path, text: string, echoFails: set<Path>): Disk {
    if f in echoFails then d else d[f := Some(text)]
  }

  /** `del f > nul 2>&1`: removes f, unless the delete fails, which leaves f in place. */
  function Delete(d: Disk, f: Path, delFails: set<Path>): Disk {
    if f in delFails then d else d - {f}
  }

  /** The `if exist f ( echo ... > f )` steps, in order. */
  function WriteOptional(d: Disk, files: seq<Path>, text: string, echoFails: set<Path>): (r: Disk)
    ensures forall p :: p in r <==> p in d
    ensures forall p :: p in files && p in d && p !in echoFails ==> r[p] == Some(text)
    ensures forall p :: (p !in files || p in echoFails) && p in d ==> r[p] == d[p]
    decreases |files|
  {
    if files == [] then d
    else
      var d1 := if files[0] in d then Echo(d, files[0], text, echoFails) else d;
      var r := WriteOptional(d1, files[1..], text, echoFails);
      assert forall p :: p in files ==> p == files[0] || p in files[1..];
      r
  }

  /** The rest of a run whose copy succeeded, from disk `d1`: the VERSION echoes, then the two `del`s. */
  function Installed(d1: Disk, lay: Layout, v: string, o: Outcomes): Disk
    requires lay.download in d1
  {
    var d2 := d1[lay.exe := d1[lay.download]];
    var d3 := WriteOptional(Echo(d2, lay.versionFile, Echoed(v), o.echoFails), lay.optionalVersionFiles, Echoed(v), o.echoFails);
    Delete(Delete(d3, lay.download, o.delFails), BackupOf(lay.exe), o.delFails)
  }

  /**
   * The script run to its end on disk `d`. With `onlyFreshBackup` the restore
   * step is skipped unless this run's own backup copy succeeded; the scripts
   * as written have it false.
   */
  function Script(d: Disk, lay: Layout, v: string, o: Outcomes, maxAttempts: nat, onlyFreshBackup: bool): ScriptResult {
    if lay.download !in d || lay.exe !in d then ScriptResult(d, 1, false, 0)
    else
      var d1 := Backup(d, lay.exe, o.backupOk);
      match FirstSuccess(o.ok, Readable(d1, lay.download), 0, maxAttempts)
      case Some(k) => ScriptResult(Installed(d1, lay, v, o), 0, true, k + 1)
      case None =>
        var ownBackup := o.backupOk && Readable(d, lay.exe);
        var restored := if onlyFreshBackup && !ownBackup then d1 else Restore(d1, lay.exe, o.restoreOk);
        ScriptResult(restored, 1, false, maxAttempts)
  }

  /** The helper script as written in both updaters. */
  function HelperScript(d: Disk, lay: Layout, v: string, o: Outcomes, maxAttempts: nat): ScriptResult {
    Script(d, lay, v, o, maxAttempts, false)
  }

  /** The helper script with the restore step limited to a backup made by the same run. */
  function CorrectedHelperScript(d: Disk, lay: Layout, v: string, o: Outcomes, maxAttempts: nat): ScriptResult {
    Script(d, lay, v, o, maxAttempts, true)
  }

  /** The `for /L %%i in (1,1,3)` loop: copy until COPY_SUCCESS is set, at most three times. */
  method CopyWithRetries(disk: Disk, download: Path, exe: Path, ok: seq<bool>)
    returns (disk': Disk, copySuccess: bool, attempts: nat)
    ensures var first := FirstSuccess(ok, Readable(disk, download), 0, 3);
      && (copySuccess <==> first.Some?)
      && (copySuccess ==> attempts == first.value + 1 && disk' == disk[exe := disk[download]])
      && (!copySuccess ==> attempts == 3 && disk' == disk)
  {
    ghost var readable := Readable(disk, download);
    disk' := disk;
    copySuccess := false;
    attempts := 0;
    for i := 0 to 3
      invariant !copySuccess ==> attempts == i && disk' == disk
      invariant !copySuccess ==> FirstSuccess(ok, readable, 0, 3) == FirstSuccess(ok, readable, i, 3)
      invariant copySuccess ==> FirstSuccess(ok, readable, 0, 3) == Some(attempts - 1)
      invariant copySuccess ==> disk' == disk[exe := disk[download]]
    {
      if !copySuccess {
        attempts := attempts + 1;
        if Readable(disk', download) && i < |ok| && ok[i] {
          disk' := disk'[exe := disk'[download]];
          copySuccess := true;
        }
      }
    }
  }

  /** The four VERSION writes of src/updater.py: `app_dir\VERSION` unconditionally, the other three if present. */
  method EchoSrcVersionFiles(disk: Disk, appDir: string, cwd: string, text: string, echoFails: set<Path>) returns (disk': Disk)
    ensures disk' == WriteOptional(Echo(disk, Path(appDir, "VERSION"), text, echoFails),
                                   [Path(appDir, "version"), Path(cwd, "VERSION"), Path(cwd, "version")], text, echoFails)
  {
    disk' := Echo(disk, Path(appDir, "VERSION"), text, echoFails);
    ghost var d0 := disk';
    if Path(appDir, "version") in disk' {
      disk' := Echo(disk', Path(appDir, "version"), text, echoFails);
    }
    ghost var d1 := disk';
    if Path(cwd, "VERSION") in disk' {
      disk' := Echo(disk', Path(cwd, "VERSION"), text, echoFails);
    }
    ghost var d2 := disk';
    if Path(cwd, "version") in disk' {
      disk' := Echo(disk', Path(cwd, "version"), text, echoFails);
    }
    assert disk' == WriteOptional(d2, [Path(cwd, "version")], text, echoFails);
    assert [Path(cwd, "VERSION"), Path(cwd, "version")][1..] == [Path(cwd, "version")];
    assert disk' == WriteOptional(d1, [Path(cwd, "VERSION"), Path(cwd, "version")], text, echoFails);
    assert [Path(appDir, "version"), Path(cwd, "VERSION"), Path(cwd, "version")][1..] == [Path(cwd, "VERSION"), Path(cwd, "version")];
  }

  /**
   * The batch text of src/updater.py `_apply_update_batch`, step by step: the
   * two existence checks, the backup, the retry loop, then the restore or the
   * VERSION writes, clean-up and restart.
   */
  method RunSrcHelper(d: Disk, download: Path, exe: Path, appDir: string, cwd: string, v: string, o: Outcomes)
    returns (r: ScriptResult)
    ensures r == HelperScript(d, SrcLayout(download, exe, appDir, cwd), v, o, 3)
  {
    if download !in d || exe !in d {
      return ScriptResult(d, 1, false, 0);
    }
    var disk := d;
    if o.backupOk && Readable(disk, exe) {
      disk := disk[BackupOf(exe) := disk[exe]];
    }
    var copySuccess, attempts;
    disk, copySuccess, attempts := CopyWithRetries(disk, download, exe, o.ok);
    if !copySuccess {
      if o.restoreOk && Readable(disk, BackupOf(exe)) {
        disk := disk[exe := disk[BackupOf(exe)]];
      }
      return ScriptResult(disk, 1, false, attempts);
    }
    disk := EchoSrcVersionFiles(disk, appDir, cwd, Echoed(v), o.echoFails);
    if download !in o.delFails {
      disk := disk - {download};
    }
    if BackupOf(exe) !in o.delFails {
      disk := disk - {BackupOf(exe)};
    }
    return ScriptResult(disk, 0, true, attempts);
  }

  /** The batch text of updater.py `apply_update`: the same steps with a single copy attempt. */
  method RunRootHelper(d: Disk, download: Path, exe: Path, appDir: string, v: string,
                       backupOk: bool, copyOk: bool, restoreOk: bool, echoFails: set<Path>, delFails: set<Path>)
    returns (r: ScriptResult)
    ensures r == HelperScript(d, RootLayout(download, exe, appDir), v, Outcomes(backupOk, [copyOk], restoreOk, echoFails, delFails), 1)
  {
    if download !in d || exe !in d {
      return ScriptResult(d, 1, false, 0);
    }
    var disk := d;
    if backupOk && Readable(disk, exe) {
      disk := disk[BackupOf(exe) := disk[exe]];
    }
    if !(copyOk && Readable(disk, download)) {
      if restoreOk && Readable(disk, BackupOf(exe)) {
        disk := disk[exe := disk[BackupOf(exe)]];
      }
      return ScriptResult(disk, 1, false, 1);
    }
    disk := disk[exe := disk[download]];
    if Path(appDir, "VERSION") !in echoFails {
      disk := disk[Path(appDir, "VERSION") := Some(Echoed(v))];
    }
    if download !in delFails {
      disk := disk - {download};
    }
    if BackupOf(exe) !in delFails {
      disk := disk - {BackupOf(exe)};
    }
    return ScriptResult(disk, 0, true, 1);
  }

  /** The download, the executable, its backup and the VERSION files are different files. */
  predicate Separate(lay: Layout) {
    var special := {lay.download, lay.exe, BackupOf(lay.exe)};
    && lay.download != lay.exe
    && lay.download != BackupOf(lay.exe)
    && lay.versionFile !in special
    && forall k :: 0 <= k < |lay.optionalVersionFiles| ==> lay.optionalVersionFiles[k] !in special
  }

  /** A missing download or executable stops the script before it changes anything. */
  lemma MissingFileAborts(d: Disk, lay: Layout, v: string, o: Outcomes, maxAttempts: nat)
    requires lay.download !in d || lay.exe !in d
    ensures var r := HelperScript(d, lay, v, o, maxAttempts);
      r.disk == d && r.exitCode == 1 && !r.relaunched && r.attempts == 0
  {
  }

  /**
   * At most `maxAttempts` copies are tried and the loop stops at the first
   * success; the executable is started again exactly when one succeeded, which
   * is also exactly when the script does not end in `exit /b 1`.
   */
  lemma AttemptsAndRelaunch(d: Disk, lay: Layout, v: string, o: Outcomes, maxAttempts: nat)
    requires Separate(lay) && lay.download in d && lay.exe in d
    ensures var r := HelperScript(d, lay, v, o, maxAttempts);
      var rd := Readable(d, lay.download);
      && r.attempts <= maxAttempts
      && (r.relaunched <==> r.exitCode == 0)
      && (r.relaunched <==> exists i :: 0 <= i < maxAttempts && AttemptOk(o.ok, rd, i))
      && (r.relaunched ==> AttemptOk(o.ok, rd, r.attempts - 1) && forall j :: 0 <= j < r.attempts - 1 ==> !AttemptOk(o.ok, rd, j))
      && (!r.relaunched ==> r.attempts == maxAttempts)
  {
    var d1 := Backup(d, lay.exe, o.backupOk);
    assert Readable(d1, lay.download) == Readable(d, lay.download);
  }

  /**
   * After a successful copy the executable holds the download's content; the
   * download and the backup are gone unless their `del` failed, in which case
   * they keep their contents; every VERSION file whose echo succeeded holds
   * the echoed version and every one whose echo failed is as it was; and no
   * other file changes.
   */
  lemma SuccessEffects(d: Disk, lay: Layout, v: string, o: Outcomes, maxAttempts: nat)
    requires Separate(lay)
    requires HelperScript(d, lay, v, o, maxAttempts).relaunched
    ensures var r := HelperScript(d, lay, v, o, maxAttempts).disk;
      && Readable(d, lay.download)
      && lay.exe in r && r[lay.exe] == d[lay.download]
      && (lay.download in r <==> lay.download in o.delFails)
      && (lay.download in r ==> r[lay.download] == d[lay.download])
      && (BackupOf(lay.exe) in r <==> BackupOf(lay.exe) in o.delFails && BackupOf(lay.exe) in Backup(d, lay.exe, o.backupOk))
      && (BackupOf(lay.exe) in r ==> r[BackupOf(lay.exe)] == Backup(d, lay.exe, o.backupOk)[BackupOf(lay.exe)])
      && (lay.versionFile !in o.echoFails ==> lay.versionFile in r && r[lay.versionFile] == Some(Echoed(v)))
      && (forall p :: p in lay.optionalVersionFiles && p in d && p !in o.echoFails ==> r[p] == Some(Echoed(v)))
      && (forall p :: p in o.echoFails && p !in {lay.download, lay.exe, BackupOf(lay.exe)}
            ==> (p in r <==> p in d) && (p in d ==> r[p] == d[p]))
      && (forall p :: p !in {lay.download, lay.exe, BackupOf(lay.exe), lay.versionFile} && p !in lay.optionalVersionFiles
            ==> (p in r <==> p in d) && (p in d ==> r[p] == d[p]))
  {
    var d1 := Backup(d, lay.exe, o.backupOk);
    assert Readable(d1, lay.download) == Readable(d, lay.download);
    InstalledEffects(d1, lay, v, o);
  }

  /** `Installed` relative to the disk it starts from. */
  lemma InstalledEffects(d1: Disk, lay: Layout, v: string, o: Outcomes)
    requires Separate(lay) && lay.download in d1
    ensures var r := Installed(d1, lay, v, o);
      && lay.exe in r && r[lay.exe] == d1[lay.download]
      && (lay.download in r <==> lay.download in o.delFails)
      && (BackupOf(lay.exe) in r <==> BackupOf(lay.exe) in o.delFails && BackupOf(lay.exe) in d1)
      && (forall p :: p in r && p != lay.exe ==> p in d1 || p == lay.versionFile)
      && (forall p :: p in d1 && p !in {lay.download, lay.exe, BackupOf(lay.exe)} ==> p in r)
      && (lay.versionFile !in o.echoFails ==> lay.versionFile in r && r[lay.versionFile] == Some(Echoed(v)))
      && (forall p :: p in lay.optionalVersionFiles && p in d1 && p !in o.echoFails ==> r[p] == Some(Echoed(v)))
      && (forall p :: p in r && p != lay.exe && (p in o.echoFails || (p != lay.versionFile && p !in lay.optionalVersionFiles))
            ==> r[p] == d1[p])
  {
    var d2 := d1[lay.exe := d1[lay.download]];
    var d3 := WriteOptional(Echo(d2, lay.versionFile, Echoed(v), o.echoFails), lay.optionalVersionFiles, Echoed(v), o.echoFails);
    EchoStage(d2, lay.versionFile, lay.optionalVersionFiles, Echoed(v), o.echoFails);
    DeleteStage(d3, lay.download, BackupOf(lay.exe), o.delFails);
  }

  /** The VERSION echoes: `versionFile` unconditionally, then each of `files` that exists. */
  lemma EchoStage(d: Disk, versionFile: Path, files: seq<Path>, text: string, echoFails: set<Path>)
    ensures var r := WriteOptional(Echo(d, versionFile, text, echoFails), files, text, echoFails);
      && (forall p :: p in r <==> p in d || (p == versionFile && p !in echoFails))
      && (versionFile !in echoFails ==> r[versionFile] == Some(text))
      && (forall p :: p in files && p in d && p !in echoFails ==> r[p] == Some(text))
      && (forall p :: p in d && (p in echoFails || (p != versionFile && p !in files)) ==> r[p] == d[p])
  {
    var e := Echo(d, versionFile, text, echoFails);
    assert forall p :: p in e <==> p in d || (p == versionFile && p !in echoFails);
    assert forall p :: p in d && p != versionFile ==> e[p] == d[p];
  }

  /** The two `del`s: each file goes unless its delete fails; nothing else changes. */
  lemma DeleteStage(d: Disk, a: Path, b: Path, delFails: set<Path>)
    ensures var r := Delete(Delete(d, a, delFails), b, delFails);
      && (forall p :: p in r <==> p in d && (p in delFails || (p != a && p != b)))
      && (forall p :: p in r ==> r[p] == d[p])
  {
  }

  /**
   * When every attempt fails nothing but the executable (restored) and its
   * backup (made) can differ: the download stays, the VERSION files keep their
   * contents, nothing is started, and the executable holds either its previous
   * content or whatever `.backup` file was there.
   */
  lemma FailureEffects(d: Disk, lay: Layout, v: string, o: Outcomes, maxAttempts: nat)
    requires Separate(lay) && lay.download in d && lay.exe in d
    requires !HelperScript(d, lay, v, o, maxAttempts).relaunched
    ensures var r := HelperScript(d, lay, v, o, maxAttempts).disk;
      var d1 := Backup(d, lay.exe, o.backupOk);
      && (forall p :: p != lay.exe && p != BackupOf(lay.exe) ==> (p in r <==> p in d) && (p in d ==> r[p] == d[p]))
      && lay.exe in r
      && (r[lay.exe] == d[lay.exe] || (Readable(d1, BackupOf(lay.exe)) && r[lay.exe] == d1[BackupOf(lay.exe)]))
  {
  }

  /** A backup this run can trust: it made it itself, or there is no readable leftover `.backup` to restore from. */
  predicate BackupTrustworthy(d: Disk, lay: Layout, backupOk: bool) {
    (backupOk && Readable(d, lay.exe)) || !Readable(d, BackupOf(lay.exe))
  }

  /**
   * The executable ends up holding its previous content or the download's
   * content -- the latter only when the script restarts it -- provided the
   * backup is trustworthy.
   */
  lemma OldOrNew(d: Disk, lay: Layout, v: string, o: Outcomes, maxAttempts: nat)
    requires Separate(lay) && lay.exe in d && BackupTrustworthy(d, lay, o.backupOk)
    ensures var r := HelperScript(d, lay, v, o, maxAttempts);
      && lay.exe in r.disk
      && (r.disk[lay.exe] == d[lay.exe] || (r.relaunched && r.disk[lay.exe] == d[lay.download]))
  {
    if lay.download in d {
      var r := HelperScript(d, lay, v, o, maxAttempts);
      if r.relaunched {
        SuccessEffects(d, lay, v, o, maxAttempts);
      } else {
        FailureEffects(d, lay, v, o, maxAttempts);
      }
    }
  }

  /**
   * As written, a leftover `.backup` from an earlier run replaces an intact
   * executable when this run's backup copy and all three attempts fail.
   */
  lemma StaleBackupReplacesExecutable()
    ensures var exe := Path("C:\\App", "RelatorioTJMS.exe");
      var download := Path("C:\\Temp", "update_RelatorioTJMS.exe");
      var d := map[exe := Some("OLD"), download := Some("NEW"), BackupOf(exe) := Some("STALE")];
      var r := HelperScript(d, SrcLayout(download, exe, "C:\\App", "C:\\App"), "1.2.0", Outcomes(false, [false, false, false], true, {}, {}), 3);
      && !r.relaunched
      && r.disk[exe] == Some("STALE")
      && r.disk[exe] != d[exe] && r.disk[exe] != d[download]
  {
    var exe := Path("C:\\App", "RelatorioTJMS.exe");
    var download := Path("C:\\Temp", "update_RelatorioTJMS.exe");
    var d := map[exe := Some("OLD"), download := Some("NEW"), BackupOf(exe) := Some("STALE")];
    assert FirstSuccess([false, false, false], true, 0, 3) == None;
  }

  /** With the restore limited to a fresh backup, the executable is always its previous or the new content. */
  lemma CorrectedOldOrNew(d: Disk, lay: Layout, v: string, o: Outcomes, maxAttempts: nat)
    requires Separate(lay) && lay.exe in d
    ensures var r := CorrectedHelperScript(d, lay, v, o, maxAttempts);
      && lay.exe in r.disk
      && (r.disk[lay.exe] == d[lay.exe] || (r.relaunched && r.disk[lay.exe] == d[lay.download]))
  {
    if lay.download in d {
      var d1 := Backup(d, lay.exe, o.backupOk);
      assert Readable(d1, lay.download) == Readable(d, lay.download);
    }
  }

  /**
   * Two failed attempts followed by a good one: restart after three attempts
   * with the new binary. The download and the backup are gone when their
   * `del` works; a backup whose `del` fails is left holding the old binary.
   */
  lemma ThirdAttemptSucceeds(d: Disk, download: Path, exe: Path, appDir: string, cwd: string, v: string,
                             backupOk: bool, restoreOk: bool, echoFails: set<Path>, delFails: set<Path>)
    requires Separate(SrcLayout(download, exe, appDir, cwd)) && Readable(d, download) && exe in d
    ensures var r := HelperScript(d, SrcLayout(download, exe, appDir, cwd), v,
                                  Outcomes(backupOk, [false, false, true], restoreOk, echoFails, delFails), 3);
      && r.relaunched && r.attempts == 3
      && r.disk[exe] == d[download]
      && (download !in delFails ==> download !in r.disk)
      && (BackupOf(exe) !in delFails ==> BackupOf(exe) !in r.disk)
      && (BackupOf(exe) in delFails && backupOk && Readable(d, exe) ==> BackupOf(exe) in r.disk && r.disk[BackupOf(exe)] == d[exe])
  {
    var lay := SrcLayout(download, exe, appDir, cwd);
    var o := Outcomes(backupOk, [false, false, true], restoreOk, echoFails, delFails);
    var d1 := Backup(d, exe, backupOk);
    assert Readable(d1, download);
    assert FirstSuccess([false, false, true], true, 0, 3) == Some(2);
    SuccessEffects(d, lay, v, o, 3);
  }

  /** A `VERSION` file holding the echoed marker reads back, through either `_read_version_file`, as the version itself. */
  lemma MarkerReadsBack(r: Disk, appDir: string, cwd: string, moduleDir: string, v: string)
    requires v != "" && Unpadded(v)
    requires Path(appDir, "VERSION") in r && r[Path(appDir, "VERSION")] == Some(Echoed(v))
    ensures ReadFirstVersion(r, VersionLocations(appDir, cwd, moduleDir)) == v && ReadRootVersion(r, appDir) == v
  {
    assert AllSpace(" \r\n");
    StripTrailing(v, " \r\n");
    assert Usable(r, VersionLocations(appDir, cwd, moduleDir)[0]);
  }

  /**
   * After a successful run the version the script echoed reads back, through
   * either reader, as the version itself -- unless the echo into
   * `app_dir\VERSION` failed, in which case the root reader still sees the
   * version it saw before the run.
   */
  lemma EchoedVersionReadsBack(d: Disk, download: Path, exe: Path, appDir: string, cwd: string, moduleDir: string, v: string, o: Outcomes)
    requires Separate(SrcLayout(download, exe, appDir, cwd)) && v != "" && Unpadded(v)
    requires HelperScript(d, SrcLayout(download, exe, appDir, cwd), v, o, 3).relaunched
    ensures var r := HelperScript(d, SrcLayout(download, exe, appDir, cwd), v, o, 3).disk;
      && (Path(appDir, "VERSION") !in o.echoFails ==>
            ReadFirstVersion(r, VersionLocations(appDir, cwd, moduleDir)) == v && ReadRootVersion(r, appDir) == v)
      && (Path(appDir, "VERSION") in o.echoFails ==> ReadRootVersion(r, appDir) == ReadRootVersion(d, appDir))
  {
    var lay := SrcLayout(download, exe, appDir, cwd);
    var r := HelperScript(d, lay, v, o, 3).disk;
    SuccessEffects(d, lay, v, o, 3);
    if Path(appDir, "VERSION") !in o.echoFails {
      MarkerReadsBack(r, appDir, cwd, moduleDir, v);
    }
  }

}

=== FILE: local_feedback.dfy ===
/**
 * The LocalFeedbackManager of scripts/implement_local_feedback.py: every
 * feedback is appended to a JSON document (numbered from 1), to a CSV sheet
 * with six fixed columns, and summarised (counts and the five latest by
 * timestamp); a detailed report aggregates uses and errors per LLM model.
 */
module LocalFeedback {
  import opened Common
  import opened Strings
  import opened OrderedMaps

  const ERRO: string := "ERRO"
  const SUCESSO_AUTO: string := "SUCESSO_AUTO"
  const UnknownModel: string := "Desconhecido"

  /** A saved feedback: its string-valued keys, and the `id` that `_salvar_json` adds. */
  datatype Entry = Entry(fields: map<string, string>, id: Option<int>)

  /** `d.get(k, default)` */
  function Get(fields: map<string, string>, k: string, default: string): string {
    if k in fields then fields[k] else default
  }

  /** `feedback_completo.json`: absent, unparseable, or the `feedbacks` list with `metadados.total`. */
  datatype JsonFile = Absent | Malformed | Doc(feedbacks: seq<Entry>, total: Option<int>)

  /** Records numbered 1, 2, ... in file order. */
  ghost predicate SequentialIds(fs: seq<Entry>) {
    forall i :: 0 <= i < |fs| ==> fs[i].id == Some(i + 1)
  }

  /** The document after `_salvar_json(rec)`: a new file starts empty; an unreadable one is left alone. */
  function SavedJson(j: JsonFile, rec: map<string, string>): JsonFile {
    match j
    case Malformed => Malformed
    case Absent => Doc([Entry(rec, Some(1))], Some(1))
    case Doc(fs, _) => Doc(fs + [Entry(rec, Some(|fs| + 1))], Some(|fs| + 1))
  }

  /** The record goes last with id = previous count + 1, earlier records stay, the total is the new length, numbering is kept. */
  lemma SavedJsonShape(j: JsonFile, rec: map<string, string>)
    requires !j.Malformed?
    ensures var before := if j.Doc? then j.feedbacks else [];
      var r := SavedJson(j, rec);
      && r.Doc?
      && r.feedbacks == before + [Entry(rec, Some(|before| + 1))]
      && r.total == Some(|r.feedbacks|)
      && (SequentialIds(before) ==> SequentialIds(r.feedbacks))
  {
  }

  /** The CSV columns, in order. */
  const Columns: seq<string> := ["timestamp", "tipo", "descricao", "processo", "modelo", "versao"]

  /** `{campo: feedback_data.get(campo, '') for campo in campos}` written in column order. */
  function CsvRow(rec: map<string, string>): (r: seq<string>)
    ensures |r| == |Columns|
  {
    seq(|Columns|, i requires 0 <= i < |Columns| => Get(rec, Columns[i], ""))
  }

  /** A full record's row lists its values in column order; keys outside the columns (such as `salvo_em`) are dropped. */
  lemma CsvRowProjection(rec: map<string, string>, k: string, v: string)
    ensures k !in Columns ==> CsvRow(rec[k := v]) == CsvRow(rec)
    ensures (forall c :: c in Columns ==> c in rec) ==>
      CsvRow(rec) == [rec["timestamp"], rec["tipo"], rec["descricao"], rec["processo"], rec["modelo"], rec["versao"]]
    ensures CsvRow(map[]) == ["", "", "", "", "", ""]
  {
    if k !in Columns {
      assert forall i :: 0 <= i < |Columns| ==> Columns[i] != k;
    }
    if forall c :: c in Columns ==> c in rec {
      assert Columns[0] in rec && Columns[1] in rec && Columns[2] in rec;
      assert Columns[3] in rec && Columns[4] in rec && Columns[5] in rec;
    }
  }

  /** `feedback_relatorio.csv` after one append: the header only for a file that did not exist. */
  function AppendedCsv(csv: Option<seq<seq<string>>>, rec: map<string, string>, writeOk: bool): Option<seq<seq<string>>> {
    if !writeOk then csv
    else if csv.None? then Some([Columns, CsvRow(rec)])
    else Some(csv.value + [CsvRow(rec)])
  }

  /** The header appears exactly once, as the first row, however many records are appended. */
  lemma AppendedCsvHeader(csv: Option<seq<seq<string>>>, rec: map<string, string>)
    requires csv.None? || (|csv.value| >= 1 && csv.value[0] == Columns)
    ensures var r := AppendedCsv(csv, rec, true).value;
      && |r| >= 2 && r[0] == Columns && r[|r| - 1] == CsvRow(rec)
      && (csv.Some? ==> r[..|csv.value|] == csv.value)
  {
  }

  predicate TipoIs(e: Entry, t: string) {
    "tipo" in e.fields && e.fields["tipo"] == t
  }

  function CountTipo(fs: seq<Entry>, t: string): (r: nat)
    ensures r <= |fs|
  {
    if fs == [] then 0 else CountTipo(fs[..|fs| - 1], t) + (if TipoIs(fs[|fs| - 1], t) then 1 else 0)
  }

  /** A record is an error or a success, never both. */
  lemma {:induction false} CountTipoDisjoint(fs: seq<Entry>)
    ensures CountTipo(fs, ERRO) + CountTipo(fs, SUCESSO_AUTO) <= |fs|
  {
    if fs != [] {
      CountTipoDisjoint(fs[..|fs| - 1]);
    }
  }

  /** The sort key `x.get("timestamp", "")`. */
  function Key(e: Entry): string {
    Get(e.fields, "timestamp", "")
  }

  /** Latest first: no record's timestamp is below a later one's. */
  ghost predicate SortedDesc(xs: seq<Entry>) {
    forall i, j :: 0 <= i < j < |xs| ==> !StrLt(Key(xs[i]), Key(xs[j]))
  }

  /** "Not below" is transitive. */
  lemma NotLtTransitive(a: string, b: string, c: string)
    requires !StrLt(a, b) && !StrLt(b, c)
    ensures !StrLt(a, c)
  {
    StrLtTotal(a, b);
    StrLtTotal(b, c);
    if StrLt(a, c) {
      if b == c {
      } else {
        StrLtTransitive(a, c, b);
      }
    }
  }

  /** Inserts before the first record that is not later, so records with equal timestamps keep their order. */
  function InsertDesc(x: Entry, xs: seq<Entry>): (r: seq<Entry>)
    ensures multiset(r) == multiset(xs) + multiset{x}
  {
    if xs == [] then [x]
    else if !StrLt(Key(x), Key(xs[0])) then [x] + xs
    else
      assert xs == [xs[0]] + xs[1..];
      [xs[0]] + InsertDesc(x, xs[1..])
  }

  /** No record of `ys` is later than `top`. */
  ghost predicate NotAbove(top: string, ys: seq<Entry>) {
    forall i :: 0 <= i < |ys| ==> !StrLt(top, Key(ys[i]))
  }

  lemma SortedCons(x: Entry, xs: seq<Entry>)
    requires NotAbove(Key(x), xs) && SortedDesc(xs)
    ensures SortedDesc([x] + xs)
  {
    var r := [x] + xs;
    forall i, j | 0 <= i < j < |r|
      ensures !StrLt(Key(r[i]), Key(r[j]))
    {
      if i > 0 {
        assert r[i] == xs[i - 1];
      }
      assert r[j] == xs[j - 1];
    }
  }

  lemma {:induction false} InsertNotAbove(top: string, x: Entry, xs: seq<Entry>)
    requires NotAbove(top, xs) && !StrLt(top, Key(x))
    ensures NotAbove(top, InsertDesc(x, xs))
  {
    if xs != [] && StrLt(Key(x), Key(xs[0])) {
      InsertNotAbove(top, x, xs[1..]);
      var rest := InsertDesc(x, xs[1..]);
      assert forall i :: 0 < i < |rest| + 1 ==> ([xs[0]] + rest)[i] == rest[i - 1];
    }
  }

  lemma {:induction false} InsertDescSorted(x: Entry, xs: seq<Entry>)
    requires SortedDesc(xs)
    ensures SortedDesc(InsertDesc(x, xs))
  {
    if xs == [] {
    } else if !StrLt(Key(x), Key(xs[0])) {
      forall i | 0 <= i < |xs|
        ensures !StrLt(Key(x), Key(xs[i]))
      {
        if i > 0 {
          NotLtTransitive(Key(x), Key(xs[0]), Key(xs[i]));
        }
      }
      SortedCons(x, xs);
    } else {
      var tail := xs[1..];
      assert SortedDesc(tail) by {
        forall i, j | 0 <= i < j < |tail|
          ensures !StrLt(Key(tail[i]), Key(tail[j]))
        {
          assert tail[i] == xs[i + 1] && tail[j] == xs[j + 1];
        }
      }
      assert NotAbove(Key(xs[0]), tail) by {
        forall i | 0 <= i < |tail|
          ensures !StrLt(Key(xs[0]), Key(tail[i]))
        {
          assert tail[i] == xs[i + 1];
        }
      }
      InsertDescSorted(x, tail);
      StrLtAsymmetric(Key(x), Key(xs[0]));
      InsertNotAbove(Key(xs[0]), x, tail);
      SortedCons(xs[0], InsertDesc(x, tail));
    }
  }

  /** `sorted(feedbacks, key=timestamp, reverse=True)`, stable. */
  function SortDesc(xs: seq<Entry>): (r: seq<Entry>)
    ensures multiset(r) == multiset(xs)
    ensures |r| == |xs|
  {
    if xs == [] then []
    else
      assert xs == [xs[0]] + xs[1..];
      InsertDesc(xs[0], SortDesc(xs[1..]))
  }

  lemma {:induction false} SortDescSorted(xs: seq<Entry>)
    ensures SortedDesc(SortDesc(xs))
  {
    if xs != [] {
      SortDescSorted(xs[1..]);
      InsertDescSorted(xs[0], SortDesc(xs[1..]));
    }
  }

  /** The text summary's data: the counts and the five latest records. */
  datatype Summary = Summary(total: nat, erros: nat, sucessos: nat, ultimos: seq<Entry>)

  function MakeSummary(fs: seq<Entry>): Summary {
    var sorted := SortDesc(fs);
    Summary(|fs|, CountTipo(fs, ERRO), CountTipo(fs, SUCESSO_AUTO), if |sorted| <= 5 then sorted else sorted[..5])
  }

  /** The first n records of a latest-first list are latest-first, and none of the rest is later than any of them. */
  lemma SortedPrefix(sorted: seq<Entry>, n: nat)
    requires SortedDesc(sorted) && n <= |sorted|
    ensures SortedDesc(sorted[..n])
    ensures multiset(sorted) == multiset(sorted[..n]) + multiset(sorted[n..])
    ensures forall e, u :: e in multiset(sorted[n..]) && u in sorted[..n] ==> !StrLt(Key(u), Key(e))
  {
    assert sorted == sorted[..n] + sorted[n..];
    forall e, u | e in multiset(sorted[n..]) && u in sorted[..n]
      ensures !StrLt(Key(u), Key(e))
    {
      var j :| 0 <= j < |sorted[n..]| && sorted[n..][j] == e;
      var i :| 0 <= i < n && sorted[..n][i] == u;
      assert sorted[i] == u && sorted[n + j] == e;
    }
  }

  /**
   * The summary keeps at most five records, all from the file, latest first,
   * and every record left out is no later than every record kept; errors and
   * successes never exceed the total.
   */
  lemma SummaryShape(fs: seq<Entry>)
    ensures var s := MakeSummary(fs);
      && s.total == |fs|
      && s.erros + s.sucessos <= s.total
      && |s.ultimos| == (if |fs| <= 5 then |fs| else 5)
      && multiset(s.ultimos) <= multiset(fs)
      && SortedDesc(s.ultimos)
      && (forall e, u :: e in multiset(fs) - multiset(s.ultimos) && u in s.ultimos ==> !StrLt(Key(u), Key(e)))
  {
    CountTipoDisjoint(fs);
    var sorted := SortDesc(fs);
    SortDescSorted(fs);
    var n := if |sorted| <= 5 then |sorted| else 5;
    SortedPrefix(sorted, n);
    assert sorted[..n] == MakeSummary(fs).ultimos;
    assert multiset(fs) - multiset(sorted[..n]) == multiset(sorted[n..]);
  }


  /** Uses and errors of one model. */
  datatype ModelStats = ModelStats(total: nat, erros: nat)

  /** `f.get("modelo", "Desconhecido")` */
  function ModelOf(e: Entry): string {
    Get(e.fields, "modelo", UnknownModel)
  }

  /** One step of the aggregation: the record's model gets one more use, and one more error for an ERRO. */
  function BumpKey(m: OMap<ModelStats>, k: string, erro: bool): (r: OMap<ModelStats>)
    requires m.Valid()
    ensures r.Valid()
  {
    var st := if k in m.vals then m.vals[k] else ModelStats(0, 0);
    m.Put(k, ModelStats(st.total + 1, st.erros + if erro then 1 else 0))
  }

  function Bump(m: OMap<ModelStats>, e: Entry): (r: OMap<ModelStats>)
    requires m.Valid()
    ensures r.Valid()
  {
    BumpKey(m, ModelOf(e), TipoIs(e, ERRO))
  }


  /** The `modelos` dict after the loop, as a fold over the records in order. */
  function ByModel(fs: seq<Entry>): (r: OMap<ModelStats>)
    ensures r.Valid()
  {
    if fs == [] then Empty() else Bump(ByModel(fs[..|fs| - 1]), fs[|fs| - 1])
  }

  function CountModel(fs: seq<Entry>, k: string): nat {
    if fs == [] then 0 else CountModel(fs[..|fs| - 1], k) + (if ModelOf(fs[|fs| - 1]) == k then 1 else 0)
  }

  function CountModelErros(fs: seq<Entry>, k: string): nat {
    if fs == [] then 0
    else CountModelErros(fs[..|fs| - 1], k) + (if ModelOf(fs[|fs| - 1]) == k && TipoIs(fs[|fs| - 1], ERRO) then 1 else 0)
  }

  /**
   * Each model that occurs is listed with its number of records and of error
   * records, a model that never occurs is not listed, and errors never exceed
   * uses; records without a model count under "Desconhecido".
   */
  lemma {:induction false} ByModelCounts(fs: seq<Entry>, k: string)
    ensures var r := ByModel(fs);
      && (k in r.vals <==> CountModel(fs, k) > 0)
      && (k in r.vals ==> r.vals[k] == ModelStats(CountModel(fs, k), CountModelErros(fs, k)))
      && CountModelErros(fs, k) <= CountModel(fs, k)
  {
    if fs != [] {
      ByModelCounts(fs[..|fs| - 1], k);
    }
  }

  /** The sum of the `total` counters over the listed models. */
  function SumTotals(keys: seq<string>, vals: map<string, ModelStats>): nat
    requires forall k :: k in keys ==> k in vals
  {
    if keys == [] then 0 else vals[keys[0]].total + SumTotals(keys[1..], vals)
  }

  lemma {:induction false} SumTotalsOther(keys: seq<string>, vals: map<string, ModelStats>, k: string, v: ModelStats)
    requires forall x :: x in keys ==> x in vals
    requires k !in keys
    ensures SumTotals(keys, vals[k := v]) == SumTotals(keys, vals)
  {
    if keys != [] {
      SumTotalsOther(keys[1..], vals, k, v);
    }
  }

  lemma {:induction false} SumTotalsAppend(keys: seq<string>, vals: map<string, ModelStats>, k: string)
    requires forall x :: x in keys ==> x in vals
    requires k in vals
    ensures SumTotals(keys + [k], vals) == SumTotals(keys, vals) + vals[k].total
  {
    if keys == [] {
      assert [k][1..] == [];
    } else {
      assert (keys + [k])[1..] == keys[1..] + [k];
      SumTotalsAppend(keys[1..], vals, k);
    }
  }

  lemma {:induction false} SumTotalsUpdate(keys: seq<string>, vals: map<string, ModelStats>, k: string, v: ModelStats)
    requires forall x :: x in keys ==> x in vals
    requires forall i, j :: 0 <= i < j < |keys| ==> keys[i] != keys[j]
    requires k in keys
    ensures SumTotals(keys, vals[k := v]) + vals[k].total == SumTotals(keys, vals) + v.total
  {
    if keys[0] == k {
      assert k !in keys[1..];
      SumTotalsOther(keys[1..], vals, k, v);
    } else {
      SumTotalsUpdate(keys[1..], vals, k, v);
    }
  }

  /** One step of the aggregation adds one to the sum of the totals. */
  lemma BumpTotal(m: OMap<ModelStats>, k: string, erro: bool)
    requires m.Valid()
    ensures SumTotals(BumpKey(m, k, erro).keys, BumpKey(m, k, erro).vals) == SumTotals(m.keys, m.vals) + 1
  {
    var st := if k in m.vals then m.vals[k] else ModelStats(0, 0);
    var nv := ModelStats(st.total + 1, st.erros + if erro then 1 else 0);
    if k in m.vals {
      assert BumpKey(m, k, erro) == OMap(m.keys, m.vals[k := nv]);
      SumTotalsUpdate(m.keys, m.vals, k, nv);
    } else {
      assert BumpKey(m, k, erro) == OMap(m.keys + [k], m.vals[k := nv]);
      SumTotalsOther(m.keys, m.vals, k, nv);
      SumTotalsAppend(m.keys, m.vals[k := nv], k);
    }
  }


  /** The per-model totals add up to the number of records. */
  lemma {:induction false} ByModelTotal(fs: seq<Entry>)
    ensures SumTotals(ByModel(fs).keys, ByModel(fs).vals) == |fs|
  {
    if fs != [] {
      ByModelTotal(fs[..|fs| - 1]);
      BumpTotal(ByModel(fs[..|fs| - 1]), ModelOf(fs[|fs| - 1]), TipoIs(fs[|fs| - 1], ERRO));
    }
  }

  /** The loop's step -- insert a zero entry for a new model, then increment -- is one `BumpKey`. */
  lemma StepIsBump(m: OMap<ModelStats>, k: string, erro: bool)
    requires m.Valid()
    ensures var m1 := if k !in m.vals then m.Put(k, ModelStats(0, 0)) else m;
      && m1.Valid() && k in m1.vals
      && m1.Put(k, ModelStats(m1.vals[k].total + 1, m1.vals[k].erros + if erro then 1 else 0)) == BumpKey(m, k, erro)
  {
    if k !in m.vals {
      var m1 := m.Put(k, ModelStats(0, 0));
      var nv := ModelStats(1, if erro then 1 else 0);
      assert m1.Put(k, nv).vals == m.vals[k := nv];
    }
  }


  /** What `gerar_relatorio_completo` reports: nothing to report, the aggregation, or the text of an exception. */
  datatype Report = NoFeedback | Detailed(total: nat, porModelo: OMap<ModelStats>, latest: Entry) | Failed

  /** `if modelo not in modelos: modelos[modelo] = {'total': 0, 'erros': 0}` */
  method AddModel(modelos: OMap<ModelStats>, modelo: string) returns (r: OMap<ModelStats>)
    requires modelos.Valid()
    ensures r.Valid() && modelo in r.vals
    ensures r == if modelo !in modelos.vals then modelos.Put(modelo, ModelStats(0, 0)) else modelos
  {
    r := modelos;
    if modelo !in r.vals {
      r := r.Put(modelo, ModelStats(0, 0));
    }
  }

  /** `modelos[modelo]['total'] += 1`, and `['erros'] += 1` for an error. */
  method CountUse(modelos: OMap<ModelStats>, modelo: string, erro: bool) returns (r: OMap<ModelStats>)
    requires modelos.Valid() && modelo in modelos.vals
    ensures r == modelos.Put(modelo, ModelStats(modelos.vals[modelo].total + 1,
                                                modelos.vals[modelo].erros + if erro then 1 else 0))
  {
    var st := modelos.vals[modelo];
    r := modelos.Put(modelo, ModelStats(st.total + 1, st.erros + if erro then 1 else 0));
  }

  /** One pass of the `gerar_relatorio_completo` loop over the records: insert the model with zero counters if new, then count the record. */
  method CountEntry(modelos: OMap<ModelStats>, modelo: string, erro: bool) returns (r: OMap<ModelStats>)
    requires modelos.Valid()
    ensures r == BumpKey(modelos, modelo, erro)
  {
    StepIsBump(modelos, modelo, erro);
    r := AddModel(modelos, modelo);
    r := CountUse(r, modelo, erro);
  }




  class LocalFeedbackManager {
    var json: JsonFile
    /** The rows of `feedback_relatorio.csv`, or None when it does not exist. */
    var csv: Option<seq<seq<string>>>
    /** The data written to `resumo_feedback.txt`, or None when it was never written. */
    var summary: Option<Summary>

    /** `__init__` over the files as they are found. */
    constructor(json: JsonFile, csv: Option<seq<seq<string>>>, summary: Option<Summary>)
      ensures this.json == json && this.csv == csv && this.summary == summary
    {
      this.json := json;
      this.csv := csv;
      this.summary := summary;
    }

    /** `_salvar_json`; `writeOk` false when the file cannot be opened for writing, which is caught and leaves it as it was. */
    method SalvarJson(rec: map<string, string>, writeOk: bool)
      modifies this
      ensures json == if writeOk then SavedJson(old(json), rec) else old(json)
      ensures csv == old(csv) && summary == old(summary)
    {
      if !writeOk {
        return;
      }
      match json
      case Malformed =>
      case Absent =>
        var feedbacks := [Entry(rec, Some(1))];
        json := Doc(feedbacks, Some(|feedbacks|));
      case Doc(feedbacks, _) =>
        var entry := Entry(rec, Some(|feedbacks| + 1));
        feedbacks := feedbacks + [entry];
        json := Doc(feedbacks, Some(|feedbacks|));
    }

    /** `_salvar_csv`; `writeOk` false when the file cannot be opened for appending. */
    method SalvarCsv(rec: map<string, string>, writeOk: bool)
      modifies this
      ensures csv == AppendedCsv(old(csv), rec, writeOk)
      ensures json == old(json) && summary == old(summary)
    {
      if !writeOk {
        return;
      }
      var row := CsvRow(rec);
      if csv.None? {
        csv := Some([Columns, row]);
      } else {
        csv := Some(csv.value + [row]);
      }
    }

    /**
     * `_atualizar_resumo`. The error rate divides by the total, so an empty
     * list raises and, like a missing or unreadable file, leaves the summary
     * as it was; so does a summary file that cannot be opened for writing
     * (`writeOk` false).
     */
    method AtualizarResumo(writeOk: bool)
      modifies this
      ensures summary == if json.Doc? && |json.feedbacks| > 0 && writeOk then Some(MakeSummary(json.feedbacks)) else old(summary)
      ensures json == old(json) && csv == old(csv)
    {
      if !json.Doc? {
        return;
      }
      var feedbacks := json.feedbacks;
      if |feedbacks| == 0 {
        return;
      }
      if !writeOk {
        return;
      }
      summary := Some(MakeSummary(feedbacks));
    }

    /**
     * `salvar_feedback`: JSON, then CSV, then the summary; each step swallows
     * its own failure, so the result is True. The steps are independent: a
     * failed JSON write still lets the CSV get its row.
     */
    method SalvarFeedback(rec: map<string, string>, jsonOk: bool, csvOk: bool, summaryOk: bool) returns (ok: bool)
      modifies this
      ensures json == if jsonOk then SavedJson(old(json), rec) else old(json)
      ensures csv == AppendedCsv(old(csv), rec, csvOk)
      ensures summary == if json.Doc? && |json.feedbacks| > 0 && summaryOk then Some(MakeSummary(json.feedbacks)) else old(summary)
      ensures jsonOk && summaryOk && !old(json).Malformed? ==> summary == Some(MakeSummary(json.feedbacks))
      ensures old(json).Malformed? ==> json == old(json) && summary == old(summary)
      ensures ok
    {
      SalvarJson(rec, jsonOk);
      SalvarCsv(rec, csvOk);
      AtualizarResumo(summaryOk);
      ok := true;
    }

    /** The loop of `gerar_relatorio_completo` that fills `modelos`. */
    method AggregateByModel(feedbacks: seq<Entry>) returns (modelos: OMap<ModelStats>)
      ensures modelos == ByModel(feedbacks)
    {
      modelos := Empty();
      var i := 0;
      while i < |feedbacks|
        invariant 0 <= i <= |feedbacks|
        invariant modelos == ByModel(feedbacks[..i])
      {
        modelos := CountEntry(modelos, ModelOf(feedbacks[i]), TipoIs(feedbacks[i], ERRO));
        assert feedbacks[..i + 1][..i] == feedbacks[..i];
        i := i + 1;
      }
      assert feedbacks[..i] == feedbacks;
    }

    /** `gerar_relatorio_completo` without its text, the 7-day count and the error rates. */
    method GerarRelatorioCompleto() returns (r: Report)
      ensures json.Absent? || (json.Doc? && json.feedbacks == []) <==> r == NoFeedback
      ensures json.Malformed? <==> r == Failed
      ensures r.Detailed? ==> json.Doc? && r.total == |json.feedbacks| > 0
                              && r.porModelo == ByModel(json.feedbacks)
                              && r.latest == json.feedbacks[|json.feedbacks| - 1]
    {
      match json
      case Absent => return NoFeedback;
      case Malformed => return Failed;
      case Doc(feedbacks, _) =>
        if feedbacks == [] {
          return NoFeedback;
        }
        var modelos := AggregateByModel(feedbacks);
        return Detailed(|feedbacks|, modelos, feedbacks[|feedbacks| - 1]);
    }
  }
}

=== FILE: ordered_maps.dfy ===
/**
 * A Python dict with string keys: a map plus the order in which keys were first
 * inserted (the order `items()` iterates in). Assigning to an existing key
 * replaces its value and keeps its place.
 */
module OrderedMaps {

  datatype OMap<V> = OMap(keys: seq<string>, vals: map<string, V>) {

    /** Keys are listed once each, and exactly the keys of the map are listed. */
    ghost predicate Valid() {
      && (forall i, j :: 0 <= i < j < |keys| ==> keys[i] != keys[j])
      && (forall k :: k in vals <==> k in keys)
    }

    /** `d[k] = v`: an existing key keeps its place, a new key goes last. */
    function Put(k: string, v: V): (r: OMap<V>)
      requires Valid()
      ensures r.Valid()
      ensures r.vals == vals[k := v]
      ensures k in vals ==> r.keys == keys
      ensures k !in vals ==> r.keys == keys + [k]
    {
      if k in vals then OMap(keys, vals[k := v]) else OMap(keys + [k], vals[k := v])
    }
  }

  function Empty<V>(): (r: OMap<V>)
    ensures r.Valid()
  {
    OMap([], map[])
  }
}

=== FILE: root_updater.dfy ===
/**
 * The older AutoUpdater of updater.py: the version comes from `app_dir\VERSION`
 * alone, versions are compared by the `packaging` library, and apply_update
 * itself writes and launches a helper script with a single copy attempt.
 */
module RootUpdater {
  import opened Common
  import opened Strings
  import opened UpdateCore
  import opened Installer

  /** What apply_update leads to: a return value, or `sys.exit(0)` with the helper script run afterwards. */
  datatype ApplyOutcome = Returned(ok: bool) | Exited(script: ScriptResult)

  /** What update_if_available leads to: a return value and the disk as left, or the process leaving. */
  datatype RunOutcome = Finished(result: bool, disk: Disk) | ProcessExit(script: ScriptResult)

  /** The outcomes of the helper script's three `copy` commands, and the files whose unchecked `echo` or `del` fails. */
  datatype ScriptOracle = ScriptOracle(backupOk: bool, copyOk: bool, restoreOk: bool, echoFails: set<Path>, delFails: set<Path>)

  predicate DownloadCompletes(response: Option<Stream>, openOk: bool) {
    response.Some? && openOk && Delivered(response.value) == |response.value.chunks|
  }

  class AutoUpdater {
    const appDir: string
    const tempDir: string
    const executableName: string
    const currentExePath: Path
    const autoUpdate: bool
    /** `version.parse(a) > version.parse(b)`; `None` when either does not parse. */
    const packagingGt: (string, string) -> Option<bool>
    const currentVersion: string

    /** `__init__`: the same executable detection and working-directory fallback as src/updater.py, and `current_version or _read_version_file()`. */
    constructor(given: Option<string>, frozen: bool, sysExecutable: Path, moduleDir: string, cwd: string,
                appDirExists: bool, tempDir: string, autoUpdate: bool, packagingGt: (string, string) -> Option<bool>,
                currentVersion: Option<string>, d: Disk)
      ensures this.appDir == if appDirExists then (if frozen then sysExecutable.dir else moduleDir) else cwd
      ensures this.executableName == ExecutableName(given, frozen, sysExecutable)
      ensures this.currentExePath ==
        DetectExePath(d, frozen, sysExecutable, if frozen then sysExecutable.dir else moduleDir, cwd, this.executableName)
      ensures this.tempDir == tempDir && this.autoUpdate == autoUpdate && this.packagingGt == packagingGt
      ensures Truthy(currentVersion) ==> this.currentVersion == currentVersion.value
      ensures !Truthy(currentVersion) ==> this.currentVersion == ReadRootVersion(d, this.appDir)
    {
      var found := if frozen then sysExecutable.dir else moduleDir;
      var name := ExecutableName(given, frozen, sysExecutable);
      var dir := if appDirExists then found else cwd;
      appDir := dir;
      this.tempDir := tempDir;
      executableName := name;
      currentExePath := DetectExePath(d, frozen, sysExecutable, found, cwd, name);
      this.autoUpdate := autoUpdate;
      this.packagingGt := packagingGt;
      this.currentVersion := if Truthy(currentVersion) then currentVersion.value else ReadRootVersion(d, dir);
    }

    /**
     * apply_update: False when the download or the executable is missing, or
     * when writing or launching the script raises; otherwise the helper runs
     * after `sys.exit(0)`.
     */
    method ApplyUpdate(d: Disk, downloaded: Path, info: UpdateInfo, launchOk: bool, copies: ScriptOracle)
      returns (out: ApplyOutcome)
      ensures downloaded !in d || currentExePath !in d ==> out == Returned(false)
      ensures downloaded in d && currentExePath in d ==>
        out == if !launchOk then Returned(false)
               else Exited(HelperScript(d, RootLayout(downloaded, currentExePath, appDir), info.version,
                                        Outcomes(copies.backupOk, [copies.copyOk], copies.restoreOk, copies.echoFails, copies.delFails), 1))
      ensures out.Exited? <==> downloaded in d && currentExePath in d && launchOk
      ensures out.Exited? ==> out.script.attempts <= 1
    {
      if downloaded !in d || currentExePath !in d {
        return Returned(false);
      }
      if !launchOk {
        return Returned(false);
      }
      var script := RunRootHelper(d, downloaded, currentExePath, appDir, info.version,
                                  copies.backupOk, copies.copyOk, copies.restoreOk, copies.echoFails, copies.delFails);
      return Exited(script);
    }

    /**
     * update_if_available: False on no update, on `auto_update=False` and on a
     * failed download; otherwise True once apply_update has returned, whatever
     * it returned.
     */
    method UpdateIfAvailable(d: Disk, fetched: Option<Release>, response: Option<Stream>, openOk: bool,
                             launchOk: bool, copies: ScriptOracle) returns (out: RunOutcome)
      ensures var info := CheckRelease(currentVersion, executableName, fetched, Packaging(packagingGt));
        && (info.None? || !autoUpdate ==> out == Finished(false, d))
        && (out.Finished? && out.result <==>
              info.Some? && autoUpdate && DownloadCompletes(response, openOk)
              && !((currentExePath in d || currentExePath == DownloadTarget(tempDir, info.value)) && launchOk))
        && (out.ProcessExit? <==>
              info.Some? && autoUpdate && DownloadCompletes(response, openOk)
              && (currentExePath in d || currentExePath == DownloadTarget(tempDir, info.value)) && launchOk)
        && (out.Finished? && info.Some? ==>
              forall p :: p != DownloadTarget(tempDir, info.value) ==> (p in out.disk <==> p in d) && (p in d ==> out.disk[p] == d[p]))
    {
      var info := CheckRelease(currentVersion, executableName, fetched, Packaging(packagingGt));
      if info.None? {
        return Finished(false, d);
      }
      if !autoUpdate {
        return Finished(false, d);
      }
      var file, d1, _ := DownloadUpdate(d, tempDir, info.value, response, openOk);
      if file.None? {
        return Finished(false, d1);
      }
      var applied := ApplyUpdate(d1, file.value, info.value, launchOk, copies);
      if applied.Returned? {
        return Finished(true, d1);
      }
      return ProcessExit(applied.script);
    }
  }
}

=== FILE: simple_version.dfy ===
/**
 * The fallback `SimpleVersion` class of src/updater.py, used when the
 * `packaging` library cannot be imported: a version string loses one leading
 * 'v', is split on '.', and each piece becomes its integer value, or 0 when it
 * is not an integer. `>` pads the shorter list with zeros and compares the
 * lists left to right.
 */
module SimpleVersion {
  import opened Strings

  predicate IsDigit(c: char) { '0' <= c <= '9' }

  predicate IsDigits(s: string) {
    |s| > 0 && forall i :: 0 <= i < |s| ==> IsDigit(s[i])
  }

  function DigitValue(c: char): nat
    requires IsDigit(c)
  {
    c as int - '0' as int
  }

  /** Decimal value of a string of digits. */
  function DigitsValue(s: string): nat
    requires forall i :: 0 <= i < |s| ==> IsDigit(s[i])
  {
    if s == [] then 0 else 10 * DigitsValue(s[..|s| - 1]) + DigitValue(s[|s| - 1])
  }

  /** `int(part)` for a piece of ASCII digits; every other piece is treated as the ValueError case and becomes 0, including the signed, spaced or underscored forms `int` would accept. */
  function PartValue(part: string): nat {
    if IsDigits(part) then DigitsValue(part) else 0
  }

  /** `if s.startswith('v'): s = s[1:]` -- exactly one 'v' is dropped. */
  function DropV(s: string): string {
    if StartsWith(s, "v") then s[1..] else s
  }

  /** The parts list that `SimpleVersion(s).parts` ends up holding. */
  function Parts(s: string): seq<int> {
    var pieces := Split(DropV(s), '.');
    seq(|pieces|, i requires 0 <= i < |pieces| => PartValue(pieces[i]) as int)
  }

  datatype Version = Version(versionString: string, parts: seq<int>)

  /** `SimpleVersion.__init__`: builds the parts list piece by piece. */
  method NewVersion(versionString: string) returns (v: Version)
    ensures v.versionString == versionString
    ensures v.parts == Parts(versionString)
    ensures |v.parts| >= 1 && forall i :: 0 <= i < |v.parts| ==> v.parts[i] >= 0
  {
    var s := versionString;
    if StartsWith(s, "v") {
      s := s[1..];
    }
    var pieces := Split(s, '.');
    var parts: seq<int> := [];
    for i := 0 to |pieces|
      invariant |parts| == i
      invariant forall j :: 0 <= j < i ==> parts[j] == PartValue(pieces[j]) as int
    {
      parts := parts + [PartValue(pieces[i]) as int];
    }
    v := Version(versionString, parts);
  }

  /** The shorter list padded with zeros: `parts + [0] * (n - len(parts))`. */
  function Pad(p: seq<int>, n: nat): seq<int>
    requires |p| <= n
  {
    p + seq(n - |p|, _ => 0)
  }

  /** Left-to-right comparison of two lists of the same length; false on equality. */
  function LexGt(x: seq<int>, y: seq<int>): bool
    requires |x| == |y|
  {
    if x == [] then false
    else if x[0] > y[0] then true
    else if x[0] < y[0] then false
    else LexGt(x[1..], y[1..])
  }

  /** `SimpleVersion.__gt__` on two parts lists. */
  function Gt(a: seq<int>, b: seq<int>): bool {
    var n := if |a| >= |b| then |a| else |b|;
    LexGt(Pad(a, n), Pad(b, n))
  }

  /** The two lists are equal once padded to a common length ("1.0" and "1.0.0"). */
  predicate SameVersion(a: seq<int>, b: seq<int>) {
    var n := if |a| >= |b| then |a| else |b|;
    Pad(a, n) == Pad(b, n)
  }

  /** `version.parse(x) > version.parse(y)` with the fallback class. */
  predicate VersionGt(x: string, y: string) {
    Gt(Parts(x), Parts(y))
  }

  /** The loop of `__gt__` returns True exactly when the first position where the lists differ favours x. */
  lemma {:induction false} LexGtFirstDifference(x: seq<int>, y: seq<int>)
    requires |x| == |y|
    ensures LexGt(x, y) <==> exists i :: 0 <= i < |x| && x[..i] == y[..i] && x[i] > y[i]
  {
    if x != [] {
      LexGtFirstDifference(x[1..], y[1..]);
      if LexGt(x, y) {
        if x[0] > y[0] {
          assert x[..0] == y[..0];
        } else {
          var i :| 0 <= i < |x| - 1 && x[1..][..i] == y[1..][..i] && x[1..][i] > y[1..][i];
          assert x[..i + 1] == [x[0]] + x[1..][..i];
          assert y[..i + 1] == [y[0]] + y[1..][..i];
        }
      }
      if exists i :: 0 <= i < |x| && x[..i] == y[..i] && x[i] > y[i] {
        var i :| 0 <= i < |x| && x[..i] == y[..i] && x[i] > y[i];
        if i > 0 {
          assert x[0] == x[..i][0] == y[..i][0] == y[0];
          assert x[1..][..i - 1] == x[..i][1..] == y[..i][1..] == y[1..][..i - 1];
          assert x[1..][i - 1] > y[1..][i - 1];
        }
      }
    }
  }

  lemma {:induction false} LexGtIrreflexive(x: seq<int>)
    ensures !LexGt(x, x)
  {
    if x != [] { LexGtIrreflexive(x[1..]); }
  }

  lemma {:induction false} LexGtTransitive(x: seq<int>, y: seq<int>, z: seq<int>)
    requires |x| == |y| == |z|
    requires LexGt(x, y) && LexGt(y, z)
    ensures LexGt(x, z)
  {
    if x[0] == y[0] == z[0] {
      LexGtTransitive(x[1..], y[1..], z[1..]);
    }
  }

  lemma {:induction false} LexGtTotal(x: seq<int>, y: seq<int>)
    requires |x| == |y|
    ensures x == y || LexGt(x, y) || LexGt(y, x)
  {
    if x != [] && x[0] == y[0] {
      LexGtTotal(x[1..], y[1..]);
      if x[1..] == y[1..] {
        assert x == [x[0]] + x[1..] && y == [y[0]] + y[1..];
      }
    }
  }

  lemma {:induction false} LexGtAsymmetric(x: seq<int>, y: seq<int>)
    requires |x| == |y| && LexGt(x, y)
    ensures !LexGt(y, x)
  {
    if LexGt(y, x) {
      LexGtTransitive(x, y, x);
      LexGtIrreflexive(x);
    }
  }

  /** Appending the same number of zeros to both lists does not change the comparison. */
  lemma {:induction false} LexGtZeros(x: seq<int>, y: seq<int>, k: nat)
    requires |x| == |y|
    ensures LexGt(x + seq(k, _ => 0), y + seq(k, _ => 0)) == LexGt(x, y)
  {
    var zs: seq<int> := seq(k, _ => 0);
    if x == [] {
      assert x + zs == zs && y + zs == zs;
      LexGtIrreflexive(zs);
    } else {
      assert (x + zs)[1..] == x[1..] + zs;
      assert (y + zs)[1..] == y[1..] + zs;
      LexGtZeros(x[1..], y[1..], k);
    }
  }

  lemma PadTwice(p: seq<int>, n: nat, m: nat)
    requires |p| <= n <= m
    ensures Pad(p, m) == Pad(p, n) + seq(m - n, _ => 0)
  {
  }

  /** Padding further than the longer list does not change `>`. */
  lemma GtAtLength(a: seq<int>, b: seq<int>, m: nat)
    requires |a| <= m && |b| <= m
    ensures Gt(a, b) == LexGt(Pad(a, m), Pad(b, m))
    ensures SameVersion(a, b) == (Pad(a, m) == Pad(b, m))
  {
    var n := if |a| >= |b| then |a| else |b|;
    PadTwice(a, n, m);
    PadTwice(b, n, m);
    LexGtZeros(Pad(a, n), Pad(b, n), m - n);
    if Pad(a, m) == Pad(b, m) {
      assert Pad(a, n) == Pad(a, m)[..n] == Pad(b, m)[..n] == Pad(b, n);
    }
  }

  /** No version is newer than itself. */
  lemma GtIrreflexive(a: seq<int>)
    ensures !Gt(a, a)
  {
    LexGtIrreflexive(Pad(a, |a|));
  }

  lemma GtAsymmetric(a: seq<int>, b: seq<int>)
    requires Gt(a, b)
    ensures !Gt(b, a)
  {
    var n := if |a| >= |b| then |a| else |b|;
    LexGtAsymmetric(Pad(a, n), Pad(b, n));
  }

  lemma GtTransitive(a: seq<int>, b: seq<int>, c: seq<int>)
    requires Gt(a, b) && Gt(b, c)
    ensures Gt(a, c)
  {
    var m := if |a| >= |b| && |a| >= |c| then |a| else if |b| >= |c| then |b| else |c|;
    GtAtLength(a, b, m);
    GtAtLength(b, c, m);
    GtAtLength(a, c, m);
    LexGtTransitive(Pad(a, m), Pad(b, m), Pad(c, m));
  }

  /** Exactly one of: a is newer, b is newer, or the two are the same version once padded. */
  lemma GtTrichotomy(a: seq<int>, b: seq<int>)
    ensures Gt(a, b) || Gt(b, a) || SameVersion(a, b)
    ensures SameVersion(a, b) ==> !Gt(a, b) && !Gt(b, a)
    ensures Gt(a, b) ==> !Gt(b, a)
  {
    var n := if |a| >= |b| then |a| else |b|;
    LexGtTotal(Pad(a, n), Pad(b, n));
    if SameVersion(a, b) {
      LexGtIrreflexive(Pad(a, n));
    }
    if Gt(a, b) {
      GtAsymmetric(a, b);
    }
  }

  /** Decimal rendering of a natural number. */
  function NatToString(n: nat): string
    decreases n
  {
    var d := [('0' as int + n % 10) as char];
    if n < 10 then d else NatToString(n / 10) + d
  }

  lemma {:induction false} NatToStringDigits(n: nat)
    ensures IsDigits(NatToString(n)) && '.' !in NatToString(n)
    ensures DigitsValue(NatToString(n)) == n
    decreases n
  {
    var s := NatToString(n);
    if n >= 10 {
      NatToStringDigits(n / 10);
      assert s[..|s| - 1] == NatToString(n / 10);
    }
  }

  function Numerals(ns: seq<nat>): (r: seq<string>)
    ensures |r| == |ns|
    ensures forall i :: 0 <= i < |ns| ==> r[i] == NatToString(ns[i])
  {
    if ns == [] then [] else [NatToString(ns[0])] + Numerals(ns[1..])
  }

  /** A version written out as numbers joined by dots. */
  function Render(ns: seq<nat>): string {
    Join(Numerals(ns), '.')
  }

  /** Parsing a rendered version gives back its numbers. */
  lemma RenderParts(ns: seq<nat>)
    requires |ns| >= 1
    ensures |Parts(Render(ns))| == |ns|
    ensures forall i :: 0 <= i < |ns| ==> Parts(Render(ns))[i] == ns[i]
  {
    var pieces := Numerals(ns);
    forall i | 0 <= i < |ns|
      ensures '.' !in pieces[i] && PartValue(pieces[i]) == ns[i]
    {
      NatToStringDigits(ns[i]);
    }
    SplitJoin(pieces, '.');
    assert NatToString(ns[0])[0] != 'v' by { NatToStringDigits(ns[0]); }
    assert DropV(Render(ns)) == Render(ns);
  }

  lemma SmallNumerals()
    ensures NatToString(0) == "0" && NatToString(1) == "1" && NatToString(9) == "9"
    ensures NatToString(10) == "10"
  {
    assert NatToString(1) == "1";
  }

  lemma PartsOfRender(ns: seq<nat>, text: string)
    requires |ns| >= 1 && text == Render(ns)
    ensures Parts(text) == ns
  {
    RenderParts(ns);
  }

  lemma JoinTwo(a: string, b: string)
    ensures Join([a, b], '.') == a + "." + b
  {
    JoinCons(a, [b], '.');
  }

  lemma JoinThree(a: string, b: string, c: string)
    ensures Join([a, b, c], '.') == a + "." + b + "." + c
  {
    JoinCons(a, [b, c], '.');
    assert [a, b, c][1..] == [b, c];
    JoinTwo(b, c);
  }

  lemma Sample10() ensures Parts("1.0") == [1, 0]
  {
    SmallNumerals();
    assert Numerals([1, 0]) == ["1", "0"];
    JoinTwo("1", "0");
    PartsOfRender([1, 0], "1.0");
  }

  lemma Sample110() ensures Parts("1.10") == [1, 10]
  {
    SmallNumerals();
    assert Numerals([1, 10]) == ["1", "10"];
    JoinTwo("1", "10");
    PartsOfRender([1, 10], "1.10");
  }

  lemma Sample19() ensures Parts("1.9") == [1, 9]
  {
    SmallNumerals();
    assert Numerals([1, 9]) == ["1", "9"];
    JoinTwo("1", "9");
    PartsOfRender([1, 9], "1.9");
  }

  lemma Sample101() ensures Parts("1.0.1") == [1, 0, 1]
  {
    SmallNumerals();
    assert Numerals([1, 0, 1]) == ["1", "0", "1"];
    JoinThree("1", "0", "1");
    PartsOfRender([1, 0, 1], "1.0.1");
  }

  lemma Sample100() ensures Parts("1.0.0") == [1, 0, 0]
  {
    SmallNumerals();
    assert Numerals([1, 0, 0]) == ["1", "0", "0"];
    JoinThree("1", "0", "0");
    PartsOfRender([1, 0, 0], "1.0.0");
  }

  /** "1.0" and "1.0.0" are the same version: neither is newer than the other. */
  lemma TrailingZeroEquivalent()
    ensures SameVersion(Parts("1.0"), Parts("1.0.0"))
    ensures !VersionGt("1.0", "1.0.0") && !VersionGt("1.0.0", "1.0")
  {
    Sample10();
    Sample100();
    assert Pad([1, 0], 3) == [1, 0, 0];
    GtTrichotomy(Parts("1.0"), Parts("1.0.0"));
  }

  /** Pieces compare as numbers, not as text, and one leading 'v' is ignored: v1.10 is newer than 1.9. */
  lemma NumericComparison()
    ensures VersionGt("v1.10", "1.9")
  {
    Sample110();
    Sample19();
    assert DropV("v1.10") == "1.10";
    assert Parts("v1.10") == [1, 10];
    assert Pad([1, 10], 2) == [1, 10] && Pad([1, 9], 2) == [1, 9];
    assert [1, 10][1..] == [10] && [1, 9][1..] == [9];
  }

  /** A later patch number is newer. */
  lemma PatchComparison()
    ensures VersionGt("1.0.1", "1.0.0")
  {
    Sample101();
    Sample100();
    assert Pad([1, 0, 1], 3) == [1, 0, 1] && Pad([1, 0, 0], 3) == [1, 0, 0];
    assert [1, 0, 1][1..] == [0, 1] && [1, 0, 0][1..] == [0, 0];
    assert [0, 1][1..] == [1] && [0, 0][1..] == [0];
  }
}

=== FILE: src_updater.dfy ===
/**
 * The AutoUpdater of src/updater.py: the running version (read from one of
 * six VERSION locations), the check against GitHub's latest release, the
 * rewrite of the VERSION files when GitHub is ahead, and the
 * check -> download -> apply sequence whose last step hands over to the helper
 * script and leaves the process.
 */
module SrcUpdater {
  import opened Common
  import opened Strings
  import opened UpdateCore
  import opened Installer

  /** What apply_update leads to: a return value, or `sys.exit(0)` with the helper script run afterwards. */
  datatype ApplyOutcome = Returned(ok: bool) | Exited(script: ScriptResult)

  /** What update_if_available leads to: a return value and the disk as left, or the process leaving. */
  datatype RunOutcome = Finished(result: bool, disk: Disk) | ProcessExit(script: ScriptResult)


  /** The stream ends without raising. */
  predicate DownloadCompletes(response: Option<Stream>, openOk: bool) {
    response.Some? && openOk && Delivered(response.value) == |response.value.chunks|
  }

  class AutoUpdater {
    const appDir: string
    const cwd: string
    const moduleDir: string
    const tempDir: string
    const executableName: string
    const currentExePath: Path
    const autoUpdate: bool
    const order: VersionOrder
    var currentVersion: string

    /**
     * `__init__`. A frozen build lives next to `sys.executable`; otherwise the
     * app directory is the module's own directory and the executable is looked
     * for in four places. After that search, an app directory that does not
     * exist (`appDirExists` false) is replaced by the working directory. The
     * version is the argument when it is truthy, else what
     * `_read_version_file` finds from the final app directory.
     */
    constructor(given: Option<string>, frozen: bool, sysExecutable: Path, moduleDir: string, cwd: string,
                appDirExists: bool, tempDir: string, autoUpdate: bool, hasPackaging: bool, packagingGt: (string, string) -> Option<bool>,
                currentVersion: Option<string>, d: Disk)
      ensures this.appDir == if appDirExists then (if frozen then sysExecutable.dir else moduleDir) else cwd
      ensures this.executableName == ExecutableName(given, frozen, sysExecutable)
      ensures this.currentExePath ==
        DetectExePath(d, frozen, sysExecutable, if frozen then sysExecutable.dir else moduleDir, cwd, this.executableName)
      ensures this.cwd == cwd && this.moduleDir == moduleDir && this.tempDir == tempDir && this.autoUpdate == autoUpdate
      ensures this.order == if hasPackaging then Packaging(packagingGt) else Fallback
      ensures Truthy(currentVersion) ==> this.currentVersion == currentVersion.value
      ensures !Truthy(currentVersion) ==> this.currentVersion == ReadFirstVersion(d, VersionLocations(this.appDir, cwd, moduleDir))
      ensures this.currentVersion != ""
    {
      var found := if frozen then sysExecutable.dir else moduleDir;
      var name := ExecutableName(given, frozen, sysExecutable);
      var dir := if appDirExists then found else cwd;
      appDir := dir;
      this.cwd := cwd;
      this.moduleDir := moduleDir;
      this.tempDir := tempDir;
      executableName := name;
      currentExePath := DetectExePath(d, frozen, sysExecutable, found, cwd, name);
      this.autoUpdate := autoUpdate;
      order := if hasPackaging then Packaging(packagingGt) else Fallback;
      this.currentVersion := if Truthy(currentVersion) then currentVersion.value
                             else ReadFirstVersion(d, VersionLocations(dir, cwd, moduleDir));
    }

    /**
     * sync_version_with_github. When the stripped tag is newer the VERSION
     * files are rewritten; the in-memory version follows only if at least one
     * of them was written, and only then is the result True.
     */
    method SyncVersionWithGithub(d: Disk, fetched: Option<Release>, failing: set<Path>) returns (ok: bool, d': Disk)
      modifies this
      ensures var newer := fetched.Some? && fetched.value.tagName.Some?
                           && Newer(order, LatestVersion(fetched.value.tagName.value), old(currentVersion)) == Some(true);
        && (!newer ==> !ok && d' == d)
        && (newer ==> var written := Written(d, VersionLocations(appDir, cwd, moduleDir), appDir, failing);
                      && WroteVersionFiles(d, d', written, VersionLocations(appDir, cwd, moduleDir), appDir, failing,
                                           LatestVersion(fetched.value.tagName.value))
                      && (ok <==> |written| > 0))
        && (ok ==> newer && currentVersion == LatestVersion(fetched.value.tagName.value))
        && (!ok ==> currentVersion == old(currentVersion))
    {
      if fetched.None? || fetched.value.tagName.None? {
        return false, d;
      }
      var latest := LatestVersion(fetched.value.tagName.value);
      if Newer(order, latest, currentVersion) != Some(true) {
        return false, d;
      }
      var updated;
      d', updated := UpdateVersionFiles(d, VersionLocations(appDir, cwd, moduleDir), appDir, failing, latest);
      if |updated| > 0 {
        currentVersion := latest;
        ok := true;
      } else {
        ok := false;
      }
    }

    /**
     * apply_update. The existence guards return False; a failure writing the
     * (unused) PowerShell script returns False; then `_apply_update_batch`
     * either launches the helper and leaves the process, or fails and returns
     * False -- which apply_update ignores, returning True.
     */
    method ApplyUpdate(d: Disk, downloaded: Path, info: UpdateInfo, psWriteOk: bool, launchOk: bool, helper: Outcomes)
      returns (out: ApplyOutcome)
      ensures downloaded !in d || currentExePath !in d ==> out == Returned(false)
      ensures downloaded in d && currentExePath in d ==>
        out == if !psWriteOk then Returned(false)
               else if !launchOk then Returned(true)
               else Exited(HelperScript(d, SrcLayout(downloaded, currentExePath, appDir, cwd), info.version,
                                        helper, 3))
      ensures out.Exited? <==> downloaded in d && currentExePath in d && psWriteOk && launchOk
    {
      if downloaded !in d || currentExePath !in d {
        return Returned(false);
      }
      if !psWriteOk {
        return Returned(false);
      }
      if !launchOk {
        return Returned(true);
      }
      var r := RunSrcHelper(d, downloaded, currentExePath, appDir, cwd, info.version, helper);
      return Exited(r);
    }

    /**
     * update_if_available: False with nothing changed when there is no update
     * or `auto_update` is off, False when the download fails (a partial temp
     * file may remain), and otherwise True whatever apply_update returned --
     * unless it left the process.
     */
    method UpdateIfAvailable(d: Disk, fetched: Option<Release>, response: Option<Stream>, openOk: bool,
                             psWriteOk: bool, launchOk: bool, helper: Outcomes) returns (out: RunOutcome)
      ensures var info := CheckRelease(currentVersion, executableName, fetched, order);
        && (info.None? || !autoUpdate ==> out == Finished(false, d))
        && (out.Finished? && out.result <==>
              info.Some? && autoUpdate && DownloadCompletes(response, openOk)
              && !((currentExePath in d || currentExePath == DownloadTarget(tempDir, info.value)) && psWriteOk && launchOk))
        && (out.ProcessExit? <==>
              info.Some? && autoUpdate && DownloadCompletes(response, openOk)
              && (currentExePath in d || currentExePath == DownloadTarget(tempDir, info.value)) && psWriteOk && launchOk)
        && (out.Finished? && info.Some? ==>
              forall p :: p != DownloadTarget(tempDir, info.value) ==> (p in out.disk <==> p in d) && (p in d ==> out.disk[p] == d[p]))
    {
      var info := CheckRelease(currentVersion, executableName, fetched, order);
      if info.None? {
        return Finished(false, d);
      }
      if !autoUpdate {
        return Finished(false, d);
      }
      var file, d1, _ := DownloadUpdate(d, tempDir, info.value, response, openOk);
      if file.None? {
        return Finished(false, d1);
      }
      var applied := ApplyUpdate(d1, file.value, info.value, psWriteOk, launchOk, helper);
      if applied.Returned? {
        return Finished(true, d1);
      }
      return ProcessExit(applied.script);
    }
  }
}

=== FILE: strings.dfy ===
/**
 * The handful of Python `str` operations the updater, the feedback code and the
 * form-id script rely on, written over `seq<char>`: strip, lstrip of one
 * character, lower, `in` (substring), split/join on a one-character separator,
 * replace, and the code-point order that `sorted` uses on strings.
 */
module Strings {

  /** `str.isspace()`: the ASCII and Unicode characters Python treats as whitespace. */
  predicate IsSpace(c: char) {
    var n := c as int;
    (9 <= n <= 13) || (28 <= n <= 32) || n == 0x85 || n == 0xA0 || n == 0x1680
    || (0x2000 <= n <= 0x200A) || n == 0x2028 || n == 0x2029 || n == 0x202F
    || n == 0x205F || n == 0x3000
  }

  /** No whitespace at either end: what `strip()` leaves behind. */
  predicate Unpadded(s: string) {
    s == [] || (!IsSpace(s[0]) && !IsSpace(s[|s| - 1]))
  }

  predicate AllSpace(s: string) {
    forall i :: 0 <= i < |s| ==> IsSpace(s[i])
  }

  /** `lstrip()`: the longest suffix that does not start with whitespace. */
  function TrimLeft(s: string): (r: string)
    ensures |r| <= |s| && r == s[|s| - |r|..]
    ensures r == [] || !IsSpace(r[0])
    ensures forall i :: 0 <= i < |s| - |r| ==> IsSpace(s[i])
  {
    if s != [] && IsSpace(s[0]) then TrimLeft(s[1..]) else s
  }

  /** `rstrip()`: the longest prefix that does not end with whitespace. */
  function TrimRight(s: string): (r: string)
    ensures |r| <= |s| && r == s[..|r|]
    ensures r == [] || !IsSpace(r[|r| - 1])
    ensures forall i :: |r| <= i < |s| ==> IsSpace(s[i])
  {
    if s != [] && IsSpace(s[|s| - 1]) then TrimRight(s[..|s| - 1]) else s
  }

  /** `strip()`: a slice of the input with no whitespace at either end; empty iff the input is all whitespace. */
  function Strip(s: string): (r: string)
    ensures Unpadded(r)
    ensures r == [] <==> AllSpace(s)
  {
    TrimLeft(TrimRight(s))
  }

  /** Some character is not whitespace: `s.strip()` is truthy. */
  predicate NotBlank(s: string) {
    s != [] && (!IsSpace(s[0]) || NotBlank(s[1..]))
  }

  lemma {:induction false} NotBlankStrip(s: string)
    ensures NotBlank(s) <==> Strip(s) != ""
  {
    NotBlankAllSpace(s);
  }

  lemma {:induction false} NotBlankAllSpace(s: string)
    ensures NotBlank(s) <==> !AllSpace(s)
  {
    if s != [] {
      NotBlankAllSpace(s[1..]);
      if !IsSpace(s[0]) {
        assert !AllSpace(s);
      } else if !AllSpace(s[1..]) {
        var i :| 0 <= i < |s[1..]| && !IsSpace(s[1..][i]);
        assert !IsSpace(s[i + 1]);
      } else {
        forall i | 0 <= i < |s|
          ensures IsSpace(s[i])
        {
          if i > 0 {
            assert s[i] == s[1..][i - 1];
          }
        }
      }
    }
  }

  /** Text that strip() leaves alone comes back unchanged after trailing whitespace is appended. */
  lemma {:induction false} StripTrailing(v: string, w: string)
    requires Unpadded(v) && AllSpace(w)
    ensures Strip(v + w) == v
  {
    TrimRightSpaces(v, w);
  }

  lemma {:induction false} TrimRightSpaces(v: string, w: string)
    requires Unpadded(v) && AllSpace(w)
    ensures TrimRight(v + w) == v
    decreases |w|
  {
    if w == [] {
      assert v + w == v;
    } else {
      var s := v + w;
      assert s[..|s| - 1] == v + w[..|w| - 1];
      TrimRightSpaces(v, w[..|w| - 1]);
    }
  }

  /** `lstrip(c)`: drops every leading occurrence of `c`. */
  function LStripChar(s: string, c: char): (r: string)
    ensures |r| <= |s| && r == s[|s| - |r|..]
    ensures r == [] || r[0] != c
    ensures forall i :: 0 <= i < |s| - |r| ==> s[i] == c
  {
    if s != [] && s[0] == c then LStripChar(s[1..], c) else s
  }

  predicate IsPrefix(p: string, s: string) {
    |p| <= |s| && s[..|p|] == p
  }

  /** `s.startswith(p)` */
  predicate StartsWith(s: string, p: string) {
    IsPrefix(p, s)
  }

  /** `s.endswith(suf)` */
  predicate EndsWith(s: string, suf: string) {
    |suf| <= |s| && s[|s| - |suf|..] == suf
  }

  /** `sub in s` */
  predicate Contains(s: string, sub: string)
    decreases |s|
  {
    IsPrefix(sub, s) || (|s| > 0 && Contains(s[1..], sub))
  }

  /** `str.lower()` on ASCII and Latin-1 capitals. */
  function LowerChar(c: char): char {
    var n := c as int;
    if (65 <= n <= 90) || (0xC0 <= n <= 0xDE && n != 0xD7) then (n + 32) as char else c
  }

  function Lower(s: string): string {
    seq(|s|, i requires 0 <= i < |s| => LowerChar(s[i]))
  }

  /** `s.split(sep)` for a one-character separator. */
  function Split(s: string, sep: char): (r: seq<string>)
    ensures |r| >= 1
    ensures forall i :: 0 <= i < |r| ==> sep !in r[i]
  {
    if s == [] then [""]
    else
      var rest := Split(s[1..], sep);
      if s[0] == sep then [""] + rest else [[s[0]] + rest[0]] + rest[1..]
  }

  /** `sep.join(parts)` */
  function Join(parts: seq<string>, sep: char): string {
    if parts == [] then ""
    else if |parts| == 1 then parts[0]
    else parts[0] + [sep] + Join(parts[1..], sep)
  }

  lemma JoinCons(x: string, parts: seq<string>, sep: char)
    requires |parts| >= 1
    ensures Join([x] + parts, sep) == x + [sep] + Join(parts, sep)
  {
    assert ([x] + parts)[1..] == parts;
  }

  /** Joining the pieces of a split gives back the original text. */
  lemma {:induction false} JoinSplit(s: string, sep: char)
    ensures Join(Split(s, sep), sep) == s
  {
    if s != [] {
      JoinSplit(s[1..], sep);
      var rest := Split(s[1..], sep);
      if s[0] == sep {
        JoinCons("", rest, sep);
      } else if |rest| == 1 {
        assert Split(s, sep) == [[s[0]] + rest[0]];
      } else {
        assert rest == [rest[0]] + rest[1..];
        JoinCons(rest[0], rest[1..], sep);
        JoinCons([s[0]] + rest[0], rest[1..], sep);
      }
    }
  }

  lemma {:induction false} SplitNoSep(a: string, sep: char)
    requires sep !in a
    ensures Split(a, sep) == [a]
  {
    if a != [] {
      SplitNoSep(a[1..], sep);
      assert [a[0]] + a[1..] == a;
    }
  }

  lemma {:induction false} SplitCons(a: string, b: string, sep: char)
    requires sep !in a
    ensures Split(a + [sep] + b, sep) == [a] + Split(b, sep)
  {
    var s := a + [sep] + b;
    if a == [] {
      assert s[1..] == b;
    } else {
      assert s[1..] == a[1..] + [sep] + b;
      SplitCons(a[1..], b, sep);
      assert [a[0]] + a[1..] == a;
    }
  }

  /** Splitting joined pieces gives the pieces back when none of them holds the separator. */
  lemma {:induction false} SplitJoin(parts: seq<string>, sep: char)
    requires |parts| >= 1
    requires forall i :: 0 <= i < |parts| ==> sep !in parts[i]
    ensures Split(Join(parts, sep), sep) == parts
  {
    if |parts| == 1 {
      SplitNoSep(parts[0], sep);
    } else {
      SplitJoin(parts[1..], sep);
      SplitCons(parts[0], Join(parts[1..], sep), sep);
      assert [parts[0]] + parts[1..] == parts;
    }
  }

  /** `s.replace(pat, rep)`: left to right, non-overlapping. */
  function ReplaceAll(s: string, pat: string, rep: string): string
    requires pat != []
    decreases |s|
  {
    if |s| < |pat| then s
    else if s[..|pat|] == pat then rep + ReplaceAll(s[|pat|..], pat, rep)
    else [s[0]] + ReplaceAll(s[1..], pat, rep)
  }

  /** Text without the pattern is left unchanged. */
  lemma {:induction false} ReplaceAbsent(s: string, pat: string, rep: string)
    requires pat != [] && !Contains(s, pat)
    ensures ReplaceAll(s, pat, rep) == s
    decreases |s|
  {
    if |s| >= |pat| {
      ReplaceAbsent(s[1..], pat, rep);
      assert [s[0]] + s[1..] == s;
    }
  }

  /** The first character of the pattern occurs nowhere else in it, so two occurrences cannot overlap. */
  predicate FirstCharUnique(pat: string) {
    pat != [] && forall m :: 0 < m < |pat| ==> pat[m] != pat[0]
  }

  /** Text that does not contain the pattern, followed by the pattern, does not start with it (unless empty). */
  lemma NoEarlyMatch(base: string, pat: string)
    requires FirstCharUnique(pat) && !Contains(base, pat) && base != []
    ensures (base + pat)[..|pat|] != pat
  {
    var s := base + pat;
    if |base| >= |pat| {
      assert s[..|pat|] == base[..|pat|];
      assert !IsPrefix(pat, base);
    } else {
      assert s[..|pat|][|base|] == pat[0];
      assert pat[|base|] != pat[0];
    }
  }

  /** A single trailing occurrence is the only one replaced. */
  lemma {:induction false} ReplaceTrailing(base: string, pat: string, rep: string)
    requires FirstCharUnique(pat) && !Contains(base, pat)
    ensures ReplaceAll(base + pat, pat, rep) == base + rep
    decreases |base|
  {
    var s := base + pat;
    if base == [] {
      assert s == pat && s[|pat|..] == [];
    } else {
      NoEarlyMatch(base, pat);
      assert ReplaceAll(s, pat, rep) == [s[0]] + ReplaceAll(s[1..], pat, rep);
      assert !Contains(base[1..], pat);
      assert s[1..] == base[1..] + pat;
      ReplaceTrailing(base[1..], pat, rep);
      assert [base[0]] + (base[1..] + rep) == base + rep;
    }
  }

  /** Python's string order: lexicographic by code point, a proper prefix first. */
  predicate StrLt(a: string, b: string)
    decreases |a|
  {
    if a == [] then b != []
    else if b == [] then false
    else a[0] < b[0] || (a[0] == b[0] && StrLt(a[1..], b[1..]))
  }

  lemma {:induction false} StrLtIrreflexive(a: string)
    ensures !StrLt(a, a)
  {
    if a != [] { StrLtIrreflexive(a[1..]); }
  }

  lemma {:induction false} StrLtTransitive(a: string, b: string, c: string)
    requires StrLt(a, b) && StrLt(b, c)
    ensures StrLt(a, c)
    decreases |a|
  {
    if a != [] && b != [] && c != [] && a[0] == b[0] && b[0] == c[0] {
      StrLtTransitive(a[1..], b[1..], c[1..]);
    }
  }

  lemma {:induction false} StrLtTotal(a: string, b: string)
    ensures a == b || StrLt(a, b) || StrLt(b, a)
    decreases |a|
  {
    if a != [] && b != [] && a[0] == b[0] {
      StrLtTotal(a[1..], b[1..]);
      if a[1..] == b[1..] {
        assert a == [a[0]] + a[1..] && b == [b[0]] + b[1..];
      }
    }
  }

  lemma {:induction false} StrLtAsymmetric(a: string, b: string)
    requires StrLt(a, b)
    ensures !StrLt(b, a)
  {
    if StrLt(b, a) {
      StrLtTransitive(a, b, a);
      StrLtIrreflexive(a);
    }
  }
}

=== FILE: update_core.dfy ===
/**
 * What both AutoUpdater variants (src/updater.py and updater.py) share: the
 * file system as a map from path to optional content, the release JSON the
 * GitHub "latest release" endpoint hands back, the newer-release rule with its
 * first-match asset scan, the VERSION marker read and rewrite, and the
 * streamed download of the chosen asset.
 */
module UpdateCore {
  import opened Common
  import opened Strings
  import SimpleVersion

  /** A file path, kept as directory and base name so that `os.path.dirname` is exact. */
  datatype Path = Path(dir: string, name: string)

  /** File contents by path: an absent key is a missing file, `None` a file that exists but cannot be read. */
  type Disk = map<Path, Option<string>>

  predicate Readable(d: Disk, p: Path) {
    p in d && d[p].Some?
  }

  /**
   * One entry of the release's "assets" array. `None` stands for a missing
   * key or a null value. A missing key raises where it is read, and so does a
   * null `name`; the surrounding `try` turns that into "no update". A null
   * `browser_download_url` does not raise there: it is folded into `None`
   * because that update fails later, in the download, with the same outcome.
   */
  datatype Asset = Asset(name: Option<string>, downloadUrl: Option<string>)

  /** The decoded release JSON; `body` and `publishedAt` already hold the `.get(key, '')` value. */
  datatype Release = Release(tagName: Option<string>, assets: seq<Asset>, body: string, publishedAt: string)

  /** The dict check_for_updates returns. */
  datatype UpdateInfo = UpdateInfo(
    version: string,
    downloadUrl: string,
    assetName: string,
    releaseNotes: string,
    publishedAt: string)

  /**
   * How `version.parse(a) > version.parse(b)` is decided: by the `packaging`
   * library (PEP 440, taken as a parameter; `None` when parsing raises
   * InvalidVersion) or by the SimpleVersion fallback, which never raises.
   */
  datatype VersionOrder = Packaging(gt: (string, string) -> Option<bool>) | Fallback

  function Newer(order: VersionOrder, a: string, b: string): Option<bool> {
    match order
    case Packaging(gt) => gt(a, b)
    case Fallback => Some(SimpleVersion.VersionGt(a, b))
  }

  /** An asset is the executable when its name ends in ".exe" or equals the executable's name. */
  predicate Qualifies(name: string, exe: string) {
    EndsWith(name, ".exe") || name == exe
  }

  /** Asset `i` is the one the scan stops at: it qualifies, and every earlier asset has a name that does not. */
  predicate FirstQualifying(assets: seq<Asset>, exe: string, i: int) {
    && 0 <= i < |assets|
    && assets[i].name.Some? && Qualifies(assets[i].name.value, exe)
    && forall j :: 0 <= j < i ==> assets[j].name.Some? && !Qualifies(assets[j].name.value, exe)
  }

  /** Asset `i` has no usable name and every earlier one has a non-qualifying name: `asset['name']` raises there. */
  predicate FirstBroken(assets: seq<Asset>, exe: string, i: int) {
    && 0 <= i < |assets|
    && assets[i].name.None?
    && forall j :: 0 <= j < i ==> assets[j].name.Some? && !Qualifies(assets[j].name.value, exe)
  }

  datatype Scan = Found(index: nat) | NotFound | Broken

  /** The `for asset in ...: if ...: break` scan over the release's assets. */
  function ScanAssets(assets: seq<Asset>, exe: string): (r: Scan)
    ensures r.Found? <==> exists i :: FirstQualifying(assets, exe, i)
    ensures r.Found? ==> FirstQualifying(assets, exe, r.index)
    ensures r.Broken? <==> exists i :: FirstBroken(assets, exe, i)
    ensures r.NotFound? <==> forall j :: 0 <= j < |assets| ==> assets[j].name.Some? && !Qualifies(assets[j].name.value, exe)
  {
    if assets == [] then NotFound
    else if assets[0].name.None? then
      assert FirstBroken(assets, exe, 0);
      Broken
    else if Qualifies(assets[0].name.value, exe) then
      assert FirstQualifying(assets, exe, 0);
      Found(0)
    else
      var rest := ScanAssets(assets[1..], exe);
      ShiftScan(assets, exe);
      match rest
      case Found(i) =>
        assert FirstQualifying(assets, exe, i + 1);
        Found(i + 1)
      case NotFound =>
        assert forall j :: 1 <= j < |assets| ==> assets[j] == assets[1..][j - 1];
        NotFound
      case Broken =>
        var k :| FirstBroken(assets[1..], exe, k);
        assert FirstBroken(assets, exe, k + 1);
        Broken
  }

  /** When the first asset has a non-qualifying name, the scan results of the whole list and of its tail correspond. */
  lemma ShiftScan(assets: seq<Asset>, exe: string)
    requires |assets| > 0 && assets[0].name.Some? && !Qualifies(assets[0].name.value, exe)
    ensures forall i :: FirstQualifying(assets, exe, i) <==> i >= 1 && FirstQualifying(assets[1..], exe, i - 1)
    ensures forall i :: FirstBroken(assets, exe, i) <==> i >= 1 && FirstBroken(assets[1..], exe, i - 1)
  {
    forall i | FirstQualifying(assets, exe, i)
      ensures i >= 1 && FirstQualifying(assets[1..], exe, i - 1)
    {
      forall j | 0 <= j < i - 1
        ensures assets[1..][j].name.Some? && !Qualifies(assets[1..][j].name.value, exe)
      {
        assert assets[1..][j] == assets[j + 1];
      }
    }
    forall i | i >= 1 && FirstQualifying(assets[1..], exe, i - 1)
      ensures FirstQualifying(assets, exe, i)
    {
      forall j | 1 <= j < i
        ensures assets[j].name.Some? && !Qualifies(assets[j].name.value, exe)
      {
        assert assets[j] == assets[1..][j - 1];
      }
    }
    forall i | FirstBroken(assets, exe, i)
      ensures i >= 1 && FirstBroken(assets[1..], exe, i - 1)
    {
      forall j | 0 <= j < i - 1
        ensures assets[1..][j].name.Some? && !Qualifies(assets[1..][j].name.value, exe)
      {
        assert assets[1..][j] == assets[j + 1];
      }
    }
    forall i | i >= 1 && FirstBroken(assets[1..], exe, i - 1)
      ensures FirstBroken(assets, exe, i)
    {
      forall j | 1 <= j < i
        ensures assets[j].name.Some? && !Qualifies(assets[j].name.value, exe)
      {
        assert assets[j] == assets[1..][j - 1];
      }
    }
  }

  /** The tag with every leading 'v' removed (`lstrip('v')`). */
  function LatestVersion(tag: string): string {
    LStripChar(tag, 'v')
  }

  /**
   * check_for_updates given what the request returned (`None`: the request,
   * `raise_for_status` or the JSON decoding raised). Every failure -- not
   * newer, no qualifying asset, a missing tag, a broken asset, a version that
   * does not parse -- is the same `None`.
   */
  function CheckRelease(current: string, exe: string, fetched: Option<Release>, order: VersionOrder): (r: Option<UpdateInfo>)
    ensures r.Some? <==>
      && fetched.Some? && fetched.value.tagName.Some?
      && Newer(order, LatestVersion(fetched.value.tagName.value), current) == Some(true)
      && var scan := ScanAssets(fetched.value.assets, exe);
         scan.Found? && fetched.value.assets[scan.index].downloadUrl.Some?
    ensures r.Some? ==>
      && r.value.version == LatestVersion(fetched.value.tagName.value)
      && r.value.releaseNotes == fetched.value.body
      && r.value.publishedAt == fetched.value.publishedAt
      && var asset := fetched.value.assets[ScanAssets(fetched.value.assets, exe).index];
         r.value.assetName == asset.name.value && r.value.downloadUrl == asset.downloadUrl.value
  {
    match fetched
    case None => None
    case Some(rel) =>
      if rel.tagName.None? then None
      else
        var latest := LatestVersion(rel.tagName.value);
        if Newer(order, latest, current) != Some(true) then None
        else
          match ScanAssets(rel.assets, exe)
          case Found(i) =>
            var asset := rel.assets[i];
            if asset.downloadUrl.None? then None
            else Some(UpdateInfo(latest, asset.downloadUrl.value, asset.name.value, rel.body, rel.publishedAt))
          case _ => None
  }

  /** The scan stops at one place only. */
  lemma FirstQualifyingUnique(assets: seq<Asset>, exe: string, i: int)
    requires FirstQualifying(assets, exe, i)
    ensures forall k :: FirstQualifying(assets, exe, k) ==> k == i
  {
  }

  /** A release whose tag is not newer gives no update, whatever its assets. */
  lemma NotNewerNoUpdate(current: string, exe: string, rel: Release, order: VersionOrder)
    requires rel.tagName.Some? && Newer(order, LatestVersion(rel.tagName.value), current) != Some(true)
    ensures CheckRelease(current, exe, Some(rel), order).None?
  {
  }

  /** With the fallback order the running version itself is never an update, with or without leading 'v's on the tag. */
  lemma SameVersionNoUpdate(current: string, exe: string, rel: Release)
    requires rel.tagName.Some? && LatestVersion(rel.tagName.value) == current
    ensures CheckRelease(current, exe, Some(rel), Fallback).None?
  {
    SimpleVersion.GtIrreflexive(SimpleVersion.Parts(current));
    assert !SimpleVersion.VersionGt(current, current);
    NotNewerNoUpdate(current, exe, rel, Fallback);
  }

  /** The six places the src/updater.py code looks for the marker, in order. */
  function VersionLocations(appDir: string, cwd: string, moduleDir: string): seq<Path> {
    [Path(appDir, "VERSION"), Path(appDir, "version"),
     Path(cwd, "VERSION"), Path(cwd, "version"),
     Path(moduleDir, "VERSION"), Path(moduleDir, "version")]
  }

  /** A location that `_read_version_file` accepts: it exists, reads, and is not blank once stripped. */
  predicate Usable(d: Disk, p: Path) {
    Readable(d, p) && Strip(d[p].value) != ""
  }

  /** The loop of `_read_version_file` from candidate k on. */
  function ReadFrom(d: Disk, locs: seq<Path>, k: nat): (r: string)
    requires k <= |locs|
    ensures r != "" && Unpadded(r)
    ensures (forall i :: k <= i < |locs| ==> !Usable(d, locs[i])) ==> r == "1.0.0"
    ensures forall i :: k <= i < |locs| && Usable(d, locs[i]) && (forall j :: k <= j < i ==> !Usable(d, locs[j]))
                ==> r == Strip(d[locs[i]].value)
    decreases |locs| - k
  {
    if k == |locs| then "1.0.0"
    else if Usable(d, locs[k]) then Strip(d[locs[k]].value)
    else ReadFrom(d, locs, k + 1)
  }

  /** src/updater.py `_read_version_file` over a list of candidate locations. */
  function ReadFirstVersion(d: Disk, locs: seq<Path>): (r: string)
    ensures r != "" && Unpadded(r)
    ensures (forall i :: 0 <= i < |locs| ==> !Usable(d, locs[i])) ==> r == "1.0.0"
    ensures forall i :: 0 <= i < |locs| && Usable(d, locs[i]) && (forall j :: 0 <= j < i ==> !Usable(d, locs[j]))
                ==> r == Strip(d[locs[i]].value)
  {
    ReadFrom(d, locs, 0)
  }

  /** updater.py `_read_version_file`: only `app_dir/VERSION`, stripped, even when that leaves "". */
  function ReadRootVersion(d: Disk, appDir: string): (r: string)
    ensures Readable(d, Path(appDir, "VERSION")) ==> r == Strip(d[Path(appDir, "VERSION")].value)
    ensures !Readable(d, Path(appDir, "VERSION")) ==> r == "1.0.0"
  {
    var p := Path(appDir, "VERSION");
    if p in d && d[p].Some? then Strip(d[p].value) else "1.0.0"
  }

  /** A blank root VERSION file yields "" in updater.py, while src/updater.py moves on and ends at the default. */
  lemma BlankVersionFile(appDir: string, cwd: string, moduleDir: string)
    requires appDir != cwd && appDir != moduleDir
    ensures ReadRootVersion(map[Path(appDir, "VERSION") := Some(" \r\n")], appDir) == ""
    ensures ReadFirstVersion(map[Path(appDir, "VERSION") := Some(" \r\n")], VersionLocations(appDir, cwd, moduleDir)) == "1.0.0"
  {
    var d := map[Path(appDir, "VERSION") := Some(" \r\n")];
    assert AllSpace(" \r\n");
    var locs := VersionLocations(appDir, cwd, moduleDir);
    forall i | 0 <= i < |locs|
      ensures !Usable(d, locs[i])
    {
    }
  }

  /** `_update_version_files` writes a location that exists already or lies directly in the app directory. */
  predicate Eligible(d: Disk, p: Path, appDir: string) {
    p in d || p.dir == appDir
  }

  /** The list `_update_version_files` returns: the eligible locations whose write does not raise, in list order. */
  function Written(d: Disk, locs: seq<Path>, appDir: string, failing: set<Path>): (r: seq<Path>)
    ensures |r| <= |locs|
  {
    if locs == [] then []
    else
      var p := locs[|locs| - 1];
      Written(d, locs[..|locs| - 1], appDir, failing) + if Eligible(d, p, appDir) && p !in failing then [p] else []
  }

  /** A location is listed exactly when it is one of the candidates, eligible, and its write does not raise. */
  lemma {:induction false} WrittenMembers(d: Disk, locs: seq<Path>, appDir: string, failing: set<Path>)
    ensures forall p :: p in Written(d, locs, appDir, failing) <==> p in locs && Eligible(d, p, appDir) && p !in failing
  {
    if locs != [] {
      WrittenMembers(d, locs[..|locs| - 1], appDir, failing);
      assert locs == locs[..|locs| - 1] + [locs[|locs| - 1]];
    }
  }

  /** When every candidate is eligible and writable, the list is the candidate list itself, order and repeats included. */
  lemma {:induction false} WrittenAll(d: Disk, locs: seq<Path>, appDir: string, failing: set<Path>)
    requires forall i :: 0 <= i < |locs| ==> Eligible(d, locs[i], appDir) && locs[i] !in failing
    ensures Written(d, locs, appDir, failing) == locs
  {
    if locs != [] {
      WrittenAll(d, locs[..|locs| - 1], appDir, failing);
      assert locs == locs[..|locs| - 1] + [locs[|locs| - 1]];
    }
  }

  /** Exactly the listed files hold `v`, no other file was created, and every unlisted file is as before. */
  ghost predicate HoldsWritten(d: Disk, d': Disk, updated: seq<Path>, v: string) {
    && (forall k :: 0 <= k < |updated| ==> updated[k] in d' && d'[updated[k]] == Some(v))
    && (forall p :: p in d' <==> p in d || p in updated)
    && (forall p :: p in d && p !in updated ==> d'[p] == d[p])
  }

  /** The outcome of `_update_version_files(v)`: `updated` is the list of written locations, and the disk shows exactly those writes. */
  ghost predicate WroteVersionFiles(d: Disk, d': Disk, updated: seq<Path>, locs: seq<Path>, appDir: string, failing: set<Path>, v: string) {
    updated == Written(d, locs, appDir, failing) && HoldsWritten(d, d', updated, v)
  }

  /**
   * src/updater.py `_update_version_files`. `failing` holds the locations whose
   * `open(..., 'w')` raises; such a failure is logged and the loop moves on.
   */
  method UpdateVersionFiles(d: Disk, locs: seq<Path>, appDir: string, failing: set<Path>, v: string)
    returns (d': Disk, updated: seq<Path>)
    ensures WroteVersionFiles(d, d', updated, locs, appDir, failing, v)
  {
    d' := d;
    updated := [];
    for i := 0 to |locs|
      invariant updated == Written(d, locs[..i], appDir, failing)
      invariant HoldsWritten(d, d', updated, v)
    {
      assert locs[..i + 1][..i] == locs[..i];
      WrittenMembers(d, locs[..i], appDir, failing);
      d', updated := UpdateVersionFile(d, d', updated, locs[i], appDir, failing, v);
    }
    assert locs[..|locs|] == locs;
  }

  /** One pass of the loop of `_update_version_files`: write `p` if it exists or lies in the app directory, unless the write raises. */
  method UpdateVersionFile(d: Disk, d0: Disk, updated0: seq<Path>, p: Path, appDir: string, failing: set<Path>, v: string)
    returns (d': Disk, updated: seq<Path>)
    requires HoldsWritten(d, d0, updated0, v)
    requires forall q :: q in updated0 ==> Eligible(d, q, appDir)
    ensures updated == updated0 + if Eligible(d, p, appDir) && p !in failing then [p] else []
    ensures HoldsWritten(d, d', updated, v)
  {
    d', updated := d0, updated0;
    if (p in d' || p.dir == appDir) && p !in failing {
      d' := d'[p := Some(v)];
      updated := updated + [p];
    }
  }


  /** After a rewrite that reached `app_dir/VERSION`, the next `_read_version_file` returns the new version. */
  lemma RewrittenVersionReadsBack(d: Disk, d': Disk, updated: seq<Path>, locs: seq<Path>, appDir: string, failing: set<Path>, v: string)
    requires WroteVersionFiles(d, d', updated, locs, appDir, failing, v)
    requires |locs| > 0 && locs[0] in updated && v != "" && Unpadded(v)
    ensures ReadFirstVersion(d', locs) == v
  {
    var k :| 0 <= k < |updated| && updated[k] == locs[0];
    StripTrailing(v, "");
    assert v + "" == v;
    assert Usable(d', locs[0]);
  }

  /** The streamed HTTP response: its chunks, and the chunk index at which iteration raises, if any. */
  datatype Stream = Stream(chunks: seq<string>, failAt: Option<nat>)

  function Concat(chunks: seq<string>): string {
    if chunks == [] then "" else Concat(chunks[..|chunks| - 1]) + chunks[|chunks| - 1]
  }

  /** How many chunks arrive before the stream raises (all of them when it does not). */
  function Delivered(s: Stream): nat {
    if s.failAt.Some? && s.failAt.value < |s.chunks| then s.failAt.value else |s.chunks|
  }

  function DownloadTarget(tempDir: string, info: UpdateInfo): Path {
    Path(tempDir, "update_" + info.assetName)
  }

  /**
   * download_update. `response` is `None` when the GET or `raise_for_status`
   * raises; `openOk` says whether the temp file can be opened for writing.
   * Each non-empty chunk is appended and counted in `downloaded`.
   */
  method DownloadUpdate(d: Disk, tempDir: string, info: UpdateInfo, response: Option<Stream>, openOk: bool)
    returns (r: Option<Path>, d': Disk, downloaded: nat)
    ensures response.None? || !openOk ==> r.None? && d' == d && downloaded == 0
    ensures response.Some? && openOk ==>
      var target := DownloadTarget(tempDir, info);
      var got := response.value.chunks[..Delivered(response.value)];
      && d' == d[target := Some(Concat(got))]
      && downloaded == |Concat(got)|
      && (r.Some? <==> Delivered(response.value) == |response.value.chunks|)
      && (r.Some? ==> r.value == target && d'[target] == Some(Concat(response.value.chunks)))
  {
    if response.None? || !openOk {
      return None, d, 0;
    }
    var target := DownloadTarget(tempDir, info);
    var stream := response.value;
    var content := "";
    downloaded := 0;
    var failed := false;
    var i := 0;
    while i < |stream.chunks|
      invariant 0 <= i <= Delivered(stream)
      invariant !failed
      invariant content == Concat(stream.chunks[..i])
      invariant downloaded == |content|
    {
      if stream.failAt == Some(i) {
        failed := true;
        break;
      } else {
        var chunk := stream.chunks[i];
        assert stream.chunks[..i + 1][..i] == stream.chunks[..i];
        if chunk != "" {
          content := content + chunk;
          downloaded := downloaded + |chunk|;
        } else {
          assert content + chunk == content;
        }
        i := i + 1;
      }
    }
    assert i == Delivered(stream);
    assert failed <==> i < |stream.chunks|;
    d' := d[target := Some(content)];
    if failed {
      r := None;
    } else {
      assert stream.chunks[..i] == stream.chunks;
      r := Some(target);
    }
  }

  /** `os.path.join(dir, sub)` with the Windows separator. */
  function SubDir(dir: string, sub: string): string {
    dir + "\\" + sub
  }

  /** `executable_name or (basename(sys.executable) if frozen) or "RelatorioTJMS.exe"`. */
  function ExecutableName(given: Option<string>, frozen: bool, sysExecutable: Path): string {
    if Truthy(given) then given.value else if frozen then sysExecutable.name else "RelatorioTJMS.exe"
  }

  /** The four places a non-frozen run looks for the executable, in order. */
  function ExeCandidates(appDir: string, cwd: string, name: string): seq<Path> {
    [Path(appDir, name), Path(SubDir(appDir, "dist"), name), Path(cwd, name), Path(SubDir(cwd, "dist"), name)]
  }

  /** The first candidate that exists, else `fallback`. */
  function FirstExisting(d: Disk, candidates: seq<Path>, fallback: Path): (r: Path)
    ensures (forall i :: 0 <= i < |candidates| ==> candidates[i] !in d) ==> r == fallback
    ensures forall i :: 0 <= i < |candidates| && candidates[i] in d && (forall j :: 0 <= j < i ==> candidates[j] !in d)
                ==> r == candidates[i]
  {
    if candidates == [] then fallback
    else if candidates[0] in d then candidates[0]
    else
      var r := FirstExisting(d, candidates[1..], fallback);
      assert forall i :: 1 <= i < |candidates| ==> candidates[i] == candidates[1..][i - 1];
      r
  }

  /** `current_exe_path` as `__init__` settles it: `sys.executable` when frozen, else the first candidate found. */
  function DetectExePath(d: Disk, frozen: bool, sysExecutable: Path, appDir: string, cwd: string, name: string): Path {
    if frozen then sysExecutable else FirstExisting(d, ExeCandidates(appDir, cwd, name), Path(appDir, name))
  }
}
